=== FILE: README.md ===
# 2048 move engine, modelled in Dafny

This project models the move engine of a small Python/pygame 2048 game
(`Main.py`). The model covers:

- the `Tiles` record: the constructor, `set_pos` and `move`;
- the four direction policy tables of `move_tiles`;
- one pass of the `while updated` loop. A pass sorts the tiles, visits each
  one to skip, slide, merge or block it, and then rebuilds the board
  dictionary with `update_tiles`;
- the settle loop that repeats passes until one changes nothing;
- `end_move`, `get_random_pos`, `generate_tiles` and `move_tiles` itself.

The modules follow the structure of the program:

| file | module | what it holds |
|---|---|---|
| `wrappers.dfy` | `Wrappers` | `Option` |
| `geometry.dfy` | `Geometry` | constants, `Cell`, `Tile`, constructor, `set_pos`, `move`, the key string |
| `tilemap.dfy` | `TileMap` | the `tiles` dict as an insertion-ordered association list |
| `board.dfy` | `Boards` | board invariant and `update_tiles` (`Rebuild`) |
| `directions.dfy` | `Directions` | the four policy tables and a direction-agnostic restatement |
| `sorting.dfy` | `Sorting` | Python's stable `sorted` with `key` and `reverse` |
| `resolver.dfy` | `Resolver` | one visit of the loop body, the `for` loop, one pass |
| `pass_properties.dfy` | `PassProperties` | inductive properties of the `for` loop |
| `moves.dfy` | `Moves` | properties of a pass and the `while updated` settle loop |
| `game.dfy` | `Game` | `get_random_pos`, `end_move`, `generate_tiles`, `move_tiles` |
| `scenarios.dfy` | `Scenarios` | a four-tile Left move followed pass by pass, with and without the pop quirk |

How the Python program is represented:

- **Tile objects.** They live in a heap `seq<Tile>`, and a tile's identity
  is its index there. This matters because `blocks` is a set of objects and
  the loop mutates objects that the dictionary still refers to.
- **The `tiles` dict.** It is a sequence of `(key, id)` entries in insertion
  order. Assigning to a present key replaces the entry in place; a new key
  is appended. The order matters because the next pass sorts `tiles.values()`
  stably.
- **Keys.** The key `f"{row}{col}"` is modelled by the `Cell` pair.
  `KeyStringInjective` shows that the two-digit string identifies the cell.
- **The pop inside `enumerate`.** The `for` loop is parameterised by a
  `Mode`. `AsWritten` keeps the index advancing after
  `sorted_tiles.pop(i)`, as Python's `enumerate` does. `Corrected` stays on
  position `i`, so that the tile moved into it is visited. See
  "## Findings".
- **Lookups during a pass.** They use the dictionary as it was when the pass
  started, as in the source: only `update_tiles` changes it.

## Model

| member | source | states |
|---|---|---|
| Geometry.NewTile | Main.py:35-40 | a new tile is registered at its cell and placed at the cell's pixel corner, with the given value |
| Geometry.FloorDiv | Main.py:66-68 | the result is the mathematical floor of the quotient: `q*b <= a < q*b + b` |
| Geometry.CeilDiv | Main.py:63-65 | the result is the mathematical ceiling of the quotient: `q*b - b < a <= q*b` |
| Geometry.SetPos | Main.py:62-68 | value and pixel position are unchanged; the new row and column are the cell whose span holds the pixel position, closed above for `ceil` and closed below otherwise |
| Geometry.Move | Main.py:70-73 | the pixel position shifts by the delta; value and registered cell stay as they were |
| Geometry.NewTileRoundTrip | Main.py:62-68 | `set_pos` on a freshly constructed tile gives back the same tile in both rounding modes |
| Geometry.DoublePowerOfTwo | Main.py:168 | doubling a tile value, a power of two of at least 2, gives a tile value |
| Geometry.Pow2IsPowerOfTwo | Main.py:168 | every `2 ** k` with `k >= 1` is a tile value |
| Geometry.PowerOfTwoIsPow2 | Main.py:168 | every tile value is `2 ** k` for some `k >= 1` |
| Geometry.KeyStringInjective | Main.py:103 | for single-digit coordinates, two cells have the same key string exactly when they are the same cell |
| TileMap.IndexOf | Main.py:117 | -1 exactly when no entry has the key; otherwise the first entry with the key |
| TileMap.Get | Main.py:117 | `tiles.get` finds nothing exactly when the key is absent; what it finds is stored under that key |
| TileMap.Put | Main.py:194 | after `tiles[k] = id` the lookup of `k` gives `id`; the keys gain `k`; the length grows exactly when `k` is new; every other lookup is unchanged; a new key is appended at the end of `values()`, and a present key keeps its position with every other entry in place |
| TileMap.PutKeepsNoDup | Main.py:194 | storing a tile that the dictionary does not hold yet keeps the keys unique and no tile stored twice |
| TileMap.GetFindsEntry | Main.py:117 | with unique keys, the tile stored under a key is the one `get` returns |
| Boards.Rebuild | Main.py:191-194 | `update_tiles` gives a dictionary with unique keys, each tile stored under its own cell, no more entries than listed tiles, and only listed tiles |
| Boards.RebuildKeys | Main.py:191-194 | the rebuilt keys are exactly the cells of the listed tiles |
| Boards.RebuildNoDup | Main.py:191-194 | a list without repeats rebuilds into a dictionary that stores no tile twice |
| Boards.RebuildWithoutCollision | Main.py:191-194 | when the listed tiles occupy distinct cells, `values()` afterwards is the list itself, in order |
| Boards.RebuildIsKeyedList | Main.py:191-194 | without collisions, entry `i` of the rebuilt dictionary is tile `i` of the list under its own cell |
| Boards.RebuildRoundTrip | Main.py:191-194 | rebuilding a well-formed dictionary from its own `values()` gives it back unchanged |
| Boards.RebuildCollisionLosesTile | Main.py:193-194 | when two listed tiles share a cell, the rebuilt dictionary has fewer entries than the list: a tile is lost |
| Boards.RebuildOverwrites | Main.py:193-194 | a last tile whose cell an earlier one already uses adds no entry: the length stays that of the earlier tiles' dictionary, the cell now finds the last tile (the last writer wins), and every other entry stays where and what it was |
| Boards.LookupOwnCell | Main.py:194 | in a well-formed board every stored tile is found under the key of its own cell |
| Directions.Step | Main.py:172-177 | a step plus `set_pos` keeps the value, advances the tile by `MOVE_LEV` along the direction, and leaves the other coordinate alone |
| Directions.AtRestIsPlaced | Main.py:35-40 | a tile at rest, at its cell's pixel corner as the constructor puts it, is registered where `set_pos` rounds its position for every direction |
| Directions.StepKeepsPlaced | Main.py:172-177 | a placed tile that is not on the boundary steps to a placed tile: one step followed by `set_pos` never takes it off the 4x4 grid |
| Directions.PolicyIsUniform | Main.py:112-150 | the four tables are one rule. The delta is `MOVE_LEV` towards the edge; the sort key is the lane; `reverse` holds for the positive directions; the boundary is lane 0 or 3; the neighbour is one lane ahead; a merge waits while the gap exceeds one step; a slide past an unequal tile needs more than a tile and a step; `ceil` holds for the negative directions |
| Directions.PlacedWindow | Main.py:62-68 | a tile registered where `set_pos` rounds its position has advanced along the direction at least to its cell's near edge and less than a whole tile beyond it |
| Directions.NeighbourDepth | Main.py:112-150 | the cell `get_next_tile` looks up is exactly one lane further along the direction than the tile's own cell, so it is never the tile's own cell |
| Sorting.Insert | Main.py:155 | insertion adds exactly one occurrence of the element |
| Sorting.InsertKeepsSorted | Main.py:155 | inserting into a sorted list keeps it sorted |
| Sorting.SortBy | Main.py:155 | the result is a permutation of the input, sorted by key in the requested direction |
| Sorting.SortByIsStable | Main.py:155 | for every key, the elements carrying it keep their input order |
| Sorting.SortBySorted | Main.py:155 | an input that is already in order comes back unchanged |
| Resolver.VisitTile | Main.py:157-178 | a visit pops the visited tile from the list exactly when it merges, and otherwise leaves the list alone |
| Resolver.VisitTileMeetsSpec | Main.py:158-178 | each branch of the loop body, both ways. A boundary tile is skipped; a free cell ahead, a still-approaching equal unblocked neighbour, or room before an unequal one means a step; an equal unblocked neighbour within a step means a merge that doubles it, pops the visited tile and blocks the neighbour; a blocked tile has an occupied cell ahead that it can neither merge with nor slide towards, and off the boundary each case forces its one outcome. Only the visited tile changes place, and `updated` is set by a step or a merge |
| Resolver.PassFrom | Main.py:157-178 | the `for` loop only removes tiles from the list, never adds or repeats one, and keeps every dictionary reference valid |
| Resolver.SortedTiles | Main.py:155 | `sorted(tiles.values(), ...)` is a permutation of the dictionary's tiles, without repeats, in the direction's order |
| Resolver.Pass | Main.py:154-179 | one pass leaves a well-formed board whose dictionary is `update_tiles` applied to the surviving list |
| PassProperties.VisitMergeConservesValue | Main.py:164-170 | a merge conserves the total value of the list when the tile merged into is still in it; on placed boards `VisitTargetStays` shows it always is |
| PassProperties.VisitTargetStays | Main.py:161-169 | when every listed tile started the pass placed, a merge goes into a listed tile other than the visited one, and never into a tile merged away earlier in the pass: such a tile sits within one step of its cell's far edge, too far ahead for the tile one lane behind to be within a step of it |
| PassProperties.VisitKeepsMergeInv | Main.py:157-178 | one visit keeps the pass invariant: listed tiles stay placed and found under their cells, every dictionary tile stays listed or merged away, and a tile merged away stays off the list, found under its cell and within a step of its far edge |
| PassProperties.PassFromTargetsStay | Main.py:157-178 | under that invariant the loop never merges into a tile merged away earlier in the pass, and the total value of the list at the end equals its total at the start |
| PassProperties.PassFromMergeMembers | Main.py:157-178 | every merge goes into a tile of the dictionary, the list only loses tiles, and every tile merged away is absent from the final list |
| PassProperties.ValueSumPermutation | Main.py:155 | two lists holding the same tiles, counted with repetition, have the same total value, so sorting keeps the total |
| PassProperties.VisitProgress | Main.py:158-178 | a step adds exactly `MOVE_LEV` to the total advance of all tiles; anything else adds nothing; no single tile ends further back than it was |
| PassProperties.PassFromProgress | Main.py:157-178 | the loop never moves a tile backwards: every tile's advance along the direction is at least what it was. `updated` ends up set exactly when some tile advanced or some tile was merged away, and an unset flag means nothing changed |
| PassProperties.PassFromMergesOnce | Main.py:164-170 | every merge goes into a tile outside `blocks`, and no tile absorbs two. The tile merged away was itself outside `blocks` and had not been merged into earlier in the pass, so an absorbed tile never merges on. `blocks` grows by exactly the tiles merged into, and each merge removes one tile from the list |
| PassProperties.VisitKeepsPlaced | Main.py:157-178 | a visit keeps every listed tile placed, registered on the grid where `set_pos` rounds its position |
| PassProperties.VisitKeepsPowers | Main.py:164-170 | a visit keeps every tile value a power of two of at least 2: a merge doubles a value equal to the visited one |
| PassProperties.PassFromKeepsPowers | Main.py:157-178 | the whole `for` loop keeps every tile value a power of two of at least 2 |
| PassProperties.PassFromKeepsPlaced | Main.py:157-178 | the whole `for` loop keeps every listed tile placed |
| PassProperties.PassFromKeepsPrefix | Main.py:157-169 | the loop only pops at or after its current position |
| PassProperties.PassFromFrame | Main.py:157-178 | a tile the loop will not visit keeps its position and cell |
| PassProperties.PassFromKeepsBoundaryTile | Main.py:158-159 | a tile registered on the boundary is neither moved nor merged away, and stays in the list |
| PassProperties.PassFromVisitsPending | Main.py:157 | every tile visited was still ahead of the loop when it started |
| PassProperties.CorrectedPassFromVisitsAll | Main.py:157-169 | with the index held after a pop, the loop visits exactly the remaining list, in order |
| PassProperties.AsWrittenSkipsTileAfterMerge | Main.py:157-169 | as written, the tile behind a merged one is never visited in that pass |
| Moves.PassProgress | Main.py:152-179 | a pass never moves any tile backwards along the direction. It reports `updated` exactly when a tile advanced or was merged away, and a quiet pass leaves tiles, `blocks` and list unchanged |
| Moves.PassKeepsPlaced | Main.py:154-179 | a pass on a board whose registered tiles are placed leaves a board whose registered tiles are placed |
| Moves.PassKeepsPowers | Main.py:154-179 | a pass keeps every tile value a power of two of at least 2 |
| Moves.PassMergesOnce | Main.py:164-170 | within a pass every merge goes into an unblocked tile, none absorbs two, and the tile merged away was neither blocked nor merged into earlier in the pass. `blocks` grows by exactly the tiles merged into as the list shrinks by as many |
| Moves.StartMergeInv | Main.py:155-157 | a pass on a well-formed board whose tiles are placed begins under the pass invariant, with nothing merged away |
| Moves.PassConservesValue | Main.py:154-194 | on a placed board a pass never merges into a tile merged away earlier in it, and the survivors hold exactly the total value of the dictionary's tiles; when no two survivors share a cell, the dictionary `update_tiles` rebuilds holds it too |
| Moves.PassMergeMembers | Main.py:154-194 | every merge of a pass goes into a tile of the dictionary, no tile merged away is in the rebuilt dictionary, and the rebuilt dictionary holds only tiles of the old one |
| Moves.PassKeepsBoundaryTile | Main.py:158-159 | a boundary tile survives a pass in place |
| Moves.CorrectedPassVisitsEveryTile | Main.py:155-169 | the corrected pass visits every tile of the sorted list once, in order |
| Moves.SortedTilesAtDistinctCells | Main.py:155 | the tiles of a well-formed board sit at pairwise distinct cells |
| Moves.SameTilesSameLookups | Main.py:191-194 | two consistent dictionaries over the same tiles answer every lookup alike |
| Moves.Settle | Main.py:152-179 | over a whole move: no tile moves backwards along the direction; a board whose tiles are placed stays placed; tile values stay powers of two; every merge goes into a different tile not blocked at the start; no tile that was blocked or merged into merges away later in the move; the final `blocks` are exactly the tiles merged into; tiles plus blocks never grow; every merge goes into a tile the move began with; on a placed board no merge goes into a tile merged away earlier in the move, in the same pass or an earlier one |
| Moves.SettleStaysOnGrid | Main.py:152-179 | a move that starts with every tile at rest ends, when it settles, with every key a cell of the 4x4 grid and every tile registered where its position rounds to |
| Moves.SettleStep | Main.py:152-179 | a pass that changes something hands the rest of the move to the loop on that pass's board, with one pass less |
| Moves.SettleShrinks | Main.py:152-179 | the end of the move has at most the tiles plus blocks that its first changing pass left |
| Moves.QuietPassKeepsLookups | Main.py:152-179 | a pass that changes nothing rebuilds a dictionary that answers every lookup as before |
| Moves.QuietMoveKeepsBoard | Main.py:152-179 | a move whose first pass is quiet settles at once with the same tile objects, `blocks` and lookups |
| Game.GetRandomPos | Main.py:96-106 | the pick is the first drawn cell not in the dictionary, after rejecting exactly the occupied draws before it; there is no pick exactly when every draw is occupied |
| Game.Spawn | Main.py:188 | a fresh tile of the given value is created at the empty cell and registered under it; the board stays well-formed and nothing else changes, so a power-of-two value keeps every tile value a power of two |
| Game.EndMove | Main.py:183-189 | a full board (16 keys) reports `False` and is unchanged. Otherwise exactly one new tile of the chosen value (2 or 4) appears at a previously empty (and, with on-grid draws, on-grid) cell, and `True` is reported; tile values stay powers of two |
| Game.GenerateTiles | Main.py:198-204 | two tiles of value 2 at the first draw and at the first later draw that differs from it (every draw between repeats the first), so every tile value is a power of two; nothing when no draw differs |
| Game.GenerateTilesPicksFirstNewDraw | Main.py:198-204 | conversely, whenever draw `j` is the first that differs from draw 0, the board holds exactly a 2 at draw 0 and a 2 at draw `j` |
| Game.MoveTiles | Main.py:108-181 | the move leaves a well-formed board with at most one tile more; a tile was spawned exactly when the heap grew, and no spawn means a full board; a board whose tile values are powers of two keeps them so |
| Game.EndMoveOnSameCells | Main.py:183-189 | `end_move` on a board that answers lookups as another does spawns and keeps every lookup of the other |
| Game.QuietMoveStillSpawns | Main.py:152-181 | `move_tiles` calls `end_move` even when no tile moved, so a key press that changes nothing still adds a tile |
| Scenarios.ExampleStartsOnGrid | Main.py:35-40 | the example board is what the constructor builds |
| Scenarios.SlidingPass | Main.py:152-179 | in passes 1 to 9 of the example, every tile off the boundary slides one step, in either mode |
| Scenarios.TenthPassAsWritten | Main.py:157-194 | as written, pass 10 merges tile 1 into tile 0 and skips tile 2. Tile 3 then steps onto tile 2's cell, and the rebuilt dictionary holds tile 0 and tile 3 only: tile 2 is lost |
| Scenarios.RebuildSkipped | Main.py:191-194 | after pass 10 as written, `update_tiles` stores tile 3 in tile 2's entry, in place |
| Scenarios.DriftPass | Main.py:152-179 | as written, in passes 11 to 19 the boundary tile stays and tile 3 slides one step towards column 0 |
| Scenarios.DriftLastPass | Main.py:152-179 | as written, pass 20 brings tile 3 to (0, 0) |
| Scenarios.LostQuietPass | Main.py:152-179 | as written, pass 21 changes nothing, so the loop ends on a board of two tiles |
| Scenarios.DriftMove | Main.py:152-179 | from stage `k` after pass 10 as written, the move lands on the two-tile board exactly when it has fuel for the remaining passes |
| Scenarios.TenthPassCorrected | Main.py:157-179 | corrected, pass 10 merges tile 1 into tile 0, slides tile 2 into column 0, and moves tile 3 on |
| Scenarios.ClosingPass | Main.py:152-179 | in passes 11 to 19, tile 3 closes in on tile 2 one step per pass |
| Scenarios.ClosingLastPass | Main.py:164-170 | pass 20 merges tile 3 into tile 2 |
| Scenarios.QuietPass | Main.py:152-179 | pass 21 changes nothing, so the loop ends |
| Scenarios.ClosingMove | Main.py:152-179 | from stage `k` of the closing run, the move lands on the finished board exactly when it has fuel for the remaining passes |
| Scenarios.CorrectedMove | Main.py:152-179 | corrected, the example move ends with `2v` at (1, 0) and `2w` at (0, 0) with tiles 0 and 2 blocked, given fuel for its passes. Every one of the four tiles is either on the board or merged away |
| Scenarios.TenthPassLosesTile | Main.py:157-194 | as written, pass 10 leaves fewer tiles plus blocks than the four tiles it started from |
| Scenarios.AsWrittenMove | Main.py:152-194 | as written, the example move settles exactly when it has fuel for its passes, and then ends with `2v` at (1, 0) and a single `w` at (0, 0). Tiles on the board plus merges are fewer than the four it started with: tile 2 vanished without merging |

## Left out

- Rendering is not modelled: `draw`, `draw_grid`, `Tiles.draw`, `Tiles.get_color`, fonts and colours, and `pygame.display`. None of them affects the board.
- The clock (`clock.tick(FPS)`) and the event loop `main` are not modelled; the clock only paces frames.
- Randomness is a parameter. `randrange` is a finite sequence of drawn cells, and `random.choice([2, 4])` is a value argument that must be 2 or 4.
- `Game.GetRandomPos` returns nothing when the draws run out, where the source would keep drawing. The same goes for `Game.EndMove` and `Game.GenerateTiles`, which depend on it.
- `Moves.Settle` runs at most `fuel + 1` passes and returns nothing when the fuel runs out, where the source loops until a quiet pass. Every property is stated for the runs that settle. The example run settles with fuel 20, so the bound hides nothing there.
- Geometry.SetPos uses integer floor and ceiling division where the source divides in floating point (`y / RECT_HEIGHT`). Pixel positions are integers and the divisors are 200, so the two agree.
- The direction is an enumeration of the four key presses. A direction string other than "L", "R", "U" or "D" would leave the tables unset in the source; the game never passes one.
- The key string `f"{row}{col}"` is represented by its `Cell`. `Geometry.KeyStringInjective` shows the two are interchangeable for single-digit coordinates.
- `if not next_tile` is modelled as "no entry", since a tile object is always truthy.
- Values are unbounded integers, as Python's are.
- PassProperties.VisitMergeConservesValue: its condition, that the tile merged into is still listed, is proved only for passes whose tiles all start placed (`PassProperties.MergeInv`); every board a game reaches is placed (`Moves.Settle`, `Moves.SettleStaysOnGrid`). Without placement it fails: in a corrected Left pass over three 2s registered at (0,0), (0,1) and (0,2) but drawn at x = 0, 20 and 40, the middle tile merges into the first and the last then merges into the middle one, so the list's total drops from 6 to 4.
- Moves.PassConservesValue: the rebuilt dictionary keeps the total value only when no two survivors share a cell. Across a whole move the dictionary's total is not claimed. As written it is false (see "## Findings"), and for the corrected loop it would need a proof that a pass never leaves two survivors on one cell, which the model does not have.
- Moves.SettleStaysOnGrid: requires every tile to start at rest. It does not prove that a settled move leaves the tiles at rest again, which would carry the bound from one move to the next; it only keeps them placed on the grid.

## Findings

| source | as written | input that shows it | evidently intended | confidence | as-written member | corrected member |
|---|---|---|---|---|---|---|
| Main.py:157-169 | `sorted_tiles.pop(i)` runs inside `for i, ele in enumerate(sorted_tiles)`, so after a merge the tile that moves into position `i` is never visited in that pass. If it later shares a cell with the tile behind it, `update_tiles` (Main.py:191-194) overwrites it and the tile vanishes | A Left move on four tiles inserted in this order: a 4 at (1,0), a 4 at (1,1), a 2 at (0,1), a 2 at (0,2). In pass 10 the second 4 merges into the first; the 2 from (0,1) is skipped; the other 2 steps onto (0,1), and `update_tiles` keeps only it. The move ends with an 8 at (1,0) and a single 2 at (0,0) | every tile is visited after a merge, so the move ends with an 8 at (1,0) and a 4 at (0,0) | high; not executed | Scenarios.AsWrittenMove | Scenarios.CorrectedMove |

Both halves are proved:

- As written: `Scenarios.TenthPassAsWritten` exhibits the skipped tile and
  the lost dictionary entry, and `Scenarios.AsWrittenMove` shows that the
  settled move ends with an 8 and a single 2, short a tile. `PassProperties.AsWrittenSkipsTileAfterMerge`
  states the skip for any list.
- Corrected: `Moves.CorrectedPassVisitsEveryTile` shows that the corrected
  pass visits every tile, and `Scenarios.CorrectedMove` shows that the same
  move then ends with both merged tiles. `Game.MoveTiles` takes the mode as
  a parameter.

=== FILE: board.dfy ===
/** The board between passes: the dictionary of tiles together with the heap
    of tile objects it refers to, and `update_tiles`, which rebuilds the
    dictionary from the surviving tiles. */
module Boards {

  import opened Wrappers
  import opened Geometry
  import opened TileMap

  datatype Board = Board(dict: Dict, heap: seq<Tile>)

  predicate NoDup<T(==)>(s: seq<T>) {
    forall i, j :: 0 <= i < j < |s| ==> s[i] != s[j]
  }

  predicate IdsIn(ids: seq<TileId>, heap: seq<Tile>) {
    forall i :: 0 <= i < |ids| ==> ids[i] < |heap|
  }

  /** Every entry is keyed by the cell its tile is registered at. */
  predicate Consistent(d: Dict, heap: seq<Tile>) {
    forall i :: 0 <= i < |d| ==> d[i].id < |heap| && CellOf(heap[d[i].id]) == d[i].key
  }

  /** The board invariant kept between passes and between moves. */
  predicate WellFormed(b: Board) {
    UniqueKeys(b.dict) && NoDup(Values(b.dict)) && Consistent(b.dict, b.heap)
  }

  /** No two listed tiles are registered at the same cell. */
  predicate DistinctCells(heap: seq<Tile>, ids: seq<TileId>)
    requires IdsIn(ids, heap)
  {
    forall i, j :: 0 <= i < j < |ids| ==> CellOf(heap[ids[i]]) != CellOf(heap[ids[j]])
  }

  function CellsOf(heap: seq<Tile>, ids: seq<TileId>): set<Cell>
    requires IdsIn(ids, heap)
  {
    set i | 0 <= i < |ids| :: CellOf(heap[ids[i]])
  }

  /** `update_tiles`: clear the dictionary, then assign every surviving tile
      to the key of its cell, in list order; a later tile at the same cell
      overwrites an earlier one. */
  function Rebuild(heap: seq<Tile>, ids: seq<TileId>): (d: Dict)
    requires IdsIn(ids, heap)
    ensures UniqueKeys(d) && Consistent(d, heap)
    ensures |d| <= |ids|
    ensures forall e :: e in d ==> e.id in ids
  {
    if |ids| == 0 then []
    else
      var prefix := ids[..|ids| - 1];
      var last := ids[|ids| - 1];
      var p := Rebuild(heap, prefix);
      RebuildStep(heap, ids, p);
      Put(p, CellOf(heap[last]), last)
  }

  /** Registering the last tile of `ids` on top of a dictionary rebuilt
      from the others. */
  lemma RebuildStep(heap: seq<Tile>, ids: seq<TileId>, p: Dict)
    requires IdsIn(ids, heap) && |ids| > 0
    requires UniqueKeys(p) && Consistent(p, heap) && |p| <= |ids| - 1
    requires forall e :: e in p ==> e.id in ids[..|ids| - 1]
    ensures var d := Put(p, CellOf(heap[ids[|ids| - 1]]), ids[|ids| - 1]);
      && UniqueKeys(d) && Consistent(d, heap) && |d| <= |ids|
      && forall e :: e in d ==> e.id in ids
  {
    var prefix := ids[..|ids| - 1];
    var last := ids[|ids| - 1];
    var d := Put(p, CellOf(heap[last]), last);
    forall e | e in d ensures e.id < |heap| && CellOf(heap[e.id]) == e.key && e.id in ids {
      if e in p {
        var j :| 0 <= j < |p| && p[j] == e;
        var k :| 0 <= k < |prefix| && prefix[k] == e.id;
        assert ids[k] == e.id;
      }
    }
    forall i | 0 <= i < |d| ensures d[i].id < |heap| && CellOf(heap[d[i].id]) == d[i].key {
      assert d[i] in d;
    }
  }

  /** The cells of a list are the cells of all but its last tile plus the
      cell of the last one. */
  lemma CellsOfSnoc(heap: seq<Tile>, ids: seq<TileId>)
    requires IdsIn(ids, heap) && |ids| > 0
    ensures IdsIn(ids[..|ids| - 1], heap)
    ensures CellsOf(heap, ids) == CellsOf(heap, ids[..|ids| - 1]) + {CellOf(heap[ids[|ids| - 1]])}
  {
    var prefix := ids[..|ids| - 1];
    var last := ids[|ids| - 1];
    forall c | c in CellsOf(heap, ids) ensures c in CellsOf(heap, prefix) + {CellOf(heap[last])} {
      var i :| 0 <= i < |ids| && c == CellOf(heap[ids[i]]);
      if i < |ids| - 1 { assert ids[i] == prefix[i]; }
    }
    forall c | c in CellsOf(heap, prefix) ensures c in CellsOf(heap, ids) {
      var i :| 0 <= i < |prefix| && c == CellOf(heap[prefix[i]]);
      assert prefix[i] == ids[i];
    }
  }

  /** The rebuilt dictionary has a key for exactly the cells of the listed tiles. */
  lemma {:induction false} RebuildKeys(heap: seq<Tile>, ids: seq<TileId>)
    requires IdsIn(ids, heap)
    ensures Keys(Rebuild(heap, ids)) == CellsOf(heap, ids)
  {
    if |ids| > 0 {
      var prefix := ids[..|ids| - 1];
      var last := ids[|ids| - 1];
      CellsOfSnoc(heap, ids);
      RebuildKeys(heap, prefix);
      assert Keys(Rebuild(heap, ids)) == Keys(Rebuild(heap, prefix)) + {CellOf(heap[last])};
    }
  }

  /** Rebuilding from a list without repeated tiles lists no tile twice. */
  lemma {:induction false} RebuildNoDup(heap: seq<Tile>, ids: seq<TileId>)
    requires IdsIn(ids, heap) && NoDup(ids)
    ensures NoDup(Values(Rebuild(heap, ids)))
  {
    if |ids| > 0 {
      var prefix := ids[..|ids| - 1];
      var last := ids[|ids| - 1];
      var p := Rebuild(heap, prefix);
      RebuildNoDup(heap, prefix);
      forall k | 0 <= k < |p| ensures Values(p)[k] != last {
        assert p[k] in p;
      }
      PutKeepsNoDup(p, CellOf(heap[last]), last);
    }
  }

  /** Without two tiles at one cell, `update_tiles` keeps every tile, in list order. */
  lemma {:induction false} RebuildWithoutCollision(heap: seq<Tile>, ids: seq<TileId>)
    requires IdsIn(ids, heap) && DistinctCells(heap, ids)
    ensures Values(Rebuild(heap, ids)) == ids
  {
    if |ids| > 0 {
      var prefix := ids[..|ids| - 1];
      var last := ids[|ids| - 1];
      assert ids == prefix + [last];
      assert IdsIn(prefix, heap);
      assert DistinctCells(heap, prefix) by {
        forall i, j | 0 <= i < j < |prefix| ensures CellOf(heap[prefix[i]]) != CellOf(heap[prefix[j]]) {
          assert prefix[i] == ids[i] && prefix[j] == ids[j];
        }
      }
      RebuildWithoutCollision(heap, prefix);
      RebuildKeys(heap, prefix);
      assert CellOf(heap[last]) !in CellsOf(heap, prefix);
    }
  }

  /** Without two tiles at one cell, the rebuilt dictionary is exactly the
      list keyed by each tile's cell. */
  lemma RebuildIsKeyedList(heap: seq<Tile>, ids: seq<TileId>)
    requires IdsIn(ids, heap) && DistinctCells(heap, ids)
    ensures |Rebuild(heap, ids)| == |ids|
    ensures forall i :: 0 <= i < |ids| ==> Rebuild(heap, ids)[i] == Entry(CellOf(heap[ids[i]]), ids[i])
  {
    var d := Rebuild(heap, ids);
    RebuildWithoutCollision(heap, ids);
    forall i | 0 <= i < |ids| ensures d[i] == Entry(CellOf(heap[ids[i]]), ids[i]) {
      assert Values(d)[i] == d[i].id;
    }
  }

  /** Rebuilding a well-formed dictionary from its own values, in order,
      gives back the same dictionary. */
  lemma RebuildRoundTrip(b: Board)
    requires WellFormed(b)
    ensures Rebuild(b.heap, Values(b.dict)) == b.dict
  {
    var ids := Values(b.dict);
    assert IdsIn(ids, b.heap);
    assert DistinctCells(b.heap, ids);
    RebuildIsKeyedList(b.heap, ids);
  }

  /** Two listed tiles registered at one cell make `update_tiles` drop a tile:
      the later one overwrites the earlier under the shared key. */
  lemma {:induction false} RebuildCollisionLosesTile(heap: seq<Tile>, ids: seq<TileId>)
    requires IdsIn(ids, heap) && !DistinctCells(heap, ids)
    ensures |Rebuild(heap, ids)| < |ids|
  {
    var i, j :| 0 <= i < j < |ids| && CellOf(heap[ids[i]]) == CellOf(heap[ids[j]]);
    if j < |ids| - 1 {
      var prefix := ids[..|ids| - 1];
      CollisionInPrefix(heap, ids, i, j);
      RebuildCollisionLosesTile(heap, prefix);
      RebuildGrowsByAtMostOne(heap, ids);
    } else {
      RebuildOverwrites(heap, ids, i);
    }
  }

  lemma CollisionInPrefix(heap: seq<Tile>, ids: seq<TileId>, i: nat, j: nat)
    requires IdsIn(ids, heap) && i < j < |ids| - 1 && CellOf(heap[ids[i]]) == CellOf(heap[ids[j]])
    ensures IdsIn(ids[..|ids| - 1], heap) && !DistinctCells(heap, ids[..|ids| - 1])
  {
    var prefix := ids[..|ids| - 1];
    assert prefix[i] == ids[i] && prefix[j] == ids[j];
  }

  /** `update_tiles` adds at most one entry per listed tile. */
  lemma RebuildGrowsByAtMostOne(heap: seq<Tile>, ids: seq<TileId>)
    requires IdsIn(ids, heap) && |ids| > 0
    ensures IdsIn(ids[..|ids| - 1], heap)
    ensures |Rebuild(heap, ids)| <= |Rebuild(heap, ids[..|ids| - 1])| + 1
  {
  }

  /** A last tile sharing its cell with an earlier one adds no entry: it
      takes over the entry of that cell in place, so the tile stored there
      before is no longer in the dictionary, and every other entry stays. */
  lemma RebuildOverwrites(heap: seq<Tile>, ids: seq<TileId>, i: int)
    requires IdsIn(ids, heap) && 0 <= i < |ids| - 1
    requires CellOf(heap[ids[i]]) == CellOf(heap[ids[|ids| - 1]])
    ensures IdsIn(ids[..|ids| - 1], heap)
    ensures var before := Rebuild(heap, ids[..|ids| - 1]);
      var last := ids[|ids| - 1];
      var c := CellOf(heap[last]);
      && |Rebuild(heap, ids)| == |before| < |ids|
      && Get(Rebuild(heap, ids), c) == Some(last)
      && forall j :: 0 <= j < |before| ==>
           Rebuild(heap, ids)[j] == (if before[j].key == c then Entry(c, last) else before[j])
  {
    CellAlreadyKeyed(heap, ids, i);
  }

  lemma CellAlreadyKeyed(heap: seq<Tile>, ids: seq<TileId>, i: int)
    requires IdsIn(ids, heap) && 0 <= i < |ids| - 1
    requires CellOf(heap[ids[i]]) == CellOf(heap[ids[|ids| - 1]])
    ensures IdsIn(ids[..|ids| - 1], heap)
    ensures CellOf(heap[ids[|ids| - 1]]) in Keys(Rebuild(heap, ids[..|ids| - 1]))
  {
    var prefix := ids[..|ids| - 1];
    assert IdsIn(prefix, heap);
    RebuildKeys(heap, prefix);
    assert prefix[i] == ids[i];
    assert CellOf(heap[ids[|ids| - 1]]) in CellsOf(heap, prefix);
  }

  /** In a well-formed board a tile is found under the key of its own cell. */
  lemma LookupOwnCell(b: Board, i: int)
    requires WellFormed(b) && 0 <= i < |b.dict|
    ensures Get(b.dict, CellOf(b.heap[b.dict[i].id])) == Some(b.dict[i].id)
  {
    assert b.dict[i] in b.dict;
    GetFindsEntry(b.dict, b.dict[i].key, b.dict[i].id);
  }

}

=== FILE: directions.dfy ===
/** The four per-direction policy tables of `move_tiles`: the sort key and
    order, the step delta, the boundary test, the neighbour lookup, the
    merge-distance and move-distance tests, and the rounding mode. */
module Directions {

  import opened Geometry

  datatype Direction = Left | Right | Up | Down

  /** `sort_fun`: the grid coordinate along the direction's axis. */
  function SortKey(dir: Direction, t: Tile): int {
    match dir
    case Left => t.col
    case Right => t.col
    case Up => t.row
    case Down => t.row
  }

  /** `reverse`: tiles are sorted in descending order for Right and Down. */
  predicate Reversed(dir: Direction) {
    dir == Right || dir == Down
  }

  /** `delta`: the pixel step of one animation frame. */
  function Delta(dir: Direction): (int, int) {
    match dir
    case Left => (-MoveLev, 0)
    case Right => (MoveLev, 0)
    case Up => (0, -MoveLev)
    case Down => (0, MoveLev)
  }

  /** `boundary_check`: the tile is registered on the edge it moves towards. */
  predicate AtBoundary(dir: Direction, t: Tile) {
    match dir
    case Left => t.col == 0
    case Right => t.col == Cols - 1
    case Up => t.row == 0
    case Down => t.row == Rows - 1
  }

  /** The key `get_next_tile` looks up: the adjacent cell in the direction of travel. */
  function NeighbourCell(dir: Direction, t: Tile): Cell {
    match dir
    case Left => Cell(t.row, t.col - 1)
    case Right => Cell(t.row, t.col + 1)
    case Up => Cell(t.row - 1, t.col)
    case Down => Cell(t.row + 1, t.col)
  }

  /** `merge_check`: the tile is still more than one step away from its
      equal neighbour, so it keeps sliding instead of merging. */
  predicate StillApproaching(dir: Direction, t: Tile, n: Tile) {
    match dir
    case Left => t.x > n.x + MoveLev
    case Right => t.x < n.x - MoveLev
    case Up => t.y > n.y + MoveLev
    case Down => t.y < n.y - MoveLev
  }

  /** `move_check`: there is more than a tile and a step between the tile
      and its unequal neighbour, so it may slide one more step. */
  predicate HasRoom(dir: Direction, t: Tile, n: Tile) {
    match dir
    case Left => t.x > n.x + MoveLev + RectWidth
    case Right => t.x + RectWidth + MoveLev < n.x
    case Up => t.y > n.y + MoveLev + RectHeight
    case Down => t.y + RectHeight + MoveLev < n.y
  }

  /** `ceil`: cells are recomputed by ceiling for Left and Up, by floor otherwise. */
  predicate RoundsUp(dir: Direction) {
    dir == Left || dir == Up
  }

  /** One animation step of `t` in direction `dir`, followed by `set_pos`. */
  function Step(dir: Direction, t: Tile): (r: Tile)
    ensures r.value == t.value
    ensures Advance(dir, r) == Advance(dir, t) + MoveLev
    ensures Across(dir, r) == Across(dir, t)
  {
    SetPos(Move(t, Delta(dir).0, Delta(dir).1), RoundsUp(dir))
  }

  /** During a move in `dir` a tile is placed when it is registered at a
      cell of the grid and that cell is where `set_pos`, rounding as `dir`
      does, puts its pixel position. */
  predicate Placed(dir: Direction, t: Tile) {
    OnGrid(CellOf(t)) && SetPos(t, RoundsUp(dir)) == t
  }

  /** A tile at rest is placed for every direction. */
  lemma AtRestIsPlaced(dir: Direction, t: Tile)
    requires AtRest(t)
    ensures Placed(dir, t)
  {
    assert t == NewTile(t.value, CellOf(t));
    NewTileRoundTrip(t.value, CellOf(t), RoundsUp(dir));
  }

  /** A placed tile off the boundary steps to a placed tile: one step from
      a cell that is not on the edge never leaves the grid. */
  lemma StepKeepsPlaced(dir: Direction, t: Tile)
    requires Placed(dir, t) && !AtBoundary(dir, t)
    ensures Placed(dir, Step(dir, t))
  {
  }

  // An independent, direction-agnostic description of the same tables.

  predicate Horizontal(dir: Direction) {
    dir == Left || dir == Right
  }

  /** +1 when the direction increases the coordinate along its axis, -1 otherwise. */
  function Sign(dir: Direction): int {
    if dir == Right || dir == Down then 1 else -1
  }

  /** How far along the direction of travel the tile's pixel position is. */
  function Advance(dir: Direction, t: Tile): int {
    match dir
    case Left => -t.x
    case Right => t.x
    case Up => -t.y
    case Down => t.y
  }

  /** The pixel coordinate perpendicular to the direction of travel. */
  function Across(dir: Direction, t: Tile): int {
    if Horizontal(dir) then t.y else t.x
  }

  /** The grid coordinate along the direction's axis. */
  function Lane(dir: Direction, t: Tile): int {
    if Horizontal(dir) then t.col else t.row
  }

  /** The pixel gap from `t` to `n`, measured in the direction of travel. */
  function Gap(dir: Direction, t: Tile, n: Tile): int {
    Advance(dir, n) - Advance(dir, t)
  }

  /** How far a cell lies in the direction of travel: its lane along the
      direction's axis, counted with the direction's sign. */
  function Depth(dir: Direction, c: Cell): int {
    Sign(dir) * (if Horizontal(dir) then c.col else c.row)
  }

  /** A placed tile sits within its cell's span of the direction of travel:
      its advance is at least the cell's near edge and short of the next
      cell's. */
  lemma PlacedWindow(dir: Direction, t: Tile)
    requires Placed(dir, t)
    ensures RectWidth * Depth(dir, CellOf(t)) <= Advance(dir, t) < RectWidth * Depth(dir, CellOf(t)) + RectWidth
  {
    var r := SetPos(t, RoundsUp(dir));
    assert r == t;
  }

  /** The cell `get_next_tile` looks up lies one lane deeper than the tile's own. */
  lemma NeighbourDepth(dir: Direction, t: Tile)
    ensures Depth(dir, NeighbourCell(dir, t)) == Depth(dir, CellOf(t)) + 1
    ensures NeighbourCell(dir, t) != CellOf(t)
  {
  }

  /** The four tables are one rule: step by MoveLev towards the edge, stop at
      the edge's lane, look one lane ahead, merge once the gap to an equal
      neighbour is at most one step, slide past an unequal one only while more
      than a tile and a step separate them, and round towards the origin side
      the tile came from. */
  lemma PolicyIsUniform(dir: Direction, t: Tile, n: Tile)
    ensures Delta(dir) == (if Horizontal(dir) then (Sign(dir) * MoveLev, 0) else (0, Sign(dir) * MoveLev))
    ensures SortKey(dir, t) == Lane(dir, t)
    ensures Reversed(dir) <==> Sign(dir) > 0
    ensures AtBoundary(dir, t) <==> Lane(dir, t) == (if Sign(dir) < 0 then 0 else 3)
    ensures NeighbourCell(dir, t) ==
      (if Horizontal(dir) then Cell(t.row, t.col + Sign(dir)) else Cell(t.row + Sign(dir), t.col))
    ensures StillApproaching(dir, t, n) <==> Gap(dir, t, n) > MoveLev
    ensures HasRoom(dir, t, n) <==> Gap(dir, t, n) > MoveLev + RectWidth
    ensures RoundsUp(dir) <==> Sign(dir) < 0
  {
  }

}

=== FILE: game.dfy ===
/** The game-level operations around the move engine: `get_random_pos`,
    `end_move`, `generate_tiles` and `move_tiles`. The random source is a
    parameter: `draws` is the sequence of cells the two `randrange` calls
    would return, in order, and `value` is what `random.choice([2, 4])`
    returns. */
module Game {

  import opened Wrappers
  import opened Geometry
  import opened TileMap
  import opened Boards
  import opened Directions
  import opened Resolver
  import opened Moves

  /** A cell chosen by rejection sampling, and how many draws were
      rejected before it. */
  datatype Pick = Pick(cell: Cell, rejected: nat)

  predicate AllOnGrid(draws: seq<Cell>) {
    forall i :: 0 <= i < |draws| ==> OnGrid(draws[i])
  }

  /** `get_random_pos`: the first drawn cell whose key is not in the
      dictionary; `None` when every available draw is occupied (the source
      would keep drawing). */
  function GetRandomPos(d: Dict, draws: seq<Cell>): (r: Option<Pick>)
    ensures r.None? <==> forall i :: 0 <= i < |draws| ==> draws[i] in Keys(d)
    ensures r.Some? ==>
      && r.value.rejected < |draws| && draws[r.value.rejected] == r.value.cell
      && r.value.cell !in Keys(d)
      && forall i :: 0 <= i < r.value.rejected ==> draws[i] in Keys(d)
  {
    if |draws| == 0 then None
    else if draws[0] !in Keys(d) then Some(Pick(draws[0], 0))
    else
      match GetRandomPos(d, draws[1..])
      case None => None
      case Some(p) => Some(Pick(p.cell, p.rejected + 1))
  }

  /** `tiles[f"{row}{col}"] = Tiles(value, row, col)` on an empty cell: a
      fresh tile object at the cell's pixel position. */
  function Spawn(b: Board, c: Cell, value: int): (r: Board)
    requires WellFormed(b) && c !in Keys(b.dict)
    ensures WellFormed(r)
    ensures |r.heap| == |b.heap| + 1 && r.heap[..|b.heap|] == b.heap
    ensures r.heap[|b.heap|] == NewTile(value, c)
    ensures |r.dict| == |b.dict| + 1 && Keys(r.dict) == Keys(b.dict) + {c}
    ensures Get(r.dict, c) == Some(|b.heap|)
    ensures forall k :: k != c ==> Get(r.dict, k) == Get(b.dict, k)
    ensures PowerValues(b.heap) && PowerOfTwo(value) ==> PowerValues(r.heap)
  {
    SpawnWellFormed(b, c, value);
    Board(Put(b.dict, c, |b.heap|), b.heap + [NewTile(value, c)])
  }

  lemma SpawnWellFormed(b: Board, c: Cell, value: int)
    requires WellFormed(b) && c !in Keys(b.dict)
    ensures WellFormed(Board(Put(b.dict, c, |b.heap|), b.heap + [NewTile(value, c)]))
  {
    var id := |b.heap|;
    var heap := b.heap + [NewTile(value, c)];
    var dict := Put(b.dict, c, id);
    assert NoDup(Values(dict)) by {
      forall i | 0 <= i < |b.dict| ensures Values(dict)[i] != id {
        assert Values(dict)[i] == b.dict[i].id;
      }
    }
    assert Consistent(dict, heap) by {
      forall i | 0 <= i < |dict| ensures dict[i].id < |heap| && CellOf(heap[dict[i].id]) == dict[i].key {
        assert dict[i] in dict;
      }
    }
  }

  /** What `end_move` reports and the board it leaves. */
  datatype Ended = Ended(spawned: bool, board: Board)

  /** `end_move`: a full dictionary (16 keys) reports `False` and leaves the
      board alone; otherwise one new tile of the chosen value appears at a
      previously empty cell and `True` is reported. `None` when the draws
      run out before an empty cell is found. */
  function EndMove(b: Board, draws: seq<Cell>, value: int): (r: Option<Ended>)
    requires WellFormed(b) && (value == 2 || value == 4)
    ensures |b.dict| == Rows * Cols ==> r == Some(Ended(false, b))
    ensures r.None? <==> |b.dict| != Rows * Cols && forall i :: 0 <= i < |draws| ==> draws[i] in Keys(b.dict)
    ensures r.Some? ==> WellFormed(r.value.board) && (r.value.spawned <==> |b.dict| != Rows * Cols)
    ensures r.Some? && r.value.spawned ==> |r.value.board.heap| == |b.heap| + 1
    ensures r.Some? && r.value.spawned ==>
      var n := r.value.board;
      var c := CellOf(n.heap[|b.heap|]);
      && n.heap[..|b.heap|] == b.heap
      && n.heap[|b.heap|] == NewTile(value, c)
      && c !in Keys(b.dict) && (AllOnGrid(draws) ==> OnGrid(c))
      && |n.dict| == |b.dict| + 1
      && Get(n.dict, c) == Some(|b.heap|)
      && forall k :: k != c ==> Get(n.dict, k) == Get(b.dict, k)
    ensures r.Some? && PowerValues(b.heap) ==> PowerValues(r.value.board.heap)
  {
    assert PowerOfTwo(4) by { assert PowerOfTwo(2); }
    if |b.dict| == Rows * Cols then Some(Ended(false, b))
    else
      match GetRandomPos(b.dict, draws)
      case None => None
      case Some(p) => Some(Ended(true, Spawn(b, p.cell, value)))
  }

  /** `generate_tiles`: two tiles of value 2 at the first two distinct
      drawn cells. `None` when the draws do not hold two distinct cells. */
  function GenerateTiles(draws: seq<Cell>): (r: Option<Board>)
    ensures r.None? <==> forall i :: 0 <= i < |draws| ==> draws[i] == draws[0]
    ensures r.Some? ==>
      var b := r.value;
      && WellFormed(b) && |b.heap| == 2 && |b.dict| == 2
      && b.heap[0] == NewTile(2, CellOf(b.heap[0])) && b.heap[1] == NewTile(2, CellOf(b.heap[1]))
      && CellOf(b.heap[0]) == draws[0] && CellOf(b.heap[1]) != draws[0]
      && (exists j :: 0 < j < |draws| && draws[j] == CellOf(b.heap[1]) && forall i :: 0 < i < j ==> draws[i] == draws[0])
      && Keys(b.dict) == {CellOf(b.heap[0]), CellOf(b.heap[1])}
      && Get(b.dict, CellOf(b.heap[0])) == Some(0) && Get(b.dict, CellOf(b.heap[1])) == Some(1)
      && (AllOnGrid(draws) ==> OnGrid(CellOf(b.heap[0])) && OnGrid(CellOf(b.heap[1])))
      && PowerValues(b.heap)
  {
    var empty := Board([], []);
    match GetRandomPos(empty.dict, draws)
    case None => None
    case Some(p) =>
      var first := Spawn(empty, p.cell, 2);
      match GetRandomPos(first.dict, draws[1..])
      case None => None
      case Some(q) =>
        TwoSpawns(p.cell, q.cell);
        SecondDraw(draws, p.cell, q);
        Some(Spawn(first, q.cell, 2))
  }

  /** The pick from the draws after the first, on a board holding only the
      first drawn cell, is the first later draw that differs from it. */
  lemma SecondDraw(draws: seq<Cell>, c0: Cell, q: Pick)
    requires |draws| > 0 && c0 == draws[0]
    requires GetRandomPos(Spawn(Board([], []), c0, 2).dict, draws[1..]) == Some(q)
    ensures var j := q.rejected + 1;
      0 < j < |draws| && draws[j] == q.cell && q.cell != draws[0]
      && forall i :: 0 < i < j ==> draws[i] == draws[0]
  {
    var first := Spawn(Board([], []), c0, 2);
    assert Keys(first.dict) == {c0};
    forall i | 0 < i < q.rejected + 1 ensures draws[i] == draws[0] {
      assert draws[1..][i - 1] == draws[i];
    }
    assert draws[1..][q.rejected] == draws[q.rejected + 1];
  }

  /** The partner of `GenerateTiles`, from the draws alone: whenever some
      draw differs from the first, the opening board holds the first draw
      and the first later draw that differs from it. */
  lemma GenerateTilesPicksFirstNewDraw(draws: seq<Cell>, j: nat)
    requires 0 < j < |draws| && draws[j] != draws[0]
    requires forall i :: 0 < i < j ==> draws[i] == draws[0]
    ensures GenerateTiles(draws).Some?
    ensures var b := GenerateTiles(draws).value;
      b.heap == [NewTile(2, draws[0]), NewTile(2, draws[j])]
      && Get(b.dict, draws[0]) == Some(0) && Get(b.dict, draws[j]) == Some(1)
  {
    var b := GenerateTiles(draws).value;
    var k :| 0 < k < |draws| && draws[k] == CellOf(b.heap[1]) && forall i :: 0 < i < k ==> draws[i] == draws[0];
    assert k == j;
  }

  /** Two spawns on an empty board at two different cells. */
  lemma TwoSpawns(c0: Cell, c1: Cell)
    requires c1 !in Keys(Spawn(Board([], []), c0, 2).dict)
    ensures var b := Spawn(Spawn(Board([], []), c0, 2), c1, 2);
      && WellFormed(b) && |b.heap| == 2 && |b.dict| == 2
      && b.heap[0] == NewTile(2, c0) && b.heap[1] == NewTile(2, c1)
      && CellOf(b.heap[0]) == c0 && CellOf(b.heap[1]) == c1
      && Keys(b.dict) == {c0, c1}
      && Get(b.dict, c0) == Some(0) && Get(b.dict, c1) == Some(1)
  {
    var first := Spawn(Board([], []), c0, 2);
    assert c1 != c0;
    assert first.heap[0] == NewTile(2, c0);
  }

  /** `move_tiles`: settle the board in direction `dir` with no tile blocked
      yet, then always finish with `end_move`. `None` when the settle loop
      runs out of fuel or the draws run out. */
  function MoveTiles(mode: Mode, dir: Direction, b: Board, fuel: nat, draws: seq<Cell>, value: int): (r: Option<Ended>)
    requires WellFormed(b) && (value == 2 || value == 4)
    ensures r.Some? ==> WellFormed(r.value.board)
    ensures r.Some? ==> |r.value.board.dict| <= |b.dict| + 1
    ensures r.Some? ==> (r.value.spawned <==> |r.value.board.heap| == |b.heap| + 1)
    ensures r.Some? && !r.value.spawned ==> |r.value.board.dict| == Rows * Cols <= |b.dict|
    ensures r.Some? && PowerValues(b.heap) ==> PowerValues(r.value.board.heap)
  {
    match Settle(mode, dir, b, {}, fuel)
    case None => None
    case Some(s) => EndMove(s.board, draws, value)
  }

  /** `end_move` on a board whose dictionary answers every lookup as the
      dictionary of `b` does behaves as if it ran on `b`. */
  lemma EndMoveOnSameCells(b: Board, s: Board, draws: seq<Cell>, value: int, i: nat)
    requires WellFormed(b) && WellFormed(s) && (value == 2 || value == 4)
    requires s.heap == b.heap && |s.dict| == |b.dict| && forall k :: Get(s.dict, k) == Get(b.dict, k)
    requires |b.dict| != Rows * Cols && i < |draws| && draws[i] !in Keys(b.dict)
    ensures var r := EndMove(s, draws, value);
      && r.Some? && r.value.spawned
      && |r.value.board.dict| == |b.dict| + 1
      && r.value.board.heap[..|b.heap|] == b.heap
      && forall k :: k in Keys(b.dict) ==> Get(r.value.board.dict, k) == Get(b.dict, k)
  {
    assert Keys(s.dict) == Keys(b.dict) by {
      forall k ensures k in Keys(s.dict) <==> k in Keys(b.dict) {
        assert Get(s.dict, k) == Get(b.dict, k);
      }
    }
    var r := EndMove(s, draws, value);
    assert r.Some?;
    var c := CellOf(r.value.board.heap[|b.heap|]);
    forall k | k in Keys(b.dict) ensures Get(r.value.board.dict, k) == Get(b.dict, k) {
      assert k != c;
    }
  }

  /** `move_tiles` calls `end_move` even when the key press moved nothing:
      a move whose first pass is quiet still adds a tile, and every cell
      that held a tile holds the same tile object, unmoved. */
  lemma QuietMoveStillSpawns(mode: Mode, dir: Direction, b: Board, fuel: nat, draws: seq<Cell>, value: int, i: nat)
    requires WellFormed(b) && (value == 2 || value == 4) && !Pass(mode, dir, b, {}).updated
    requires |b.dict| != Rows * Cols && i < |draws| && draws[i] !in Keys(b.dict)
    ensures var r := MoveTiles(mode, dir, b, fuel, draws, value);
      && r.Some? && r.value.spawned
      && |r.value.board.dict| == |b.dict| + 1
      && r.value.board.heap[..|b.heap|] == b.heap
      && forall k :: k in Keys(b.dict) ==> Get(r.value.board.dict, k) == Get(b.dict, k)
  {
    QuietMoveKeepsBoard(mode, dir, b, {}, fuel);
    var s := Settle(mode, dir, b, {}, fuel).value;
    assert MoveTiles(mode, dir, b, fuel, draws, value) == EndMove(s.board, draws, value);
    EndMoveOnSameCells(b, s.board, draws, value, i);
  }

}

=== FILE: geometry.dfy ===
/** Board constants, grid cells and the tile record: construction, the
    rounding of a pixel position back to a grid cell, and one animation step. */
module Geometry {

  const Rows: int := 4
  const Cols: int := 4
  const RectWidth: int := 200
  const RectHeight: int := 200
  /** Pixels a tile travels in one animation step. */
  const MoveLev: int := 20

  /** A grid coordinate; the source keys its board dictionary by the string
      of the two digits, which `KeyString` models. */
  datatype Cell = Cell(row: int, col: int)

  predicate OnGrid(c: Cell) {
    0 <= c.row < Rows && 0 <= c.col < Cols
  }

  /** A tile: its value, the grid cell it is registered at, and its pixel position. */
  datatype Tile = Tile(value: int, row: int, col: int, x: int, y: int)

  function CellOf(t: Tile): Cell {
    Cell(t.row, t.col)
  }

  /** The decimal digit of a number in 0..9. */
  function Digit(n: int): (c: char)
    requires 0 <= n <= 9
    ensures '0' <= c <= '9'
  {
    ['0', '1', '2', '3', '4', '5', '6', '7', '8', '9'][n]
  }

  /** The dictionary key `f"{row}{col}"` for single-digit coordinates. */
  function KeyString(c: Cell): (s: string)
    requires 0 <= c.row <= 9 && 0 <= c.col <= 9
    ensures |s| == 2
  {
    [Digit(c.row), Digit(c.col)]
  }

  /** Two cells with single-digit coordinates have the same key string only
      when they are the same cell, so a map keyed by cells is the same board. */
  lemma KeyStringInjective(a: Cell, b: Cell)
    requires 0 <= a.row <= 9 && 0 <= a.col <= 9
    requires 0 <= b.row <= 9 && 0 <= b.col <= 9
    ensures KeyString(a) == KeyString(b) <==> a == b
  {
    if KeyString(a) == KeyString(b) {
      assert KeyString(a)[0] == KeyString(b)[0];
      assert KeyString(a)[1] == KeyString(b)[1];
    }
  }

  /** Mathematical floor of a / b. */
  function FloorDiv(a: int, b: int): (q: int)
    requires b > 0
    ensures q * b <= a < q * b + b
  {
    a / b
  }

  /** Mathematical ceiling of a / b. */
  function CeilDiv(a: int, b: int): (q: int)
    requires b > 0
    ensures q * b - b < a <= q * b
  {
    -((-a) / b)
  }

  /** The constructor: a new tile sits at the pixel corner of its cell. */
  function NewTile(value: int, c: Cell): (t: Tile)
    ensures CellOf(t) == c && t.value == value
    ensures t.x == c.col * RectWidth && t.y == c.row * RectHeight
  {
    Tile(value, c.row, c.col, c.col * RectWidth, c.row * RectHeight)
  }

  /** `set_pos`: re-register the tile at the cell its pixel position rounds
      to, upwards when `ceil` holds and downwards otherwise. */
  function SetPos(t: Tile, ceil: bool): (r: Tile)
    ensures r.value == t.value && r.x == t.x && r.y == t.y
    ensures ceil ==> (r.row - 1) * RectHeight < t.y <= r.row * RectHeight
    ensures ceil ==> (r.col - 1) * RectWidth < t.x <= r.col * RectWidth
    ensures !ceil ==> r.row * RectHeight <= t.y < (r.row + 1) * RectHeight
    ensures !ceil ==> r.col * RectWidth <= t.x < (r.col + 1) * RectWidth
  {
    if ceil then t.(row := CeilDiv(t.y, RectHeight), col := CeilDiv(t.x, RectWidth))
    else t.(row := FloorDiv(t.y, RectHeight), col := FloorDiv(t.x, RectWidth))
  }

  /** `move`: one animation step by (dx, dy); the cell registration is left
      stale until the next `SetPos`. */
  function Move(t: Tile, dx: int, dy: int): (r: Tile)
    ensures r.x == t.x + dx && r.y == t.y + dy
    ensures r.value == t.value && CellOf(r) == CellOf(t)
  {
    t.(x := t.x + dx, y := t.y + dy)
  }

  /** A tile value of the game: a power of two, at least 2. */
  predicate PowerOfTwo(v: int)
    decreases v
  {
    v == 2 || (v > 2 && v % 2 == 0 && PowerOfTwo(v / 2))
  }

  /** `2 ** k`. */
  function Pow2(k: nat): (r: int)
    ensures r >= 1
  {
    if k == 0 then 1 else 2 * Pow2(k - 1)
  }

  /** Doubling a tile value, as a merge does, gives a tile value. */
  lemma DoublePowerOfTwo(v: int)
    requires PowerOfTwo(v)
    ensures PowerOfTwo(2 * v)
  {
    assert (2 * v) / 2 == v;
  }

  /** The tile values are exactly the powers `2 ** k` with `k >= 1`, one way ... */
  lemma {:induction false} Pow2IsPowerOfTwo(k: nat)
    requires k >= 1
    ensures PowerOfTwo(Pow2(k))
  {
    if k > 1 {
      Pow2IsPowerOfTwo(k - 1);
      DoublePowerOfTwo(Pow2(k - 1));
    }
  }

  /** ... and the other. */
  lemma {:induction false} PowerOfTwoIsPow2(v: int)
    requires PowerOfTwo(v)
    ensures exists k: nat :: k >= 1 && Pow2(k) == v
    decreases v
  {
    if v == 2 {
      assert Pow2(1) == 2;
    } else {
      PowerOfTwoIsPow2(v / 2);
      var k: nat :| k >= 1 && Pow2(k) == v / 2;
      assert Pow2(k + 1) == v;
    }
  }

  /** Every tile object holds a tile value. */
  predicate PowerValues(heap: seq<Tile>) {
    forall j :: 0 <= j < |heap| ==> PowerOfTwo(heap[j].value)
  }

  /** A tile at rest: registered at a cell of the grid and drawn at that
      cell's pixel corner, as the constructor leaves it. */
  predicate AtRest(t: Tile) {
    OnGrid(CellOf(t)) && t.x == t.col * RectWidth && t.y == t.row * RectHeight
  }

  /** A freshly constructed tile rounds back to its own cell in either
      rounding mode, so construction followed by `SetPos` changes nothing. */
  lemma NewTileRoundTrip(value: int, c: Cell, ceil: bool)
    ensures SetPos(NewTile(value, c), ceil) == NewTile(value, c)
  {
    var t := NewTile(value, c);
    var r := SetPos(t, ceil);
    if ceil {
      assert (r.row - 1) * RectHeight < c.row * RectHeight <= r.row * RectHeight;
      assert (r.col - 1) * RectWidth < c.col * RectWidth <= r.col * RectWidth;
    } else {
      assert r.row * RectHeight <= c.row * RectHeight < (r.row + 1) * RectHeight;
      assert r.col * RectWidth <= c.col * RectWidth < (r.col + 1) * RectWidth;
    }
  }

}

=== FILE: moves.dfy ===
/** A whole pass (sort, loop, `update_tiles`) and the settle loop of
    `move_tiles`. */
module Moves {

  import opened Wrappers
  import opened Geometry
  import opened TileMap
  import opened Boards
  import opened Directions
  import opened Resolver
  import opened PassProperties

  function Start(dir: Direction, b: Board, blocks: set<TileId>): PassState
    requires WellFormed(b)
  {
    PassState(b.heap, SortedTiles(dir, b), blocks, false)
  }

  lemma PassUnfold(mode: Mode, dir: Direction, b: Board, blocks: set<TileId>)
    requires WellFormed(b)
    ensures var p := Pass(mode, dir, b, blocks);
      var r := PassFrom(mode, dir, b.dict, Start(dir, b, blocks), 0);
      p.board.heap == r.0.heap && p.survivors == r.0.list && p.blocks == r.0.blocks
      && p.updated == r.0.updated && p.trace == r.1
  {
  }

  /** A pass never moves a tile backwards; it reports `updated` exactly when
      some tile advanced or was merged away, and a pass that reports nothing
      leaves every tile object, the blocks and the tile list as they were. */
  lemma PassProgress(mode: Mode, dir: Direction, b: Board, blocks: set<TileId>)
    requires WellFormed(b)
    ensures var p := Pass(mode, dir, b, blocks);
      && NoTileBackwards(dir, b.heap, p.board.heap)
      && TotalAdvance(dir, p.board.heap) >= TotalAdvance(dir, b.heap)
      && (p.updated <==> TotalAdvance(dir, p.board.heap) > TotalAdvance(dir, b.heap) || |p.survivors| < |b.dict|)
      && (!p.updated ==> p.board.heap == b.heap && p.blocks == blocks && p.survivors == SortedTiles(dir, b))
  {
    PassUnfold(mode, dir, b, blocks);
    PassFromProgress(mode, dir, b.dict, Start(dir, b, blocks), 0);
  }

  /** Within a pass every merge goes into a tile outside the blocks, no tile
      absorbs two merges, no tile merges away once blocked or merged into,
      the blocks grow by exactly the tiles merged into, and the survivors
      shrink by exactly as many tiles. */
  lemma PassMergesOnce(mode: Mode, dir: Direction, b: Board, blocks: set<TileId>)
    requires WellFormed(b)
    ensures var p := Pass(mode, dir, b, blocks);
      && (forall x :: x in p.blocks <==> x in blocks || x in Targets(p.trace))
      && (forall x :: x in Targets(p.trace) ==> x !in blocks)
      && NoDup(Targets(p.trace))
      && MergersUnblocked(blocks, p.trace)
      && |p.survivors| + |p.blocks| == |b.dict| + |blocks|
  {
    PassUnfold(mode, dir, b, blocks);
    PassFromMergesOnce(mode, dir, b.dict, Start(dir, b, blocks), 0);
  }

  /** A tile registered on the boundary of the direction is neither moved
      nor merged away by a pass. */
  lemma PassKeepsBoundaryTile(mode: Mode, dir: Direction, b: Board, blocks: set<TileId>, x: TileId)
    requires WellFormed(b) && x in Values(b.dict) && x < |b.heap| && AtBoundary(dir, b.heap[x])
    ensures var p := Pass(mode, dir, b, blocks);
      SamePlace(p.board.heap[x], b.heap[x]) && x in p.survivors
  {
    PassUnfold(mode, dir, b, blocks);
    var s := Start(dir, b, blocks);
    assert x in multiset(Values(b.dict));
    assert x in s.list;
    PassFromKeepsBoundaryTile(mode, dir, b.dict, s, 0, x);
  }

  /** The corrected pass visits every tile once, in sorted order. */
  lemma CorrectedPassVisitsEveryTile(dir: Direction, b: Board, blocks: set<TileId>)
    requires WellFormed(b)
    ensures Visited(Pass(Corrected, dir, b, blocks).trace) == SortedTiles(dir, b)
  {
    PassUnfold(Corrected, dir, b, blocks);
    CorrectedPassFromVisitsAll(dir, b.dict, Start(dir, b, blocks), 0);
  }

  lemma {:induction false} TargetsConcat(a: seq<Visit>, b: seq<Visit>)
    ensures Targets(a + b) == Targets(a) + Targets(b)
  {
    if |a| > 0 {
      assert (a + b)[1..] == a[1..] + b;
      assert (a + b)[0] == a[0];
      TargetsConcat(a[1..], b);
    } else {
      assert a + b == b;
    }
  }

  /** The merging tiles of two traces in a row: those of the second avoid
      everything blocked or merged into by the end of the first. */
  lemma MergersConcat(blocks: set<TileId>, a: seq<Visit>, after: set<TileId>, b: seq<Visit>)
    requires MergersUnblocked(blocks, a) && MergersUnblocked(after, b)
    requires forall x :: x in blocks || x in Targets(a) ==> x in after
    ensures MergersUnblocked(blocks, a + b)
  {
    var t := a + b;
    forall k | 0 <= k < |t| && t[k].action.Merged?
      ensures t[k].tile !in blocks && t[k].tile !in Targets(t[..k])
    {
      if k < |a| {
        assert t[k] == a[k] && t[..k] == a[..k];
      } else {
        assert t[k] == b[k - |a|];
        assert t[..k] == a + b[..k - |a|];
        TargetsConcat(a, b[..k - |a|]);
      }
    }
  }

  lemma NoDupConcat(a: seq<TileId>, b: seq<TileId>)
    requires NoDup(a) && NoDup(b) && forall x :: x in b ==> x !in a
    ensures NoDup(a + b)
  {
    var c := a + b;
    forall i, j | 0 <= i < j < |c| ensures c[i] != c[j] {
      if j < |a| {
        assert c[i] == a[i] && c[j] == a[j];
      } else if i >= |a| {
        assert c[i] == b[i - |a|] && c[j] == b[j - |a|];
      } else {
        assert c[i] == a[i] && c[j] == b[j - |a|];
        assert b[j - |a|] in b;
      }
    }
  }

  /** Distinct tiles of a well-formed board sit at distinct cells. */
  lemma SortedTilesAtDistinctCells(dir: Direction, b: Board)
    requires WellFormed(b)
    ensures DistinctCells(b.heap, SortedTiles(dir, b))
  {
    var order := SortedTiles(dir, b);
    forall x | x in order ensures x in Values(b.dict) {
      assert x in multiset(Values(b.dict));
    }
    StoredTilesAtDistinctCells(b.dict, b.heap, order);
  }

  /** Distinct tiles of a consistent dictionary with unique keys sit at
      distinct cells. */
  lemma StoredTilesAtDistinctCells(d: Dict, heap: seq<Tile>, ids: seq<TileId>)
    requires UniqueKeys(d) && Consistent(d, heap) && NoDup(ids) && IdsIn(ids, heap)
    requires forall x :: x in ids ==> x in Values(d)
    ensures DistinctCells(heap, ids)
  {
    forall i, j | 0 <= i < j < |ids| ensures CellOf(heap[ids[i]]) != CellOf(heap[ids[j]]) {
      assert ids[i] in ids && ids[j] in ids;
      var i' :| 0 <= i' < |d| && Values(d)[i'] == ids[i];
      var j' :| 0 <= j' < |d| && Values(d)[j'] == ids[j];
      assert ids[i] != ids[j];
      assert d[i'].key == CellOf(heap[ids[i]]) && d[j'].key == CellOf(heap[ids[j]]);
    }
  }

  lemma LookupCarriesOver(d1: Dict, d2: Dict, heap: seq<Tile>, k: Cell)
    requires UniqueKeys(d2) && Consistent(d1, heap) && Consistent(d2, heap)
    requires forall x :: x in Values(d1) ==> x in Values(d2)
    requires Get(d1, k).Some?
    ensures Get(d2, k) == Get(d1, k)
  {
    var v := Get(d1, k).value;
    var i1 :| 0 <= i1 < |d1| && d1[i1] == Entry(k, v);
    assert Values(d1)[i1] in Values(d2);
    var i2 :| 0 <= i2 < |d2| && d2[i2].id == v;
    assert d2[i2].key == k;
    GetFindsEntry(d2, k, v);
  }

  /** Two dictionaries that are keyed consistently with the same tile heap
      and hold the same tiles answer every lookup alike. */
  lemma SameTilesSameLookups(d1: Dict, d2: Dict, heap: seq<Tile>)
    requires UniqueKeys(d1) && Consistent(d1, heap) && UniqueKeys(d2) && Consistent(d2, heap)
    requires forall x :: x in Values(d1) <==> x in Values(d2)
    ensures forall k :: Get(d1, k) == Get(d2, k)
  {
    forall k ensures Get(d1, k) == Get(d2, k) {
      if Get(d1, k).Some? {
        LookupCarriesOver(d1, d2, heap, k);
      } else if Get(d2, k).Some? {
        LookupCarriesOver(d2, d1, heap, k);
      }
    }
  }

  /** Every tile of the dictionary is placed for `dir`. */
  predicate BoardPlaced(dir: Direction, b: Board) {
    forall e :: e in b.dict ==> e.id < |b.heap| && Placed(dir, b.heap[e.id])
  }

  /** A pass keeps every registered tile placed. */
  lemma PassKeepsPlaced(mode: Mode, dir: Direction, b: Board, blocks: set<TileId>)
    requires WellFormed(b)
    ensures BoardPlaced(dir, b) ==> BoardPlaced(dir, Pass(mode, dir, b, blocks).board)
  {
    if BoardPlaced(dir, b) {
      PassKeepsPlacedOn(mode, dir, b, blocks);
    }
  }

  lemma PassKeepsPlacedOn(mode: Mode, dir: Direction, b: Board, blocks: set<TileId>)
    requires WellFormed(b) && BoardPlaced(dir, b)
    ensures BoardPlaced(dir, Pass(mode, dir, b, blocks).board)
  {
    PassUnfold(mode, dir, b, blocks);
    var s := Start(dir, b, blocks);
    forall x | x in s.list ensures x < |s.heap| && Placed(dir, s.heap[x]) {
      assert x in multiset(Values(b.dict));
      var k :| 0 <= k < |b.dict| && Values(b.dict)[k] == x;
      assert b.dict[k] in b.dict;
    }
    PassFromKeepsPlaced(mode, dir, b.dict, s, 0);
  }

  /** A pass keeps every tile value a power of two. */
  lemma PassKeepsPowers(mode: Mode, dir: Direction, b: Board, blocks: set<TileId>)
    requires WellFormed(b)
    ensures PowerValues(b.heap) ==> PowerValues(Pass(mode, dir, b, blocks).board.heap)
  {
    PassUnfold(mode, dir, b, blocks);
    if PowerValues(b.heap) {
      PassFromKeepsPowers(mode, dir, b.dict, Start(dir, b, blocks), 0);
    }
  }

  /** A board whose tiles are all placed begins a pass under the merge
      invariant: every listed tile is placed and found under its own cell,
      every tile of the dictionary is listed and at least as far along as
      its cell's near edge, and nothing has merged away yet. */
  lemma StartMergeInv(dir: Direction, b: Board, blocks: set<TileId>)
    requires WellFormed(b) && BoardPlaced(dir, b)
    ensures MergeInv(dir, b.dict, Start(dir, b, blocks), 0, {})
  {
    var s := Start(dir, b, blocks);
    forall x | x in s.list
      ensures x < |s.heap| && Placed(dir, s.heap[x]) && Get(b.dict, CellOf(s.heap[x])) == Some(x)
    {
      assert x in multiset(Values(b.dict));
      var k :| 0 <= k < |b.dict| && Values(b.dict)[k] == x;
      assert b.dict[k] in b.dict;
      LookupOwnCell(b, k);
    }
    forall e | e in b.dict
      ensures e.id in s.list && RectWidth * Depth(dir, e.key) <= Advance(dir, b.heap[e.id])
    {
      var k :| 0 <= k < |b.dict| && b.dict[k] == e;
      assert Values(b.dict)[k] == e.id;
      assert e.id in multiset(s.list);
      PlacedWindow(dir, b.heap[e.id]);
    }
    if |s.list| > 0 {
      assert Pending(s, 0) == s.list;
    }
  }

  /** The loop of a pass on a placed board never merges into a tile it has
      merged away and ends with the total value its sorted list began with. */
  lemma StartTargetsStay(mode: Mode, dir: Direction, b: Board, blocks: set<TileId>)
    requires WellFormed(b) && BoardPlaced(dir, b)
    ensures var s := Start(dir, b, blocks);
      var r := PassFrom(mode, dir, b.dict, s, 0);
      TargetsStay({}, r.1) && ValueSum(r.0.heap, r.0.list) == ValueSum(s.heap, s.list)
  {
    StartMergeInv(dir, b, blocks);
    PassFromTargetsStay(mode, dir, b.dict, Start(dir, b, blocks), 0, {});
  }

  /** When every tile starts placed, a pass never merges into a tile it has
      already merged away in that pass, and the survivors hold exactly the
      total value the dictionary's tiles held; when no two survivors share a
      cell, the rebuilt dictionary holds that value too. */
  lemma PassConservesValue(mode: Mode, dir: Direction, b: Board, blocks: set<TileId>)
    requires WellFormed(b) && BoardPlaced(dir, b)
    ensures var p := Pass(mode, dir, b, blocks);
      && TargetsStay({}, p.trace)
      && IdsIn(Values(b.dict), b.heap) && IdsIn(p.survivors, p.board.heap)
      && ValueSum(p.board.heap, p.survivors) == ValueSum(b.heap, Values(b.dict))
      && (DistinctCells(p.board.heap, p.survivors) ==>
            IdsIn(Values(p.board.dict), p.board.heap)
            && ValueSum(p.board.heap, Values(p.board.dict)) == ValueSum(b.heap, Values(b.dict)))
  {
    PassUnfold(mode, dir, b, blocks);
    var s := Start(dir, b, blocks);
    StartTargetsStay(mode, dir, b, blocks);
    ValueSumPermutation(b.heap, s.list, Values(b.dict));
    var p := Pass(mode, dir, b, blocks);
    if DistinctCells(p.board.heap, p.survivors) {
      RebuildWithoutCollision(p.board.heap, p.survivors);
    }
  }

  /** On a placed board a pass never merges into a tile it merged away. */
  lemma PassKeepsTargets(mode: Mode, dir: Direction, b: Board, blocks: set<TileId>)
    requires WellFormed(b)
    ensures BoardPlaced(dir, b) ==> TargetsStay({}, Pass(mode, dir, b, blocks).trace)
  {
    if BoardPlaced(dir, b) {
      PassConservesValue(mode, dir, b, blocks);
    }
  }

  /** Every merge of a pass goes into a tile of the dictionary, no tile
      merged away is in the rebuilt dictionary, and the rebuilt dictionary
      holds only tiles of the old one. */
  lemma PassMergeMembers(mode: Mode, dir: Direction, b: Board, blocks: set<TileId>)
    requires WellFormed(b)
    ensures var p := Pass(mode, dir, b, blocks);
      && TargetsIn(p.trace, Values(b.dict)) && MergedAwayOff(p.trace, Values(p.board.dict))
      && (forall x :: x in Values(p.board.dict) ==> x in Values(b.dict))
  {
    PassUnfold(mode, dir, b, blocks);
    var s := Start(dir, b, blocks);
    PassFromMergeMembers(mode, dir, b.dict, s, 0);
    var p := Pass(mode, dir, b, blocks);
    forall x | x in Values(p.board.dict) ensures x in p.survivors {
      var k :| 0 <= k < |p.board.dict| && Values(p.board.dict)[k] == x;
      assert p.board.dict[k] in p.board.dict;
    }
    forall x | x in s.list ensures x in Values(b.dict) {
      assert x in multiset(Values(b.dict));
    }
  }

  /** Two runs of visits that each never merge into a tile they merged away
      stay so when joined, if every tile the first run merged away is out
      of the tiles the second run merges into. */
  lemma TargetsStayConcat(a: seq<Visit>, b: seq<Visit>, kept: seq<TileId>)
    requires TargetsStay({}, a) && TargetsStay({}, b)
    requires MergedAwayOff(a, kept) && TargetsIn(b, kept)
    ensures TargetsStay({}, a + b)
  {
    var t := a + b;
    forall j, k | 0 <= j < k < |t| && t[j].action.Merged? && t[k].action.Merged?
      ensures t[k].action.into != t[j].tile
    {
      if k >= |a| {
        assert t[k] == b[k - |a|];
        if j >= |a| {
          assert t[j] == b[j - |a|];
        }
      }
    }
  }

  /** Joined runs of visits merge only into the given tiles when the second
      run merges only into tiles that are among them. */
  lemma TargetsInConcat(a: seq<Visit>, c: seq<Visit>, kept: seq<TileId>, ids: seq<TileId>)
    requires TargetsIn(a, ids) && TargetsIn(c, kept) && forall x :: x in kept ==> x in ids
    ensures TargetsIn(a + c, ids)
  {
    var t := a + c;
    forall k | 0 <= k < |t| && t[k].action.Merged? ensures t[k].action.into in ids {
      if k >= |a| {
        assert t[k] == c[k - |a|];
      }
    }
  }

  /** The outcome of the settle loop: the final board, the blocks, and the
      visits of all passes in order. */
  datatype Settled = Settled(board: Board, blocks: set<TileId>, trace: seq<Visit>)

  /** The `while updated` loop of `move_tiles`, run for at most `fuel + 1`
      passes; `None` when the fuel runs out before a pass changes nothing.
      Over the whole move no tile moves backwards, every merge goes into a
      different tile that was not blocked when the move began, no tile that
      was blocked or merged into merges away later in the move, the final
      blocks are exactly the tiles merged into, tiles plus blocks never
      grow, a board whose tiles are placed stays placed, and every tile
      value stays a power of two. Every merge goes into a tile the move
      began with; on a placed board no merge goes into a tile merged away
      earlier in the move. */
  function Settle(mode: Mode, dir: Direction, b: Board, blocks: set<TileId>, fuel: nat): (r: Option<Settled>)
    requires WellFormed(b)
    ensures r.Some? ==> WellFormed(r.value.board) && |r.value.board.heap| == |b.heap|
    ensures r.Some? ==> NoTileBackwards(dir, b.heap, r.value.board.heap)
    ensures r.Some? && BoardPlaced(dir, b) ==> BoardPlaced(dir, r.value.board)
    ensures r.Some? && PowerValues(b.heap) ==> PowerValues(r.value.board.heap)
    ensures r.Some? ==> TotalAdvance(dir, r.value.board.heap) >= TotalAdvance(dir, b.heap)
    ensures r.Some? ==>
      && (forall x :: x in r.value.blocks <==> x in blocks || x in Targets(r.value.trace))
      && (forall x :: x in Targets(r.value.trace) ==> x !in blocks)
      && NoDup(Targets(r.value.trace))
      && MergersUnblocked(blocks, r.value.trace)
      && |r.value.board.dict| + |r.value.blocks| <= |b.dict| + |blocks|
    ensures r.Some? ==> TargetsIn(r.value.trace, Values(b.dict))
    ensures r.Some? && BoardPlaced(dir, b) ==> TargetsStay({}, r.value.trace)
    decreases fuel
  {
    var p := Pass(mode, dir, b, blocks);
    PassProgress(mode, dir, b, blocks);
    PassMergesOnce(mode, dir, b, blocks);
    PassKeepsPlaced(mode, dir, b, blocks);
    PassKeepsPowers(mode, dir, b, blocks);
    PassMergeMembers(mode, dir, b, blocks);
    PassKeepsTargets(mode, dir, b, blocks);
    assert |p.board.dict| <= |p.survivors|;
    if !p.updated then Some(Settled(p.board, p.blocks, p.trace))
    else if fuel == 0 then None
    else
      match Settle(mode, dir, p.board, p.blocks, fuel - 1)
      case None => None
      case Some(s) =>
        NoTileBackwardsTrans(dir, b.heap, p.board.heap, s.board.heap);
        TargetsConcat(p.trace, s.trace);
        NoDupConcat(Targets(p.trace), Targets(s.trace));
        MergersConcat(blocks, p.trace, p.blocks, s.trace);
        TargetsInConcat(p.trace, s.trace, Values(p.board.dict), Values(b.dict));
        if BoardPlaced(dir, b) then
          TargetsStayConcat(p.trace, s.trace, Values(p.board.dict));
          Some(s.(trace := p.trace + s.trace))
        else
          Some(s.(trace := p.trace + s.trace))
  }

  /** A move that starts with every tile at rest never takes a tile off the
      grid: when it settles, every key of the dictionary is a cell of the
      4x4 grid and every tile is registered where its position rounds to. */
  lemma SettleStaysOnGrid(mode: Mode, dir: Direction, b: Board, blocks: set<TileId>, fuel: nat)
    requires WellFormed(b) && forall e :: e in b.dict ==> e.id < |b.heap| && AtRest(b.heap[e.id])
    ensures var r := Settle(mode, dir, b, blocks, fuel);
      r.Some? ==> BoardPlaced(dir, r.value.board) && forall e :: e in r.value.board.dict ==> OnGrid(e.key)
  {
    AtRestBoardIsPlaced(dir, b);
    var r := Settle(mode, dir, b, blocks, fuel);
    if r.Some? {
      PlacedKeysOnGrid(dir, r.value.board);
    }
  }

  lemma AtRestBoardIsPlaced(dir: Direction, b: Board)
    requires forall e :: e in b.dict ==> e.id < |b.heap| && AtRest(b.heap[e.id])
    ensures BoardPlaced(dir, b)
  {
    forall e | e in b.dict ensures e.id < |b.heap| && Placed(dir, b.heap[e.id]) {
      AtRestIsPlaced(dir, b.heap[e.id]);
    }
  }

  /** In a well-formed board whose tiles are placed, every key is on the grid. */
  lemma PlacedKeysOnGrid(dir: Direction, b: Board)
    requires WellFormed(b) && BoardPlaced(dir, b)
    ensures forall e :: e in b.dict ==> OnGrid(e.key)
  {
    forall e | e in b.dict ensures OnGrid(e.key) {
      var k :| 0 <= k < |b.dict| && b.dict[k] == e;
    }
  }

  /** A pass that changes something, with fuel left, hands the rest of the
      move to the loop on the pass's board. */
  lemma SettleStep(mode: Mode, dir: Direction, b: Board, blocks: set<TileId>, rest: nat)
    requires WellFormed(b) && Pass(mode, dir, b, blocks).updated
    ensures var p := Pass(mode, dir, b, blocks);
      WellFormed(p.board)
      && Settle(mode, dir, b, blocks, rest + 1)
         == match Settle(mode, dir, p.board, p.blocks, rest)
            case None => None
            case Some(s) => Some(s.(trace := p.trace + s.trace))
  {
  }

  /** A pass that changes something bounds the rest of the move: tiles
      plus blocks at the end are at most what that pass left. */
  lemma SettleShrinks(mode: Mode, dir: Direction, b: Board, blocks: set<TileId>, fuel: nat)
    requires WellFormed(b) && Pass(mode, dir, b, blocks).updated
    ensures var p := Pass(mode, dir, b, blocks);
      var r := Settle(mode, dir, b, blocks, fuel);
      r.Some? ==> |r.value.board.dict| + |r.value.blocks| <= |p.board.dict| + |p.blocks|
  {
    if fuel > 0 {
      SettleStep(mode, dir, b, blocks, fuel - 1);
    }
  }

  /** A pass that reports nothing rebuilds a dictionary that holds the same
      tiles and answers every lookup as the old one did. */
  lemma QuietPassKeepsLookups(mode: Mode, dir: Direction, b: Board, blocks: set<TileId>)
    requires WellFormed(b) && !Pass(mode, dir, b, blocks).updated
    ensures var p := Pass(mode, dir, b, blocks);
      && p.board.heap == b.heap && p.blocks == blocks
      && |p.board.dict| == |b.dict|
      && forall k :: Get(p.board.dict, k) == Get(b.dict, k)
  {
    var p := Pass(mode, dir, b, blocks);
    PassProgress(mode, dir, b, blocks);
    var order := SortedTiles(dir, b);
    SortedTilesAtDistinctCells(dir, b);
    RebuildWithoutCollision(b.heap, order);
    assert Values(p.board.dict) == order;
    forall x ensures x in Values(p.board.dict) <==> x in Values(b.dict) {
      assert x in order <==> x in multiset(order);
    }
    SameTilesSameLookups(p.board.dict, b.dict, b.heap);
  }

  /** A move whose first pass changes nothing settles after that pass and
      leaves the board as it was: the same tile objects, the same blocks,
      and every cell holding the same tile. */
  lemma QuietMoveKeepsBoard(mode: Mode, dir: Direction, b: Board, blocks: set<TileId>, fuel: nat)
    requires WellFormed(b) && !Pass(mode, dir, b, blocks).updated
    ensures Settle(mode, dir, b, blocks, fuel).Some?
    ensures var r := Settle(mode, dir, b, blocks, fuel).value;
      && r.board.heap == b.heap && r.blocks == blocks
      && |r.board.dict| == |b.dict|
      && forall k :: Get(r.board.dict, k) == Get(b.dict, k)
  {
    var p := Pass(mode, dir, b, blocks);
    QuietPassKeepsLookups(mode, dir, b, blocks);
    assert Settle(mode, dir, b, blocks, fuel) == Some(Settled(p.board, p.blocks, p.trace));
  }

}

=== FILE: pass_properties.dfy ===
/** Properties of one visit and of the `for` loop of a pass. */
module PassProperties {

  import opened Wrappers
  import opened Geometry
  import opened TileMap
  import opened Boards
  import opened Directions
  import opened Resolver

  /** The tiles visited, in visiting order. */
  function Visited(trace: seq<Visit>): (ids: seq<TileId>)
    ensures |ids| == |trace|
    ensures forall k :: 0 <= k < |trace| ==> ids[k] == trace[k].tile
  {
    seq(|trace|, k requires 0 <= k < |trace| => trace[k].tile)
  }

  /** The tiles merged into, in order. */
  function Targets(trace: seq<Visit>): seq<TileId> {
    if |trace| == 0 then []
    else (if trace[0].action.Merged? then [trace[0].action.into] else []) + Targets(trace[1..])
  }

  /** The other half of merging once: every tile merged away was outside
      `blocks` when the trace began and had not absorbed a merge earlier in
      the trace, so a tile that was merged into never merges on. */
  predicate MergersUnblocked(blocks: set<TileId>, trace: seq<Visit>) {
    forall k :: 0 <= k < |trace| && trace[k].action.Merged? ==>
      trace[k].tile !in blocks && trace[k].tile !in Targets(trace[..k])
  }

  /** The tiles not yet visited when the loop stands at position `i`. */
  function Pending(s: PassState, i: nat): seq<TileId> {
    if i < |s.list| then s.list[i..] else []
  }

  function ValueSum(heap: seq<Tile>, ids: seq<TileId>): int
    requires IdsIn(ids, heap)
  {
    if |ids| == 0 then 0 else heap[ids[0]].value + ValueSum(heap, ids[1..])
  }

  lemma {:induction false} ValueSumConcat(heap: seq<Tile>, a: seq<TileId>, b: seq<TileId>)
    requires IdsIn(a, heap) && IdsIn(b, heap)
    ensures IdsIn(a + b, heap) && ValueSum(heap, a + b) == ValueSum(heap, a) + ValueSum(heap, b)
  {
    if |a| > 0 {
      assert (a + b)[0] == a[0];
      assert (a + b)[1..] == a[1..] + b;
      ValueSumConcat(heap, a[1..], b);
      assert ValueSum(heap, a + b) == heap[a[0]].value + ValueSum(heap, a[1..] + b);
    } else {
      assert a + b == b;
    }
  }

  /** Changing the value of one tile changes the sum of a list holding it
      once by exactly that change, and leaves a list without it alone. */
  lemma {:induction false} ValueSumChangeAt(h: seq<Tile>, h': seq<Tile>, ids: seq<TileId>, n: TileId)
    requires |h'| == |h| && IdsIn(ids, h) && NoDup(ids) && n < |h|
    requires forall j :: 0 <= j < |h| && j != n ==> h'[j].value == h[j].value
    ensures ValueSum(h', ids) == ValueSum(h, ids) + (if n in ids then h'[n].value - h[n].value else 0)
  {
    if |ids| > 0 {
      assert NoDup(ids[1..]) by {
        forall a, b | 0 <= a < b < |ids[1..]| ensures ids[1..][a] != ids[1..][b] {
          assert ids[1..][a] == ids[a + 1] && ids[1..][b] == ids[b + 1];
        }
      }
      ValueSumChangeAt(h, h', ids[1..], n);
      assert ids == [ids[0]] + ids[1..];
      assert n == ids[0] ==> n !in ids[1..];
    }
  }

  /** A merge conserves the total value of the list when the tile merged
      into is still in it: the visited tile's value leaves with it and
      reappears in the doubled neighbour. */
  lemma VisitMergeConservesValue(dir: Direction, d: Dict, s: PassState, i: nat)
    requires Refs(d, s) && i < |s.list| && NoDup(s.list)
    requires VisitTile(dir, d, s, i).action.Merged?
    requires VisitTile(dir, d, s, i).action.into in VisitTile(dir, d, s, i).state.list
    ensures ValueSum(VisitTile(dir, d, s, i).state.heap, VisitTile(dir, d, s, i).state.list)
         == ValueSum(s.heap, s.list)
  {
    var o := VisitTile(dir, d, s, i);
    VisitTileMeetsSpec(dir, d, s, i);
    var n := o.action.into;
    var id := s.list[i];
    var a := s.list[..i];
    var b := s.list[i + 1..];
    RemoveAtKeepsNoDup(s.list, i);
    assert n != id;
    assert s.list == a + [id] + b;
    ValueSumConcat(s.heap, a, [id]);
    ValueSumConcat(s.heap, a + [id], b);
    ValueSumConcat(s.heap, a, b);
    ValueSumChangeAt(s.heap, o.state.heap, a + b, n);
  }

  /** Sum of how far every tile object has travelled in direction `dir`. */
  function TotalAdvance(dir: Direction, heap: seq<Tile>): int {
    if |heap| == 0 then 0 else TotalAdvance(dir, heap[..|heap| - 1]) + Advance(dir, heap[|heap| - 1])
  }

  lemma {:induction false} TotalAdvanceUpdate(dir: Direction, heap: seq<Tile>, j: nat, t: Tile)
    requires j < |heap|
    ensures TotalAdvance(dir, heap[j := t]) == TotalAdvance(dir, heap) - Advance(dir, heap[j]) + Advance(dir, t)
  {
    var last := |heap| - 1;
    if j < last {
      assert heap[j := t][..last] == heap[..last][j := t];
      TotalAdvanceUpdate(dir, heap[..last], j, t);
    } else {
      assert heap[j := t][..last] == heap[..last];
    }
  }

  lemma {:induction false} TotalAdvanceSamePositions(dir: Direction, h: seq<Tile>, h': seq<Tile>)
    requires |h| == |h'|
    requires forall j :: 0 <= j < |h| ==> h'[j].x == h[j].x && h'[j].y == h[j].y
    ensures TotalAdvance(dir, h') == TotalAdvance(dir, h)
  {
    if |h| > 0 {
      TotalAdvanceSamePositions(dir, h[..|h| - 1], h'[..|h| - 1]);
    }
  }

  /** No tile object is further back along `dir` in `h'` than in `h`. */
  predicate NoTileBackwards(dir: Direction, h: seq<Tile>, h': seq<Tile>) {
    |h'| == |h| && forall j :: 0 <= j < |h| ==> Advance(dir, h'[j]) >= Advance(dir, h[j])
  }

  lemma NoTileBackwardsTrans(dir: Direction, a: seq<Tile>, b: seq<Tile>, c: seq<Tile>)
    requires NoTileBackwards(dir, a, b) && NoTileBackwards(dir, b, c)
    ensures NoTileBackwards(dir, a, c)
  {
    forall j | 0 <= j < |a| ensures Advance(dir, c[j]) >= Advance(dir, a[j]) {
      assert Advance(dir, c[j]) >= Advance(dir, b[j]);
    }
  }

  /** What one visit does to the progress measure: no tile goes back, and
      the total grows by exactly one step when the visited tile moved. */
  lemma VisitProgress(dir: Direction, d: Dict, s: PassState, i: nat)
    requires Refs(d, s) && i < |s.list|
    ensures var o := VisitTile(dir, d, s, i);
      && NoTileBackwards(dir, s.heap, o.state.heap)
      && TotalAdvance(dir, o.state.heap)
           == TotalAdvance(dir, s.heap) + (if o.action.Moved? then MoveLev else 0)
  {
    var o := VisitTile(dir, d, s, i);
    VisitTileMeetsSpec(dir, d, s, i);
    if o.action.Moved? {
      TotalAdvanceUpdate(dir, s.heap, s.list[i], Step(dir, s.heap[s.list[i]]));
    } else if o.action.Merged? {
      TotalAdvanceSamePositions(dir, s.heap, o.state.heap);
    }
  }

  /** A pass never moves a tile backwards, and `updated` ends up set exactly
      when some tile advanced or some tile was merged away; a pass that
      leaves it unset changes nothing at all. */
  lemma {:induction false} PassFromProgress(mode: Mode, dir: Direction, d: Dict, s: PassState, i: nat)
    requires Refs(d, s)
    ensures var r := PassFrom(mode, dir, d, s, i).0;
      && NoTileBackwards(dir, s.heap, r.heap)
      && TotalAdvance(dir, r.heap) >= TotalAdvance(dir, s.heap)
      && (r.updated <==> s.updated || TotalAdvance(dir, r.heap) > TotalAdvance(dir, s.heap) || |r.list| < |s.list|)
      && (!r.updated ==> r == s)
    decreases |s.list| - i
  {
    if i < |s.list| {
      var o := VisitTile(dir, d, s, i);
      var next := if o.action.Merged? && mode == Corrected then i else i + 1;
      VisitProgress(dir, d, s, i);
      VisitTileMeetsSpec(dir, d, s, i);
      PassFromProgress(mode, dir, d, o.state, next);
      NoTileBackwardsTrans(dir, s.heap, o.state.heap, PassFrom(mode, dir, d, o.state, next).0.heap);
    } else {
      assert NoTileBackwards(dir, s.heap, s.heap);
    }
  }

  /** Every merge of a pass goes into a tile that had not absorbed a merge
      before, no tile absorbs two, a tile that absorbed one never merges
      away, the blocks grow by exactly the tiles merged into, and each
      merge removes exactly one tile from the list. */
  lemma {:induction false} PassFromMergesOnce(mode: Mode, dir: Direction, d: Dict, s: PassState, i: nat)
    requires Refs(d, s)
    ensures var r := PassFrom(mode, dir, d, s, i);
      && (forall x :: x in r.0.blocks <==> x in s.blocks || x in Targets(r.1))
      && (forall x :: x in Targets(r.1) ==> x !in s.blocks)
      && NoDup(Targets(r.1))
      && MergersUnblocked(s.blocks, r.1)
      && |r.0.list| + |r.0.blocks| == |s.list| + |s.blocks|
    decreases |s.list| - i
  {
    if i < |s.list| {
      var o := VisitTile(dir, d, s, i);
      var next := if o.action.Merged? && mode == Corrected then i else i + 1;
      PassFromMergesOnce(mode, dir, d, o.state, next);
      VisitBookkeeping(dir, d, s, i);
      var rest := PassFrom(mode, dir, d, o.state, next);
      PassFromUnfold(mode, dir, d, s, i);
      MergesCompose(s, o.state, Visit(s.list[i], o.action), rest.0, rest.1);
      MergersCons(s.blocks, o.state.blocks, Visit(s.list[i], o.action), rest.1);
    }
  }

  /** One step of the `for` loop, unfolded. */
  lemma PassFromUnfold(mode: Mode, dir: Direction, d: Dict, s: PassState, i: nat)
    requires Refs(d, s) && i < |s.list|
    ensures var o := VisitTile(dir, d, s, i);
      var next := if o.action.Merged? && mode == Corrected then i else i + 1;
      var rest := PassFrom(mode, dir, d, o.state, next);
      PassFrom(mode, dir, d, s, i) == (rest.0, [Visit(s.list[i], o.action)] + rest.1)
  {
  }

  /** What one visit does to the blocks and the length of the list. */
  lemma VisitBookkeeping(dir: Direction, d: Dict, s: PassState, i: nat)
    requires Refs(d, s) && i < |s.list|
    ensures var o := VisitTile(dir, d, s, i);
      && (o.action.Merged? ==>
            && o.state.blocks == s.blocks + {o.action.into} && o.action.into !in s.blocks
            && s.list[i] !in s.blocks
            && |o.state.list| + 1 == |s.list|)
      && (!o.action.Merged? ==> o.state.blocks == s.blocks && |o.state.list| == |s.list|)
  {
    VisitTileMeetsSpec(dir, d, s, i);
  }

  /** The merge bookkeeping of one visit followed by the rest of the loop. */
  lemma MergesCompose(s: PassState, o: PassState, v: Visit, r: PassState, trace: seq<Visit>)
    requires v.action.Merged? ==>
      && o.blocks == s.blocks + {v.action.into} && v.action.into !in s.blocks
      && |o.list| + 1 == |s.list|
    requires !v.action.Merged? ==> o.blocks == s.blocks && |o.list| == |s.list|
    requires forall x :: x in r.blocks <==> x in o.blocks || x in Targets(trace)
    requires forall x :: x in Targets(trace) ==> x !in o.blocks
    requires NoDup(Targets(trace))
    requires |r.list| + |r.blocks| == |o.list| + |o.blocks|
    ensures forall x :: x in r.blocks <==> x in s.blocks || x in Targets([v] + trace)
    ensures forall x :: x in Targets([v] + trace) ==> x !in s.blocks
    ensures NoDup(Targets([v] + trace))
    ensures |r.list| + |r.blocks| == |s.list| + |s.blocks|
  {
    TargetsCons(v, trace);
    if v.action.Merged? {
      NoDupCons(v.action.into, Targets(trace));
    }
  }

  /** A visit whose merging tile was unblocked, followed by a trace whose
      merging tiles avoid the blocks after the visit. */
  lemma MergersCons(blocks: set<TileId>, after: set<TileId>, v: Visit, trace: seq<Visit>)
    requires blocks <= after
    requires v.action.Merged? ==> v.tile !in blocks && v.action.into in after
    requires MergersUnblocked(after, trace)
    ensures MergersUnblocked(blocks, [v] + trace)
  {
    var t := [v] + trace;
    forall k | 0 <= k < |t| && t[k].action.Merged?
      ensures t[k].tile !in blocks && t[k].tile !in Targets(t[..k])
    {
      if k == 0 {
        assert t[..k] == [];
      } else {
        assert t[k] == trace[k - 1];
        assert t[..k] == [v] + trace[..k - 1];
        TargetsCons(v, trace[..k - 1]);
      }
    }
  }

  lemma TargetsCons(v: Visit, trace: seq<Visit>)
    ensures Targets([v] + trace) == (if v.action.Merged? then [v.action.into] else []) + Targets(trace)
  {
    assert ([v] + trace)[1..] == trace;
  }

  lemma NoDupCons(x: TileId, s: seq<TileId>)
    requires NoDup(s) && x !in s
    ensures NoDup([x] + s)
  {
    var t := [x] + s;
    forall a, b | 0 <= a < b < |t| ensures t[a] != t[b] {
      assert t[b] == s[b - 1];
      if a > 0 {
        assert t[a] == s[a - 1];
      }
    }
  }

  /** The loop only pops at or after its current position. */
  lemma {:induction false} PassFromKeepsPrefix(mode: Mode, dir: Direction, d: Dict, s: PassState, i: nat)
    requires Refs(d, s) && i <= |s.list|
    ensures var r := PassFrom(mode, dir, d, s, i).0; i <= |r.list| && r.list[..i] == s.list[..i]
    decreases |s.list| - i
  {
    if i < |s.list| {
      var o := VisitTile(dir, d, s, i);
      var next := if o.action.Merged? && mode == Corrected then i else i + 1;
      VisitKeepsPrefix(mode, dir, d, s, i);
      if next <= |o.state.list| {
        PassFromKeepsPrefix(mode, dir, d, o.state, next);
        var r := PassFrom(mode, dir, d, o.state, next).0;
        PrefixNarrows(r.list, o.state.list, i, next);
      }
    }
  }

  /** A visit changes nothing in front of its position. */
  lemma VisitKeepsPrefix(mode: Mode, dir: Direction, d: Dict, s: PassState, i: nat)
    requires Refs(d, s) && i < |s.list|
    ensures var o := VisitTile(dir, d, s, i);
      var next := if o.action.Merged? && mode == Corrected then i else i + 1;
      i <= next && i <= |o.state.list| && o.state.list[..i] == s.list[..i]
  {
    var o := VisitTile(dir, d, s, i);
    if o.action.Merged? {
      assert o.state.list[..i] == (s.list[..i] + s.list[i + 1..])[..i];
    }
  }

  lemma PrefixNarrows(a: seq<TileId>, b: seq<TileId>, i: nat, n: nat)
    requires i <= n <= |a| && n <= |b| && a[..n] == b[..n]
    ensures a[..i] == b[..i]
  {
    assert a[..i] == a[..n][..i];
    assert b[..i] == b[..n][..i];
  }

  /** A tile the loop will not visit keeps its position and cell. */
  lemma {:induction false} PassFromFrame(mode: Mode, dir: Direction, d: Dict, s: PassState, i: nat, x: TileId)
    requires Refs(d, s) && x < |s.heap| && x !in Pending(s, i)
    ensures SamePlace(PassFrom(mode, dir, d, s, i).0.heap[x], s.heap[x])
    decreases |s.list| - i
  {
    if i < |s.list| {
      var o := VisitTile(dir, d, s, i);
      var next := if o.action.Merged? && mode == Corrected then i else i + 1;
      VisitKeepsUnvisited(mode, dir, d, s, i, x);
      PassFromFrame(mode, dir, d, o.state, next, x);
    }
  }

  /** A visit leaves a tile that is not pending where it was, and still not pending. */
  lemma VisitKeepsUnvisited(mode: Mode, dir: Direction, d: Dict, s: PassState, i: nat, x: TileId)
    requires Refs(d, s) && i < |s.list| && x < |s.heap| && x !in Pending(s, i)
    ensures var o := VisitTile(dir, d, s, i);
      var next := if o.action.Merged? && mode == Corrected then i else i + 1;
      x !in Pending(o.state, next) && SamePlace(o.state.heap[x], s.heap[x])
  {
    var o := VisitTile(dir, d, s, i);
    var next := if o.action.Merged? && mode == Corrected then i else i + 1;
    assert s.list[i..][0] == s.list[i];
    VisitTileMeetsSpec(dir, d, s, i);
    if o.action.Merged? && next < |o.state.list| {
      assert forall k :: next <= k < |o.state.list| ==> o.state.list[k] == s.list[k + 1];
    }
  }

  /** A listed tile the loop has already passed keeps its position and
      cell and stays in the list. */
  lemma PassFromKeepsVisitedTile(mode: Mode, dir: Direction, d: Dict, s: PassState, i: nat, x: TileId)
    requires Refs(d, s) && i <= |s.list| && x in s.list && x !in Pending(s, i)
    ensures var r := PassFrom(mode, dir, d, s, i).0;
      SamePlace(r.heap[x], s.heap[x]) && x in r.list
  {
    PassFromFrame(mode, dir, d, s, i, x);
    PassFromKeepsPrefix(mode, dir, d, s, i);
    var k :| 0 <= k < |s.list| && s.list[k] == x;
    assert k < i;
    assert s.list[..i][k] == x;
  }

  /** A tile registered on the boundary of the direction is neither moved
      nor merged away during a pass: it keeps its position and cell and
      stays in the list. */
  lemma {:induction false} PassFromKeepsBoundaryTile(mode: Mode, dir: Direction, d: Dict, s: PassState, i: nat, x: TileId)
    requires Refs(d, s) && NoDup(s.list) && i <= |s.list|
    requires x in s.list && AtBoundary(dir, s.heap[x])
    ensures var r := PassFrom(mode, dir, d, s, i).0;
      SamePlace(r.heap[x], s.heap[x]) && x in r.list
    decreases |s.list| - i
  {
    if x !in Pending(s, i) {
      PassFromKeepsVisitedTile(mode, dir, d, s, i, x);
    } else {
      var o := VisitTile(dir, d, s, i);
      var next := if o.action.Merged? && mode == Corrected then i else i + 1;
      VisitKeepsBoundaryTile(mode, dir, d, s, i, x);
      PassFromKeepsBoundaryTile(mode, dir, d, o.state, next, x);
    }
  }

  /** Visiting any tile leaves a pending boundary tile where it was, in the
      list, and not behind the next position. */
  lemma VisitKeepsBoundaryTile(mode: Mode, dir: Direction, d: Dict, s: PassState, i: nat, x: TileId)
    requires Refs(d, s) && NoDup(s.list) && i < |s.list|
    requires x in Pending(s, i) && x < |s.heap| && AtBoundary(dir, s.heap[x])
    ensures var o := VisitTile(dir, d, s, i);
      var next := if o.action.Merged? && mode == Corrected then i else i + 1;
      && NoDup(o.state.list) && next <= |o.state.list| && x in o.state.list
      && SamePlace(o.state.heap[x], s.heap[x]) && AtBoundary(dir, o.state.heap[x])
  {
    var o := VisitTile(dir, d, s, i);
    RemoveAtKeepsNoDup(s.list, i);
    VisitTileMeetsSpec(dir, d, s, i);
    if s.list[i] == x {
      assert o.state == s;
    } else if o.action.Merged? {
      var k :| i <= k < |s.list| && s.list[k] == x;
      assert k != i;
      assert x in s.list && x != s.list[i];
    } else {
      assert s.list[i..][0] == s.list[i];
      assert x in s.list[i..];
    }
  }


  /** Every listed tile is placed for `dir`. */
  predicate ListPlaced(dir: Direction, s: PassState) {
    forall x :: x in s.list ==> x < |s.heap| && Placed(dir, s.heap[x])
  }

  lemma PlacedSamePlace(dir: Direction, a: Tile, b: Tile)
    requires SamePlace(a, b) && Placed(dir, b)
    ensures Placed(dir, a)
  {
  }

  /** A visit keeps every listed tile placed: a step starts off the
      boundary, and a merge only changes a value and pops the visited tile. */
  lemma VisitKeepsPlaced(dir: Direction, d: Dict, s: PassState, i: nat)
    requires Refs(d, s) && i < |s.list| && NoDup(s.list) && ListPlaced(dir, s)
    ensures var o := VisitTile(dir, d, s, i); NoDup(o.state.list) && ListPlaced(dir, o.state)
  {
    var o := VisitTile(dir, d, s, i);
    var id := s.list[i];
    VisitTileMeetsSpec(dir, d, s, i);
    RemoveAtKeepsNoDup(s.list, i);
    forall x | x in o.state.list ensures x < |o.state.heap| && Placed(dir, o.state.heap[x]) {
      if x != id {
        PlacedSamePlace(dir, o.state.heap[x], s.heap[x]);
      } else if o.action.Moved? {
        StepKeepsPlaced(dir, s.heap[id]);
      }
    }
  }

  /** A visit keeps every tile value a power of two: only a merge changes a
      value, and it doubles an equal one. */
  lemma VisitKeepsPowers(dir: Direction, d: Dict, s: PassState, i: nat)
    requires Refs(d, s) && i < |s.list| && PowerValues(s.heap)
    ensures PowerValues(VisitTile(dir, d, s, i).state.heap)
  {
    var o := VisitTile(dir, d, s, i);
    if o.action.Merged? {
      DoublePowerOfTwo(s.heap[o.action.into].value);
    }
  }

  /** The loop keeps every tile value a power of two. */
  lemma {:induction false} PassFromKeepsPowers(mode: Mode, dir: Direction, d: Dict, s: PassState, i: nat)
    requires Refs(d, s) && PowerValues(s.heap)
    ensures PowerValues(PassFrom(mode, dir, d, s, i).0.heap)
    decreases |s.list| - i
  {
    if i < |s.list| {
      var o := VisitTile(dir, d, s, i);
      var next := if o.action.Merged? && mode == Corrected then i else i + 1;
      VisitKeepsPowers(dir, d, s, i);
      PassFromKeepsPowers(mode, dir, d, o.state, next);
      PassFromUnfold(mode, dir, d, s, i);
    }
  }

  /** The loop keeps every listed tile placed. */
  lemma {:induction false} PassFromKeepsPlaced(mode: Mode, dir: Direction, d: Dict, s: PassState, i: nat)
    requires Refs(d, s) && NoDup(s.list) && ListPlaced(dir, s)
    ensures ListPlaced(dir, PassFrom(mode, dir, d, s, i).0)
    decreases |s.list| - i
  {
    if i < |s.list| {
      var o := VisitTile(dir, d, s, i);
      var next := if o.action.Merged? && mode == Corrected then i else i + 1;
      VisitKeepsPlaced(dir, d, s, i);
      PassFromKeepsPlaced(mode, dir, d, o.state, next);
      PassFromUnfold(mode, dir, d, s, i);
    }
  }

  /** Every visited tile was pending when the loop started. */
  lemma {:induction false} PassFromVisitsPending(mode: Mode, dir: Direction, d: Dict, s: PassState, i: nat)
    requires Refs(d, s)
    ensures forall x :: x in Visited(PassFrom(mode, dir, d, s, i).1) ==> x in Pending(s, i)
    decreases |s.list| - i
  {
    if i < |s.list| {
      var o := VisitTile(dir, d, s, i);
      var next := if o.action.Merged? && mode == Corrected then i else i + 1;
      PassFromVisitsPending(mode, dir, d, o.state, next);
      var rest := PassFrom(mode, dir, d, o.state, next);
      VisitedCons(Visit(s.list[i], o.action), rest.1);
      PendingAfterVisit(mode, dir, d, s, i);
    }
  }

  /** What is pending after a visit was pending before it. */
  lemma PendingAfterVisit(mode: Mode, dir: Direction, d: Dict, s: PassState, i: nat)
    requires Refs(d, s) && i < |s.list|
    ensures var o := VisitTile(dir, d, s, i);
      var next := if o.action.Merged? && mode == Corrected then i else i + 1;
      forall x :: x in Pending(o.state, next) ==> x in Pending(s, i)
  {
    var o := VisitTile(dir, d, s, i);
    var next := if o.action.Merged? && mode == Corrected then i else i + 1;
    if o.action.Merged? && next < |o.state.list| {
      assert o.state.list[next..] == s.list[next + 1..];
    } else if next < |o.state.list| {
      assert o.state.list[next..] == s.list[i + 1..];
    }
  }

  /** The corrected loop visits every tile of the list exactly once, in order. */
  lemma {:induction false} CorrectedPassFromVisitsAll(dir: Direction, d: Dict, s: PassState, i: nat)
    requires Refs(d, s) && i <= |s.list|
    ensures Visited(PassFrom(Corrected, dir, d, s, i).1) == s.list[i..]
    decreases |s.list| - i
  {
    if i < |s.list| {
      var o := VisitTile(dir, d, s, i);
      var next := if o.action.Merged? then i else i + 1;
      CorrectedVisitStep(dir, d, s, i);
      CorrectedPassFromVisitsAll(dir, d, o.state, next);
      DropCons(s.list, i);
    }
  }

  lemma DropCons(s: seq<TileId>, i: nat)
    requires i < |s|
    ensures s[i..] == [s[i]] + s[i + 1..]
  {
  }

  /** One visit of the corrected loop: the visited tile comes first, and
      the rest of the loop runs over what followed it. */
  lemma CorrectedVisitStep(dir: Direction, d: Dict, s: PassState, i: nat)
    requires Refs(d, s) && i < |s.list|
    ensures var o := VisitTile(dir, d, s, i);
      var next := if o.action.Merged? then i else i + 1;
      && next <= |o.state.list| && o.state.list[next..] == s.list[i + 1..]
      && Visited(PassFrom(Corrected, dir, d, s, i).1)
         == [s.list[i]] + Visited(PassFrom(Corrected, dir, d, o.state, next).1)
  {
    var o := VisitTile(dir, d, s, i);
    var next := if o.action.Merged? then i else i + 1;
    var rest := PassFrom(Corrected, dir, d, o.state, next);
    assert PassFrom(Corrected, dir, d, s, i).1 == [Visit(s.list[i], o.action)] + rest.1;
    CorrectedResumesBehindVisit(dir, d, s, i);
    VisitedCons(Visit(s.list[i], o.action), rest.1);
  }

  lemma VisitedCons(v: Visit, trace: seq<Visit>)
    ensures Visited([v] + trace) == [v.tile] + Visited(trace)
  {
  }

  /** After a visit, the corrected loop resumes at the tile that followed the visited one. */
  lemma CorrectedResumesBehindVisit(dir: Direction, d: Dict, s: PassState, i: nat)
    requires Refs(d, s) && i < |s.list|
    ensures var o := VisitTile(dir, d, s, i);
      var next := if o.action.Merged? then i else i + 1;
      next <= |o.state.list| && o.state.list[next..] == s.list[i + 1..]
  {
  }

  /** In the source's loop, a merge at position `i` pops the visited tile and
      the tile behind it is then not visited at all during this pass. */
  lemma AsWrittenSkipsTileAfterMerge(dir: Direction, d: Dict, s: PassState, i: nat)
    requires Refs(d, s) && NoDup(s.list) && i + 1 < |s.list|
    requires VisitTile(dir, d, s, i).action.Merged?
    ensures s.list[i + 1] !in Visited(PassFrom(AsWritten, dir, d, s, i).1)
  {
    var o := VisitTile(dir, d, s, i);
    var rest := PassFrom(AsWritten, dir, d, o.state, i + 1);
    PassFromVisitsPending(AsWritten, dir, d, o.state, i + 1);
    RemoveAtKeepsNoDup(s.list, i);
    assert o.state.list[i] == s.list[i + 1];
    assert s.list[i + 1] !in Pending(o.state, i + 1);
    VisitedCons(Visit(s.list[i], o.action), rest.1);
  }


  // Merges into tiles already merged away. The dictionary a pass looks
  // tiles up in still holds the tiles it has popped, so nothing in the loop
  // body itself stops a later tile from merging into one of them. When every
  // listed tile starts placed, the geometry does: a tile merged away lay
  // within a step of its cell's far edge, so the tile one lane behind it is
  // more than a step away.

  /** No merge of the trace goes into a tile of `gone`, or into a tile that
      merged away earlier in the trace. */
  predicate TargetsStay(gone: set<TileId>, trace: seq<Visit>) {
    && (forall k :: 0 <= k < |trace| && trace[k].action.Merged? ==> trace[k].action.into !in gone)
    && (forall j, k :: 0 <= j < k < |trace| && trace[j].action.Merged? && trace[k].action.Merged? ==>
          trace[k].action.into != trace[j].tile)
  }

  /** Every tile of the dictionary is at least as far along as the near edge
      of the cell it was registered at when the pass began. */
  predicate FloorsHold(dir: Direction, d: Dict, heap: seq<Tile>) {
    forall e :: e in d ==> e.id < |heap| && RectWidth * Depth(dir, e.key) <= Advance(dir, heap[e.id])
  }

  /** Every tile still ahead of the loop is found under its own cell. */
  predicate PendingRegistered(d: Dict, s: PassState, i: nat) {
    forall x :: x in Pending(s, i) ==> x < |s.heap| && Get(d, CellOf(s.heap[x])) == Some(x)
  }

  /** Every tile of the dictionary is still listed or was merged away. */
  predicate Accounted(d: Dict, s: PassState, gone: set<TileId>) {
    forall e :: e in d ==> e.id in s.list || e.id in gone
  }

  /** A tile merged away is off the list, placed, found under its own cell,
      and within one step of its cell's far edge. */
  predicate GoneClose(dir: Direction, d: Dict, s: PassState, gone: set<TileId>) {
    forall a :: a in gone ==>
      && a < |s.heap| && a !in s.list && Placed(dir, s.heap[a])
      && Get(d, CellOf(s.heap[a])) == Some(a)
      && Advance(dir, s.heap[a]) >= RectWidth * Depth(dir, CellOf(s.heap[a])) + RectWidth - MoveLev
  }

  /** The invariant of a pass whose listed tiles all started placed. */
  predicate MergeInv(dir: Direction, d: Dict, s: PassState, i: nat, gone: set<TileId>) {
    && Refs(d, s) && UniqueKeys(d) && NoDup(Values(d)) && NoDup(s.list) && ListPlaced(dir, s)
    && FloorsHold(dir, d, s.heap) && PendingRegistered(d, s, i)
    && Accounted(d, s, gone) && GoneClose(dir, d, s, gone)
  }

  /** A dictionary without repeated tiles stores each tile under one key. */
  lemma GetInjective(d: Dict)
    requires NoDup(Values(d))
    ensures forall k1, k2 :: Get(d, k1).Some? && Get(d, k1) == Get(d, k2) ==> k1 == k2
  {
    forall k1, k2 | Get(d, k1).Some? && Get(d, k1) == Get(d, k2) ensures k1 == k2 {
      var x := Get(d, k1).value;
      var a :| 0 <= a < |d| && d[a] == Entry(k1, x);
      var b :| 0 <= b < |d| && d[b] == Entry(k2, x);
      assert Values(d)[a] == Values(d)[b];
    }
  }

  /** Under the invariant, a merge goes into a listed tile other than the
      visited one, and never into a tile merged away earlier. */
  lemma VisitTargetStays(dir: Direction, d: Dict, s: PassState, i: nat, gone: set<TileId>)
    requires MergeInv(dir, d, s, i, gone) && i < |s.list|
    ensures var o := VisitTile(dir, d, s, i);
      o.action.Merged? ==> o.action.into !in gone && o.action.into != s.list[i] && o.action.into in s.list
  {
    var o := VisitTile(dir, d, s, i);
    if o.action.Merged? {
      VisitTileMeetsSpec(dir, d, s, i);
      var id := s.list[i];
      var t := s.heap[id];
      var n := o.action.into;
      assert s.list[i..][0] == id;
      assert Entry(NeighbourCell(dir, t), n) in d;
      GetInjective(d);
      NeighbourDepth(dir, t);
      PlacedWindow(dir, t);
      PolicyIsUniform(dir, t, s.heap[n]);
      assert n !in gone;
    }
  }

  /** What is pending after a visit lay strictly behind the visited position. */
  lemma PendingAfterVisitStrict(mode: Mode, dir: Direction, d: Dict, s: PassState, i: nat)
    requires Refs(d, s) && i < |s.list|
    ensures var o := VisitTile(dir, d, s, i);
      var next := if o.action.Merged? && mode == Corrected then i else i + 1;
      forall x :: x in Pending(o.state, next) ==> x in s.list[i + 1..]
  {
    var o := VisitTile(dir, d, s, i);
    var next := if o.action.Merged? && mode == Corrected then i else i + 1;
    if o.action.Merged? && next < |o.state.list| {
      assert o.state.list[next..] == s.list[next + 1..];
    } else if next < |o.state.list| {
      assert o.state.list[next..] == s.list[i + 1..];
    }
  }

  /** A merge leaves the visited tile where it was and placed. */
  lemma MergeKeepsPlace(dir: Direction, d: Dict, s: PassState, i: nat)
    requires Refs(d, s) && i < |s.list| && Placed(dir, s.heap[s.list[i]])
    requires VisitTile(dir, d, s, i).action.Merged?
    ensures var h := VisitTile(dir, d, s, i).state.heap;
      SamePlace(h[s.list[i]], s.heap[s.list[i]]) && Placed(dir, h[s.list[i]])
  {
  }

  /** A visit moves no tile but the visited one. */
  lemma VisitFrame(dir: Direction, d: Dict, s: PassState, i: nat)
    requires Refs(d, s) && i < |s.list|
    ensures var h := VisitTile(dir, d, s, i).state.heap;
      forall j :: 0 <= j < |s.heap| && j != s.list[i] ==> SamePlace(h[j], s.heap[j])
  {
    VisitTileMeetsSpec(dir, d, s, i);
  }

  /** A visit removes the visited tile from the list when it merges, and nothing else. */
  lemma VisitListShrinks(dir: Direction, d: Dict, s: PassState, i: nat)
    requires Refs(d, s) && i < |s.list| && NoDup(s.list)
    ensures var o := VisitTile(dir, d, s, i);
      forall x :: x in o.state.list <==> x in s.list && (x != s.list[i] || !o.action.Merged?)
  {
    RemoveAtKeepsNoDup(s.list, i);
  }

  lemma FloorsKeep(dir: Direction, d: Dict, h: seq<Tile>, h': seq<Tile>)
    requires FloorsHold(dir, d, h) && NoTileBackwards(dir, h, h')
    ensures FloorsHold(dir, d, h')
  {
  }

  /** One visit keeps the floors. */
  lemma VisitKeepsFloors(dir: Direction, d: Dict, s: PassState, i: nat)
    requires Refs(d, s) && i < |s.list| && FloorsHold(dir, d, s.heap)
    ensures FloorsHold(dir, d, VisitTile(dir, d, s, i).state.heap)
  {
    VisitProgress(dir, d, s, i);
    FloorsKeep(dir, d, s.heap, VisitTile(dir, d, s, i).state.heap);
  }

  /** One visit keeps the tiles still ahead registered under their own cells. */
  lemma VisitKeepsPending(mode: Mode, dir: Direction, d: Dict, s: PassState, i: nat)
    requires Refs(d, s) && i < |s.list| && NoDup(s.list) && PendingRegistered(d, s, i)
    ensures var o := VisitTile(dir, d, s, i);
      var next := if o.action.Merged? && mode == Corrected then i else i + 1;
      PendingRegistered(d, o.state, next)
  {
    var o := VisitTile(dir, d, s, i);
    var next := if o.action.Merged? && mode == Corrected then i else i + 1;
    VisitFrame(dir, d, s, i);
    PendingAfterVisitStrict(mode, dir, d, s, i);
    forall x | x in Pending(o.state, next) ensures x < |o.state.heap| && Get(d, CellOf(o.state.heap[x])) == Some(x) {
      var k :| i + 1 <= k < |s.list| && s.list[k] == x;
      assert s.list[i..][k - i] == x;
    }
  }

  /** One visit keeps the tiles of the list placed, the floors, and the
      registration of the tiles still ahead. */
  lemma VisitKeepsRegistered(mode: Mode, dir: Direction, d: Dict, s: PassState, i: nat, gone: set<TileId>)
    requires MergeInv(dir, d, s, i, gone) && i < |s.list|
    ensures var o := VisitTile(dir, d, s, i);
      var next := if o.action.Merged? && mode == Corrected then i else i + 1;
      && NoDup(o.state.list) && ListPlaced(dir, o.state)
      && FloorsHold(dir, d, o.state.heap) && PendingRegistered(d, o.state, next)
  {
    VisitKeepsPlaced(dir, d, s, i);
    VisitKeepsFloors(dir, d, s, i);
    VisitKeepsPending(mode, dir, d, s, i);
  }

  /** The tiles merged away before a visit stay close through it. */
  lemma VisitKeepsOldGone(dir: Direction, d: Dict, s: PassState, i: nat, gone: set<TileId>)
    requires Refs(d, s) && i < |s.list| && NoDup(s.list) && GoneClose(dir, d, s, gone)
    ensures GoneClose(dir, d, VisitTile(dir, d, s, i).state, gone)
  {
    var o := VisitTile(dir, d, s, i);
    VisitFrame(dir, d, s, i);
    VisitListShrinks(dir, d, s, i);
    forall a | a in gone
      ensures a < |o.state.heap| && a !in o.state.list && Placed(dir, o.state.heap[a])
      ensures Get(d, CellOf(o.state.heap[a])) == Some(a)
      ensures Advance(dir, o.state.heap[a]) >= RectWidth * Depth(dir, CellOf(o.state.heap[a])) + RectWidth - MoveLev
    {
      PlacedSamePlace(dir, o.state.heap[a], s.heap[a]);
    }
  }

  /** A tile merged away by a visit is close: it merged within a step of a
      tile whose advance is at least the near edge of the next lane. */
  lemma VisitMakesGoneClose(dir: Direction, d: Dict, s: PassState, i: nat, gone: set<TileId>)
    requires Refs(d, s) && NoDup(s.list) && ListPlaced(dir, s) && FloorsHold(dir, d, s.heap)
    requires PendingRegistered(d, s, i) && i < |s.list| && VisitTile(dir, d, s, i).action.Merged?
    ensures GoneClose(dir, d, VisitTile(dir, d, s, i).state, {s.list[i]})
  {
    var o := VisitTile(dir, d, s, i);
    var id := s.list[i];
    var t := s.heap[id];
    var n := o.action.into;
    assert s.list[i..][0] == id;
    assert Get(d, CellOf(t)) == Some(id);
    MergeKeepsPlace(dir, d, s, i);
    VisitListShrinks(dir, d, s, i);
    MergeWithinStep(dir, d, s, i);
    NeighbourDepth(dir, t);
  }

  /** A merge goes into the tile registered one lane ahead, at most a step
      further along than the visited tile. */
  lemma MergeWithinStep(dir: Direction, d: Dict, s: PassState, i: nat)
    requires Refs(d, s) && i < |s.list| && VisitTile(dir, d, s, i).action.Merged?
    ensures var o := VisitTile(dir, d, s, i);
      var t := s.heap[s.list[i]];
      var n := o.action.into;
      && Entry(NeighbourCell(dir, t), n) in d
      && Advance(dir, s.heap[n]) <= Advance(dir, t) + MoveLev
  {
    var t := s.heap[s.list[i]];
    VisitTileMeetsSpec(dir, d, s, i);
    PolicyIsUniform(dir, t, s.heap[VisitTile(dir, d, s, i).action.into]);
  }

  /** A visit keeps every tile of the dictionary listed or merged away. */
  lemma VisitKeepsAccounted(dir: Direction, d: Dict, s: PassState, i: nat, gone: set<TileId>)
    requires Refs(d, s) && i < |s.list| && NoDup(s.list) && Accounted(d, s, gone)
    ensures var o := VisitTile(dir, d, s, i);
      Accounted(d, o.state, if o.action.Merged? then gone + {s.list[i]} else gone)
  {
    VisitListShrinks(dir, d, s, i);
  }

  /** One visit keeps every tile accounted for and every tile merged away close. */
  lemma VisitKeepsGone(mode: Mode, dir: Direction, d: Dict, s: PassState, i: nat, gone: set<TileId>)
    requires MergeInv(dir, d, s, i, gone) && i < |s.list|
    ensures var o := VisitTile(dir, d, s, i);
      var gone' := if o.action.Merged? then gone + {s.list[i]} else gone;
      Accounted(d, o.state, gone') && GoneClose(dir, d, o.state, gone')
  {
    var o := VisitTile(dir, d, s, i);
    VisitKeepsAccounted(dir, d, s, i, gone);
    VisitKeepsOldGone(dir, d, s, i, gone);
    if o.action.Merged? {
      VisitMakesGoneClose(dir, d, s, i, gone);
    }
  }

  /** One visit keeps the invariant, with a merged tile joining `gone`. */
  lemma VisitKeepsMergeInv(mode: Mode, dir: Direction, d: Dict, s: PassState, i: nat, gone: set<TileId>)
    requires MergeInv(dir, d, s, i, gone) && i < |s.list|
    ensures var o := VisitTile(dir, d, s, i);
      var next := if o.action.Merged? && mode == Corrected then i else i + 1;
      MergeInv(dir, d, o.state, next, if o.action.Merged? then gone + {s.list[i]} else gone)
  {
    VisitKeepsRegistered(mode, dir, d, s, i, gone);
    VisitKeepsGone(mode, dir, d, s, i, gone);
  }

  /** A visit that is not a merge changes no value and leaves the list alone. */
  lemma VisitKeepsValue(dir: Direction, d: Dict, s: PassState, i: nat)
    requires Refs(d, s) && i < |s.list| && NoDup(s.list)
    requires !VisitTile(dir, d, s, i).action.Merged?
    ensures ValueSum(VisitTile(dir, d, s, i).state.heap, VisitTile(dir, d, s, i).state.list)
         == ValueSum(s.heap, s.list)
  {
    var o := VisitTile(dir, d, s, i);
    VisitTileMeetsSpec(dir, d, s, i);
    ValueSumChangeAt(s.heap, o.state.heap, s.list, s.list[i]);
  }

  lemma TargetsStayCons(gone: set<TileId>, after: set<TileId>, v: Visit, trace: seq<Visit>)
    requires v.action.Merged? ==> v.action.into !in gone && after == gone + {v.tile}
    requires !v.action.Merged? ==> after == gone
    requires TargetsStay(after, trace)
    ensures TargetsStay(gone, [v] + trace)
  {
    var t := [v] + trace;
    forall k | 0 <= k < |t| && t[k].action.Merged? ensures t[k].action.into !in gone {
      if k > 0 {
        assert t[k] == trace[k - 1];
      }
    }
    forall j, k | 0 <= j < k < |t| && t[j].action.Merged? && t[k].action.Merged?
      ensures t[k].action.into != t[j].tile
    {
      assert t[k] == trace[k - 1];
      if j > 0 {
        assert t[j] == trace[j - 1];
      }
    }
  }

  /** When every listed tile starts placed, the loop never merges into a
      tile it has merged away, so every merge goes into a tile still on the
      list and the total value of the list is conserved. */
  lemma {:induction false} PassFromTargetsStay(mode: Mode, dir: Direction, d: Dict, s: PassState, i: nat, gone: set<TileId>)
    requires MergeInv(dir, d, s, i, gone)
    ensures var r := PassFrom(mode, dir, d, s, i);
      TargetsStay(gone, r.1) && ValueSum(r.0.heap, r.0.list) == ValueSum(s.heap, s.list)
    decreases |s.list| - i
  {
    if i < |s.list| {
      var o := VisitTile(dir, d, s, i);
      var next := if o.action.Merged? && mode == Corrected then i else i + 1;
      var gone' := if o.action.Merged? then gone + {s.list[i]} else gone;
      VisitTargetStays(dir, d, s, i, gone);
      VisitKeepsMergeInv(mode, dir, d, s, i, gone);
      PassFromTargetsStay(mode, dir, d, o.state, next, gone');
      var rest := PassFrom(mode, dir, d, o.state, next);
      PassFromUnfold(mode, dir, d, s, i);
      TargetsStayCons(gone, gone', Visit(s.list[i], o.action), rest.1);
      if o.action.Merged? {
        RemoveAtKeepsNoDup(s.list, i);
        VisitMergeConservesValue(dir, d, s, i);
      } else {
        VisitKeepsValue(dir, d, s, i);
      }
    }
  }

  /** A merge goes into a tile the dictionary holds. */
  lemma VisitTargetRegistered(dir: Direction, d: Dict, s: PassState, i: nat)
    requires Refs(d, s) && i < |s.list|
    ensures var o := VisitTile(dir, d, s, i);
      o.action.Merged? ==> o.action.into in Values(d)
  {
    var o := VisitTile(dir, d, s, i);
    if o.action.Merged? {
      VisitTileMeetsSpec(dir, d, s, i);
      var e := Entry(NeighbourCell(dir, s.heap[s.list[i]]), o.action.into);
      assert e in d;
      var k :| 0 <= k < |d| && d[k] == e;
      assert Values(d)[k] == e.id;
    }
  }

  /** Every merge of the visits goes into one of the given tiles. */
  predicate TargetsIn(trace: seq<Visit>, ids: seq<TileId>) {
    forall k :: 0 <= k < |trace| && trace[k].action.Merged? ==> trace[k].action.into in ids
  }

  /** No tile merged away in the visits is among the given tiles. */
  predicate MergedAwayOff(trace: seq<Visit>, ids: seq<TileId>) {
    forall k :: 0 <= k < |trace| && trace[k].action.Merged? ==> trace[k].tile !in ids
  }

  lemma MembersCons(v: Visit, trace: seq<Visit>, ids: seq<TileId>, final: seq<TileId>)
    requires v.action.Merged? ==> v.action.into in ids && v.tile !in final
    requires TargetsIn(trace, ids) && MergedAwayOff(trace, final)
    ensures TargetsIn([v] + trace, ids) && MergedAwayOff([v] + trace, final)
  {
    var t := [v] + trace;
    forall k | 0 < k < |t| ensures t[k] == trace[k - 1] {
    }
  }

  /** Over the loop every merge goes into a tile of the dictionary, the list
      only loses tiles, and a tile merged away is off the final list. */
  lemma {:induction false} PassFromMergeMembers(mode: Mode, dir: Direction, d: Dict, s: PassState, i: nat)
    requires Refs(d, s) && NoDup(s.list)
    ensures var r := PassFrom(mode, dir, d, s, i);
      && (forall x :: x in r.0.list ==> x in s.list)
      && TargetsIn(r.1, Values(d)) && MergedAwayOff(r.1, r.0.list)
    decreases |s.list| - i
  {
    if i < |s.list| {
      var o := VisitTile(dir, d, s, i);
      var next := if o.action.Merged? && mode == Corrected then i else i + 1;
      VisitListShrinks(dir, d, s, i);
      VisitTargetRegistered(dir, d, s, i);
      RemoveAtKeepsNoDup(s.list, i);
      PassFromMergeMembers(mode, dir, d, o.state, next);
      var rest := PassFrom(mode, dir, d, o.state, next);
      PassFromUnfold(mode, dir, d, s, i);
      MembersCons(Visit(s.list[i], o.action), rest.1, Values(d), rest.0.list);
    }
  }

  /** Taking the same element out of two lists with equal multisets leaves
      equal multisets. */
  lemma MultisetCancel<T>(a: seq<T>, front: seq<T>, back: seq<T>)
    requires |a| > 0 && multiset(a) == multiset(front + [a[0]] + back)
    ensures multiset(a[1..]) == multiset(front + back)
  {
    var x := a[0];
    assert a == [x] + a[1..];
    assert multiset(a) == multiset{x} + multiset(a[1..]);
    assert multiset(front + [x] + back) == multiset(front) + multiset{x} + multiset(back);
    assert multiset(front + back) == multiset(front) + multiset(back);
    forall y ensures multiset(a[1..])[y] == multiset(front + back)[y] {
      assert multiset(a)[y] == multiset{x}[y] + multiset(a[1..])[y];
    }
  }

  /** Two lists holding the same tiles, counted with repetition, hold the
      same total value. */
  lemma {:induction false} ValueSumPermutation(heap: seq<Tile>, a: seq<TileId>, b: seq<TileId>)
    requires IdsIn(a, heap) && IdsIn(b, heap) && multiset(a) == multiset(b)
    ensures ValueSum(heap, a) == ValueSum(heap, b)
    decreases |a|
  {
    if |a| == 0 {
      assert |multiset(b)| == 0;
    } else {
      assert a[0] in multiset(b);
      var j :| 0 <= j < |b| && b[j] == a[0];
      var front, back := b[..j], b[j + 1..];
      assert b == front + [a[0]] + back;
      MultisetCancel(a, front, back);
      ValueSumPermutation(heap, a[1..], front + back);
      ValueSumConcat(heap, front, [a[0]]);
      ValueSumConcat(heap, front + [a[0]], back);
      ValueSumConcat(heap, front, back);
      assert ValueSum(heap, [a[0]]) == heap[a[0]].value by {
        assert [a[0]][1..] == [];
      }
    }
  }

}

=== FILE: resolver.dfy ===
/** The move resolver of `move_tiles`: one visit of a tile, one pass over the
    sorted tiles, and the settle loop that repeats passes until one of them
    changes nothing. */
module Resolver {

  import opened Wrappers
  import opened Geometry
  import opened TileMap
  import opened Boards
  import opened Directions
  import opened Sorting

  /** `AsWritten` keeps the source's `sorted_tiles.pop(i)` inside `enumerate`,
      which makes the iteration skip the tile after a merged one;
      `Corrected` visits that tile instead. */
  datatype Mode = AsWritten | Corrected

  /** What a visit did to the visited tile. */
  datatype Action = Skipped | Moved | Merged(into: TileId) | Blocked

  /** One entry of the record of a pass: which tile was visited and what happened. */
  datatype Visit = Visit(tile: TileId, action: Action)

  /** The state a pass works on: the tile objects, the list being iterated
      (`sorted_tiles`), the tiles that absorbed a merge this move (`blocks`)
      and the `updated` flag. The dictionary is not part of it: lookups use
      the dictionary as it was when the pass started. */
  datatype PassState = PassState(heap: seq<Tile>, list: seq<TileId>, blocks: set<TileId>, updated: bool)

  datatype Outcome = Outcome(state: PassState, action: Action)

  predicate Refs(d: Dict, s: PassState) {
    (forall e :: e in d ==> e.id < |s.heap|) && IdsIn(s.list, s.heap)
  }

  predicate SamePlace(a: Tile, b: Tile) {
    a.x == b.x && a.y == b.y && CellOf(a) == CellOf(b)
  }

  /** The merge condition of the source: equal values and neither tile
      has absorbed a merge during this move. */
  predicate Mergeable(s: PassState, id: TileId, n: TileId)
    requires id < |s.heap| && n < |s.heap|
  {
    s.heap[id].value == s.heap[n].value && id !in s.blocks && n !in s.blocks
  }

  /** The body of the `for` loop for the tile at position `i` of the list:
      skip it on the boundary, slide it one step, merge it into its
      neighbour, or leave it blocked. `VisitSpec` states each case. */
  function VisitTile(dir: Direction, d: Dict, s: PassState, i: nat): (r: Outcome)
    requires Refs(d, s) && i < |s.list|
    ensures |r.state.heap| == |s.heap| && Refs(d, r.state)
    ensures r.action.Merged? ==> r.state.list == s.list[..i] + s.list[i + 1..]
    ensures !r.action.Merged? ==> r.state.list == s.list
  {
    var id := s.list[i];
    var t := s.heap[id];
    if AtBoundary(dir, t) then Outcome(s, Skipped)
    else
      match Get(d, NeighbourCell(dir, t))
      case None => Outcome(s.(heap := s.heap[id := Step(dir, t)], updated := true), Moved)
      case Some(n) =>
        if Mergeable(s, id, n) then
          if StillApproaching(dir, t, s.heap[n]) then
            Outcome(s.(heap := s.heap[id := Step(dir, t)], updated := true), Moved)
          else Outcome(MergeInto(dir, s, i, n), Merged(n))
        else if HasRoom(dir, t, s.heap[n]) then
          Outcome(s.(heap := s.heap[id := Step(dir, t)], updated := true), Moved)
        else Outcome(s, Blocked)
  }

  /** The merge branch: tile `n` doubles, the visited tile is re-registered
      at its (unchanged) position and popped from the list, and `n` joins
      the blocks. */
  function MergeInto(dir: Direction, s: PassState, i: nat, n: TileId): PassState
    requires i < |s.list| && s.list[i] < |s.heap| && n < |s.heap|
  {
    var doubled := s.heap[n := s.heap[n].(value := s.heap[n].value * 2)];
    var id := s.list[i];
    PassState(doubled[id := SetPos(doubled[id], RoundsUp(dir))], s.list[..i] + s.list[i + 1..], s.blocks + {n}, true)
  }

  /** What a visit does, case by case: a tile on the boundary is skipped;
      a tile with a free cell ahead, or still approaching an equal and
      unblocked neighbour, or with room before an unequal one, advances one
      step; an equal, unblocked neighbour within one step is merged into
      (doubling it, popping the visited tile and blocking the neighbour);
      otherwise the tile is blocked. Only the visited tile ever changes
      position or cell, and `updated` is set exactly by a move or a merge. */
  ghost predicate VisitSpec(dir: Direction, d: Dict, s: PassState, i: nat, r: Outcome)
    requires Refs(d, s) && i < |s.list| && |r.state.heap| == |s.heap|
  {
    var id := s.list[i];
    var t := s.heap[id];
    && (r.action.Skipped? <==> AtBoundary(dir, t))
    && (r.action.Skipped? || r.action.Blocked? ==> r.state == s)
    && (r.state.updated <==> s.updated || r.action.Moved? || r.action.Merged?)
    && (!r.action.Merged? ==> r.state.list == s.list && r.state.blocks == s.blocks)
    && (forall j :: 0 <= j < |s.heap| && j != id ==> SamePlace(r.state.heap[j], s.heap[j]))
    // a move: the tile advances one step and nothing else changes
    && (r.action.Moved? ==>
          && r.state.heap == s.heap[id := Step(dir, t)]
          && match Get(d, NeighbourCell(dir, t))
             case None => true
             case Some(n) =>
               if Mergeable(s, id, n) then StillApproaching(dir, t, s.heap[n])
               else HasRoom(dir, t, s.heap[n]))
    // a merge: the neighbour doubles, the visited tile leaves the list and
    // the neighbour joins the blocks; no tile changes position
    && (r.action.Merged? ==>
          var n := r.action.into;
          && !AtBoundary(dir, t)
          && Get(d, NeighbourCell(dir, t)) == Some(n)
          && Mergeable(s, id, n) && !StillApproaching(dir, t, s.heap[n])
          && r.state.list == s.list[..i] + s.list[i + 1..]
          && r.state.blocks == s.blocks + {n}
          && (n != id ==> r.state.heap[n].value == 2 * s.heap[n].value)
          && forall j :: 0 <= j < |s.heap| ==>
               && r.state.heap[j].x == s.heap[j].x && r.state.heap[j].y == s.heap[j].y
               && (j != n ==> r.state.heap[j].value == s.heap[j].value))
    // a block: an occupied cell ahead whose tile can be neither merged
    // into nor approached any further
    && (r.action.Blocked? ==>
          && !AtBoundary(dir, t)
          && Get(d, NeighbourCell(dir, t)).Some?
          && var n := Get(d, NeighbourCell(dir, t)).value;
             !Mergeable(s, id, n) && !HasRoom(dir, t, s.heap[n]))
    // and conversely: a free cell ahead, an equal unblocked neighbour still
    // more than a step away, or room before any other neighbour means a
    // move; an equal unblocked neighbour within one step means a merge
    // into it; anything else means a block
    && (!AtBoundary(dir, t) ==>
          match Get(d, NeighbourCell(dir, t))
          case None => r.action.Moved?
          case Some(n) =>
            if Mergeable(s, id, n) then
              if StillApproaching(dir, t, s.heap[n]) then r.action.Moved? else r.action == Merged(n)
            else if HasRoom(dir, t, s.heap[n]) then r.action.Moved?
            else r.action.Blocked?)
  }

  lemma VisitTileMeetsSpec(dir: Direction, d: Dict, s: PassState, i: nat)
    requires Refs(d, s) && i < |s.list|
    ensures VisitSpec(dir, d, s, i, VisitTile(dir, d, s, i))
  {
  }

  /** The tile list without the element at position `i`. */
  lemma RemoveAtKeepsNoDup(s: seq<TileId>, i: int)
    requires 0 <= i < |s|
    ensures NoDup(s) ==> NoDup(s[..i] + s[i + 1..])
    ensures NoDup(s) ==> forall x :: x in s[..i] + s[i + 1..] <==> x in s && x != s[i]
  {
    var r := s[..i] + s[i + 1..];
    assert forall j :: 0 <= j < |r| ==> r[j] == (if j < i then s[j] else s[j + 1]);
  }

  /** The `for` loop from position `i` on. A merge pops the visited tile;
      in `AsWritten` mode the index still advances, so the tile that moved
      into position `i` is not visited in this pass. */
  function PassFrom(mode: Mode, dir: Direction, d: Dict, s: PassState, i: nat): (r: (PassState, seq<Visit>))
    requires Refs(d, s)
    ensures Refs(d, r.0) && |r.0.heap| == |s.heap|
    ensures |r.0.list| <= |s.list|
    ensures forall x :: x in r.0.list ==> x in s.list
    ensures NoDup(s.list) ==> NoDup(r.0.list)
    decreases |s.list| - i
  {
    if i >= |s.list| then (s, [])
    else
      var o := VisitTile(dir, d, s, i);
      RemoveAtKeepsNoDup(s.list, i);
      var next := if o.action.Merged? && mode == Corrected then i else i + 1;
      var rest := PassFrom(mode, dir, d, o.state, next);
      (rest.0, [Visit(s.list[i], o.action)] + rest.1)
  }

  /** `sorted(tiles.values(), key=sort_fun, reverse=reverse)`. */
  function SortedTiles(dir: Direction, b: Board): (order: seq<TileId>)
    requires WellFormed(b)
    ensures multiset(order) == multiset(Values(b.dict))
    ensures IdsIn(order, b.heap) && NoDup(order)
    ensures SortedBy(order, dir, b.heap, Reversed(dir))
  {
    var order := SortBy(Values(b.dict), dir, b.heap, Reversed(dir));
    assert forall x :: x in order <==> x in Values(b.dict) by {
      forall x ensures x in order <==> x in Values(b.dict) {
        assert x in order <==> x in multiset(order);
      }
    }
    assert IdsIn(order, b.heap) by {
      forall j | 0 <= j < |order| ensures order[j] < |b.heap| {
        assert order[j] in Values(b.dict);
      }
    }
    MultisetKeepsNoDup(Values(b.dict), order);
    order
  }

  lemma MultisetKeepsNoDup(a: seq<TileId>, b: seq<TileId>)
    requires multiset(a) == multiset(b) && NoDup(a)
    ensures NoDup(b)
  {
    NoDupIffSingleCounts(a);
    NoDupIffSingleCounts(b);
  }

  /** A list has no repeated tile exactly when no tile occurs twice in its multiset. */
  lemma {:induction false} NoDupIffSingleCounts(s: seq<TileId>)
    ensures NoDup(s) <==> forall x :: multiset(s)[x] <= 1
  {
    if |s| > 0 {
      var h := s[0];
      var t := s[1..];
      assert s == [h] + t;
      NoDupIffSingleCounts(t);
      assert forall x :: multiset(s)[x] == (if x == h then 1 else 0) + multiset(t)[x];
      if NoDup(s) {
        assert NoDup(t) by {
          forall i, j | 0 <= i < j < |t| ensures t[i] != t[j] {
            assert t[i] == s[i + 1] && t[j] == s[j + 1];
          }
        }
        assert h !in t;
      }
      if forall x :: multiset(s)[x] <= 1 {
        assert forall x :: multiset(t)[x] <= 1 by {
          forall x ensures multiset(t)[x] <= 1 {
            assert multiset(s)[x] <= 1;
          }
        }
        assert multiset(s)[h] <= 1;
        assert h !in t;
        forall i, j | 0 <= i < j < |s| ensures s[i] != s[j] {
          if i == 0 {
            assert s[j] == t[j - 1];
          } else {
            assert s[i] == t[i - 1] && s[j] == t[j - 1];
          }
        }
      }
    }
  }

  /** The result of one pass: the rebuilt board, the blocks, the `updated`
      flag, the surviving list `sorted_tiles` and the record of visits. */
  datatype PassResult = PassResult(board: Board, blocks: set<TileId>, updated: bool,
                                   survivors: seq<TileId>, trace: seq<Visit>)

  /** One iteration of `while updated`: sort, visit, then `update_tiles`. */
  function Pass(mode: Mode, dir: Direction, b: Board, blocks: set<TileId>): (r: PassResult)
    requires WellFormed(b)
    ensures WellFormed(r.board) && |r.board.heap| == |b.heap|
    ensures IdsIn(r.survivors, r.board.heap) && r.board.dict == Rebuild(r.board.heap, r.survivors)
  {
    var order := SortedTiles(dir, b);
    var res := PassFrom(mode, dir, b.dict, PassState(b.heap, order, blocks, false), 0);
    var s := res.0;
    RebuildNoDup(s.heap, s.list);
    PassResult(Board(Rebuild(s.heap, s.list), s.heap), s.blocks, s.updated, s.list, res.1)
  }

}

=== FILE: scenarios.dfy ===
/** A worked example of a Left move on four tiles, followed pass by pass in
    both modes of the resolver. In the dictionary's insertion order the
    tiles are: tile 0, a 4 at row 1 column 0; tile 1, a 4 at row 1
    column 1; tile 2, a 2 at row 0 column 1; tile 3, a 2 at row 0
    column 2. Nine passes slide tiles 1, 2 and 3 towards column 0; in the
    tenth, tile 1 merges into tile 0. As written the iteration then skips
    tile 2, tile 3 catches up with it and `update_tiles` stores tile 3 over
    tile 2, which disappears. The corrected iteration keeps all tiles: the
    move ends with an 8 at row 1 column 0 and a 4 at row 0 column 0. */
module Scenarios {

  import opened Wrappers
  import opened Geometry
  import opened TileMap
  import opened Boards
  import opened Directions
  import opened Sorting
  import opened Resolver
  import opened Moves

  // Evaluation steps of the loop, one per branch of its body.

  lemma SlideStep(mode: Mode, dir: Direction, d: Dict, s: PassState, i: nat)
    requires Refs(d, s) && i < |s.list|
    requires !AtBoundary(dir, s.heap[s.list[i]]) && Get(d, NeighbourCell(dir, s.heap[s.list[i]])).None?
    ensures PassFrom(mode, dir, d, s, i).0
         == PassFrom(mode, dir, d, s.(heap := s.heap[s.list[i] := Step(dir, s.heap[s.list[i]])], updated := true), i + 1).0
  {
  }

  lemma ApproachStep(mode: Mode, dir: Direction, d: Dict, s: PassState, i: nat, n: TileId)
    requires Refs(d, s) && i < |s.list| && n < |s.heap|
    requires !AtBoundary(dir, s.heap[s.list[i]]) && Get(d, NeighbourCell(dir, s.heap[s.list[i]])) == Some(n)
    requires Mergeable(s, s.list[i], n) && StillApproaching(dir, s.heap[s.list[i]], s.heap[n])
    ensures PassFrom(mode, dir, d, s, i).0
         == PassFrom(mode, dir, d, s.(heap := s.heap[s.list[i] := Step(dir, s.heap[s.list[i]])], updated := true), i + 1).0
  {
  }

  lemma MergeStep(mode: Mode, dir: Direction, d: Dict, s: PassState, i: nat, n: TileId)
    requires Refs(d, s) && i < |s.list| && n < |s.heap|
    requires !AtBoundary(dir, s.heap[s.list[i]]) && Get(d, NeighbourCell(dir, s.heap[s.list[i]])) == Some(n)
    requires Mergeable(s, s.list[i], n) && !StillApproaching(dir, s.heap[s.list[i]], s.heap[n])
    ensures PassFrom(mode, dir, d, s, i).0
         == PassFrom(mode, dir, d, MergeInto(dir, s, i, n), if mode == Corrected then i else i + 1).0
  {
  }

  lemma BoundaryStep(mode: Mode, dir: Direction, d: Dict, s: PassState, i: nat)
    requires Refs(d, s) && i < |s.list| && AtBoundary(dir, s.heap[s.list[i]])
    ensures PassFrom(mode, dir, d, s, i).0 == PassFrom(mode, dir, d, s, i + 1).0
  {
  }

  lemma PassFromEnd(mode: Mode, dir: Direction, d: Dict, s: PassState, i: nat)
    requires Refs(d, s) && i >= |s.list|
    ensures PassFrom(mode, dir, d, s, i).0 == s
  {
  }

  /** A pass is the loop over the sorted tiles followed by `update_tiles`. */
  lemma PassIs(mode: Mode, dir: Direction, b: Board, blocks: set<TileId>, order: seq<TileId>, e: PassState)
    requires WellFormed(b) && SortedTiles(dir, b) == order
    requires PassFrom(mode, dir, b.dict, PassState(b.heap, order, blocks, false), 0).0 == e
    ensures var p := Pass(mode, dir, b, blocks);
      p.board == Board(Rebuild(e.heap, e.list), e.heap) && p.blocks == e.blocks && p.updated == e.updated
      && p.survivors == e.list
  {
  }
  // Passes 1 to 9. The tiles of rows 1 and 0 carry the values `v` and
  // `w` (4 and 2 in the example); nothing below depends on which.

  const Example: Dict := [Entry(Cell(1, 0), 0), Entry(Cell(1, 1), 1), Entry(Cell(0, 1), 2), Entry(Cell(0, 2), 3)]

  /** The example board after `m` passes: tiles 1, 2 and 3 have each slid
      `m` steps, and no cell registration has changed yet. */
  function Sliding(v: int, w: int, m: nat): Board {
    Board(Example, [Tile(v, 1, 0, 0, 200), Tile(v, 1, 1, 200 - MoveLev * m, 200),
                    Tile(w, 0, 1, 200 - MoveLev * m, 0), Tile(w, 0, 2, 400 - MoveLev * m, 0)])
  }

  lemma ExampleValues()
    ensures Values(Example) == [0, 1, 2, 3]
  {
  }

  /** What the loop sees of the example dictionary: the three lookups it
      makes and the tiles it refers to. */
  predicate LooksUpLikeExample(d: Dict) {
    && Get(d, Cell(1, 0)) == Some(0) && Get(d, Cell(0, 1)) == Some(2) && Get(d, Cell(0, 0)).None?
    && forall e :: e in d ==> e.id < 4
  }

  lemma ExampleLookups()
    ensures LooksUpLikeExample(Example)
  {
    GetFindsEntry(Example, Cell(1, 0), 0);
    GetFindsEntry(Example, Cell(0, 1), 2);
    assert Cell(0, 0) !in Keys(Example);
    forall e | e in Example ensures e.id < 4 {
      var i :| 0 <= i < 4 && Example[i] == e;
    }
  }

  /** The example board is the one the constructor builds. */
  lemma ExampleStartsOnGrid(v: int, w: int)
    ensures Sliding(v, w, 0).heap == [NewTile(v, Cell(1, 0)), NewTile(v, Cell(1, 1)), NewTile(w, Cell(0, 1)), NewTile(w, Cell(0, 2))]
  {
  }

  lemma SlidingWellFormed(v: int, w: int, m: nat)
    ensures WellFormed(Sliding(v, w, m))
  {
    ExampleValues();
    var ids: seq<TileId> := [0, 1, 2, 3];
    assert NoDup(ids);
    assert UniqueKeys(Example);
    assert Consistent(Example, Sliding(v, w, m).heap);
  }

  /** A dictionary listed in the order of its tiles' columns is already in
      Left order. */
  lemma InColumnOrder(b: Board)
    requires WellFormed(b)
    requires forall i, j :: 0 <= i < j < |b.dict| ==> b.heap[b.dict[i].id].col <= b.heap[b.dict[j].id].col
    ensures SortedTiles(Left, b) == Values(b.dict)
  {
    var ids := Values(b.dict);
    assert SortedBy(ids, Left, b.heap, false) by {
      forall i, j | 0 <= i < j < |ids| ensures InOrder(Key(Left, b.heap, ids[i]), Key(Left, b.heap, ids[j]), false) {
      }
    }
    SortBySorted(ids, Left, b.heap, false);
  }

  lemma SlidingSorted(v: int, w: int, m: nat)
    ensures WellFormed(Sliding(v, w, m))
    ensures SortedTiles(Left, Sliding(v, w, m)) == [0, 1, 2, 3]
  {
    SlidingWellFormed(v, w, m);
    InColumnOrder(Sliding(v, w, m));
    ExampleValues();
  }

  lemma RebuildSliding(v: int, w: int, m: nat)
    ensures Rebuild(Sliding(v, w, m).heap, [0, 1, 2, 3]) == Example
  {
    SlidingWellFormed(v, w, m);
    RebuildRoundTrip(Sliding(v, w, m));
    ExampleValues();
  }

  /** One Left step of a tile resting on its row, landing in column `c`. */
  lemma StepLeft(t: Tile, c: int)
    requires t.y == t.row * RectHeight && (c - 1) * RectWidth < t.x - MoveLev <= c * RectWidth
    ensures Step(Left, t) == Tile(t.value, t.row, c, t.x - MoveLev, t.y)
  {
  }

  /** The loop of pass `m + 1` (for `m < 9`) before visiting position `j`:
      the tiles before position `j` have taken their step. */
  function SlidingMid(v: int, w: int, m: nat, j: nat): PassState
    requires j <= 4
  {
    PassState(Sliding(v, w, m + 1).heap[..j] + Sliding(v, w, m).heap[j..], [0, 1, 2, 3], {}, j >= 2)
  }

  /** Visit j of one sliding pass, for j in 1..3: the tile steps one
      `MoveLev` to the left, approaching tile 0, sliding into the free
      cell (0, 0), or approaching tile 2. */
  lemma SlidingVisit(mode: Mode, d: Dict, v: int, w: int, m: nat, j: nat)
    requires LooksUpLikeExample(d) && m < 9 && 0 < j < 4
    ensures Refs(d, SlidingMid(v, w, m, j)) && Refs(d, SlidingMid(v, w, m, j + 1))
    ensures PassFrom(mode, Left, d, SlidingMid(v, w, m, j), j).0
         == PassFrom(mode, Left, d, SlidingMid(v, w, m, j + 1), j + 1).0
  {
    if j == 1 {
      SlidingApproachFirst(mode, d, v, w, m, j);
    } else if j == 2 {
      SlidingIntoFreeCell(mode, d, v, w, m, j);
    } else {
      SlidingApproachLast(mode, d, v, w, m, j);
    }
  }

  /** Visit 1 of a sliding pass: tile 1 approaches tile 0. */
  lemma SlidingApproachFirst(mode: Mode, d: Dict, v: int, w: int, m: nat, j: nat)
    requires LooksUpLikeExample(d) && m < 9 && j == 1
    ensures Refs(d, SlidingMid(v, w, m, j)) && Refs(d, SlidingMid(v, w, m, j + 1))
    ensures PassFrom(mode, Left, d, SlidingMid(v, w, m, j), j).0
         == PassFrom(mode, Left, d, SlidingMid(v, w, m, j + 1), j + 1).0
  {
    SlidingMidStep(v, w, m, j);
    ApproachStep(mode, Left, d, SlidingMid(v, w, m, j), j, 0);
  }

  /** Visit 3 of a sliding pass: tile 3 approaches tile 2. */
  lemma SlidingApproachLast(mode: Mode, d: Dict, v: int, w: int, m: nat, j: nat)
    requires LooksUpLikeExample(d) && m < 9 && j == 3
    ensures Refs(d, SlidingMid(v, w, m, j)) && Refs(d, SlidingMid(v, w, m, j + 1))
    ensures PassFrom(mode, Left, d, SlidingMid(v, w, m, j), j).0
         == PassFrom(mode, Left, d, SlidingMid(v, w, m, j + 1), j + 1).0
  {
    SlidingMidStep(v, w, m, j);
    ApproachStep(mode, Left, d, SlidingMid(v, w, m, j), j, 2);
  }

  /** Visit 2 of a sliding pass: tile 2 slides into the free cell (0, 0). */
  lemma SlidingIntoFreeCell(mode: Mode, d: Dict, v: int, w: int, m: nat, j: nat)
    requires LooksUpLikeExample(d) && m < 9 && j == 2
    ensures Refs(d, SlidingMid(v, w, m, j)) && Refs(d, SlidingMid(v, w, m, j + 1))
    ensures PassFrom(mode, Left, d, SlidingMid(v, w, m, j), j).0
         == PassFrom(mode, Left, d, SlidingMid(v, w, m, j + 1), j + 1).0
  {
    SlidingMidStep(v, w, m, j);
    SlideStep(mode, Left, d, SlidingMid(v, w, m, j), j);
  }

  /** The heap after visit j differs from the one before only in tile j,
      which has taken one step. */
  lemma SlidingMidStep(v: int, w: int, m: nat, j: nat)
    requires m < 9 && 0 < j < 4
    ensures SlidingMid(v, w, m, j + 1).heap == SlidingMid(v, w, m, j).heap[j := Step(Left, SlidingMid(v, w, m, j).heap[j])]
    ensures SlidingMid(v, w, m, j + 1).list == SlidingMid(v, w, m, j).list && SlidingMid(v, w, m, j + 1).blocks == {}
    ensures SlidingMid(v, w, m, j + 1).updated
  {
    var h := Sliding(v, w, m).heap;
    assert SlidingMid(v, w, m, j).heap[j] == h[j];
    StepLeft(h[j], if j == 3 then 2 else 1);
  }

  /** The rest of a sliding pass from visit j on. */
  lemma {:induction false} SlidingRest(mode: Mode, d: Dict, v: int, w: int, m: nat, j: nat)
    requires LooksUpLikeExample(d) && m < 9 && 0 < j <= 4
    ensures Refs(d, SlidingMid(v, w, m, j))
    ensures PassFrom(mode, Left, d, SlidingMid(v, w, m, j), j).0 == SlidingMid(v, w, m, 4)
    decreases 4 - j
  {
    if j == 4 {
      assert Refs(d, SlidingMid(v, w, m, 4));
      PassFromEnd(mode, Left, d, SlidingMid(v, w, m, 4), 4);
    } else {
      SlidingVisit(mode, d, v, w, m, j);
      SlidingRest(mode, d, v, w, m, j + 1);
    }
  }

  /** The loop of passes 1 to 9. */
  lemma SlidingLoop(mode: Mode, d: Dict, v: int, w: int, m: nat)
    requires LooksUpLikeExample(d) && m < 9
    ensures Refs(d, PassState(Sliding(v, w, m).heap, [0, 1, 2, 3], {}, false))
    ensures PassFrom(mode, Left, d, PassState(Sliding(v, w, m).heap, [0, 1, 2, 3], {}, false), 0).0
         == PassState(Sliding(v, w, m + 1).heap, [0, 1, 2, 3], {}, true)
  {
    assert SlidingMid(v, w, m, 0) == PassState(Sliding(v, w, m).heap, [0, 1, 2, 3], {}, false);
    assert SlidingMid(v, w, m, 1) == SlidingMid(v, w, m, 0);
    SlidingRest(mode, d, v, w, m, 1);
    BoundaryStep(mode, Left, d, SlidingMid(v, w, m, 0), 0);
  }

  /** Passes 1 to 9: every tile off the boundary slides one step. */
  lemma SlidingPass(mode: Mode, v: int, w: int, m: nat)
    requires m < 9
    ensures WellFormed(Sliding(v, w, m))
    ensures var p := Pass(mode, Left, Sliding(v, w, m), {});
      p.board == Sliding(v, w, m + 1) && p.blocks == {} && p.updated
  {
    SlidingSorted(v, w, m);
    ExampleLookups();
    SlidingLoop(mode, Example, v, w, m);
    PassIs(mode, Left, Sliding(v, w, m), {}, [0, 1, 2, 3], PassState(Sliding(v, w, m + 1).heap, [0, 1, 2, 3], {}, true));
    RebuildSliding(v, w, m + 1);
  }

  // Pass 10: tile 1 merges into tile 0.

  /** Re-registering a tile whose position already lies in its cell (by
      the ceiling rule) leaves it unchanged. */
  lemma SetPosInPlace(t: Tile)
    requires (t.row - 1) * RectHeight < t.y <= t.row * RectHeight
    requires (t.col - 1) * RectWidth < t.x <= t.col * RectWidth
    ensures SetPos(t, true) == t
  {
  }

  /** The heap right after the merge of pass 10. */
  function MergedHeap(v: int, w: int): seq<Tile> {
    [Tile(v * 2, 1, 0, 0, 200), Tile(v, 1, 1, 20, 200), Tile(w, 0, 1, 20, 0), Tile(w, 0, 2, 220, 0)]
  }

  /** The merge of pass 10, for any heap in which tile 1 is already
      registered at its position. */
  lemma MergeSecondIntoFirst(h: seq<Tile>)
    requires |h| == 4 && SetPos(h[1], true) == h[1]
    ensures MergeInto(Left, PassState(h, [0, 1, 2, 3], {}, false), 1, 0)
         == PassState(h[0 := h[0].(value := h[0].value * 2)], [0, 2, 3], {0}, true)
  {
    var l: seq<TileId> := [0, 1, 2, 3];
    assert l[..1] + l[2..] == [0, 2, 3];
  }

  /** The state of pass 10 right after the merge: tile 0 doubled and
      blocked, tile 1 gone from the list. */
  lemma TenthMergeState(v: int, w: int)
    ensures var s := PassState(Sliding(v, w, 9).heap, [0, 1, 2, 3], {}, false);
      MergeInto(Left, s, 1, 0) == PassState(MergedHeap(v, w), [0, 2, 3], {0}, true)
  {
    var h := Sliding(v, w, 9).heap;
    SetPosInPlace(h[1]);
    MergeSecondIntoFirst(h);
    assert h[0 := h[0].(value := h[0].value * 2)] == MergedHeap(v, w);
  }

  /** Pass 10 up to the merge: tile 0 stays on the boundary and tile 1,
      which has reached it, merges into it. */
  lemma TenthMerge(mode: Mode, d: Dict, v: int, w: int)
    requires LooksUpLikeExample(d)
    ensures Refs(d, PassState(Sliding(v, w, 9).heap, [0, 1, 2, 3], {}, false))
    ensures PassFrom(mode, Left, d, PassState(Sliding(v, w, 9).heap, [0, 1, 2, 3], {}, false), 0).0
         == PassFrom(mode, Left, d, PassState(MergedHeap(v, w), [0, 2, 3], {0}, true), if mode == Corrected then 1 else 2).0
  {
    var s := PassState(Sliding(v, w, 9).heap, [0, 1, 2, 3], {}, false);
    BoundaryStep(mode, Left, d, s, 0);
    MergeStep(mode, Left, d, s, 1, 0);
    TenthMergeState(v, w);
  }

  /** The heap at the end of pass 10 as written: tile 2 was skipped and
      tile 3 has stepped into its cell. */
  function SkippedHeap(v: int, w: int): seq<Tile> {
    [Tile(v * 2, 1, 0, 0, 200), Tile(v, 1, 1, 20, 200), Tile(w, 0, 1, 20, 0), Tile(w, 0, 1, 200, 0)]
  }

  /** Pass 10 after the merge, as written: the loop goes on with tile 3,
      which still approaches tile 2 through the stale cell (0, 1). */
  lemma TenthRestAsWritten(d: Dict, v: int, w: int)
    requires LooksUpLikeExample(d)
    ensures Refs(d, PassState(MergedHeap(v, w), [0, 2, 3], {0}, true))
    ensures PassFrom(AsWritten, Left, d, PassState(MergedHeap(v, w), [0, 2, 3], {0}, true), 2).0
         == PassState(SkippedHeap(v, w), [0, 2, 3], {0}, true)
  {
    var s := PassState(MergedHeap(v, w), [0, 2, 3], {0}, true);
    StepLeft(s.heap[3], 1);
    ApproachStep(AsWritten, Left, d, s, 2, 2);
    assert s.heap[3 := Step(Left, s.heap[3])] == SkippedHeap(v, w);
    PassFromEnd(AsWritten, Left, d, PassState(SkippedHeap(v, w), [0, 2, 3], {0}, true), 3);
  }

  lemma TenthLoopAsWritten(d: Dict, v: int, w: int)
    requires LooksUpLikeExample(d)
    ensures Refs(d, PassState(Sliding(v, w, 9).heap, [0, 1, 2, 3], {}, false))
    ensures PassFrom(AsWritten, Left, d, PassState(Sliding(v, w, 9).heap, [0, 1, 2, 3], {}, false), 0).0
         == PassState(SkippedHeap(v, w), [0, 2, 3], {0}, true)
  {
    TenthMerge(AsWritten, d, v, w);
    TenthRestAsWritten(d, v, w);
  }

  /** Pass 10 as written: three tiles survive the loop, but tiles 2 and 3
      now share cell (0, 1), so the rebuilt dictionary holds two entries
      and tile 2 is in none of them. */
  lemma TenthPassAsWritten(v: int, w: int)
    ensures WellFormed(Sliding(v, w, 9)) && WellFormed(Drifting(v, w, 0))
    ensures var p := Pass(AsWritten, Left, Sliding(v, w, 9), {});
      && p.survivors == [0, 2, 3] && p.blocks == {0} && p.updated
      && p.board == Drifting(v, w, 0)
      && |p.board.dict| < |p.survivors| && 2 !in Values(p.board.dict)
  {
    SlidingSorted(v, w, 9);
    ExampleLookups();
    TenthLoopAsWritten(Example, v, w);
    var h := SkippedHeap(v, w);
    PassIs(AsWritten, Left, Sliding(v, w, 9), {}, [0, 1, 2, 3], PassState(h, [0, 2, 3], {0}, true));
    RebuildSkipped(v, w);
    DriftWellFormed(v, w, 0);
    DriftValues();
  }

  /** Rebuilding the skipped heap: tile 3 takes over tile 2's entry in
      place, so the dictionary keeps tile 0 and tile 3 only. */
  lemma RebuildSkipped(v: int, w: int)
    ensures Rebuild(SkippedHeap(v, w), [0, 2, 3]) == Drift
  {
    RebuildOverTileTwo(SkippedHeap(v, w));
  }

  lemma RebuildOverTileTwo(h: seq<Tile>)
    requires |h| == 4 && CellOf(h[0]) == Cell(1, 0) && CellOf(h[2]) == Cell(0, 1) && CellOf(h[3]) == Cell(0, 1)
    ensures Rebuild(h, [0, 2, 3]) == Drift
  {
    RebuildSkippedFront(h);
    RebuildThird(h);
    OverwriteTileTwo();
  }

  lemma RebuildSkippedFront(h: seq<Tile>)
    requires |h| == 4 && CellOf(h[0]) == Cell(1, 0) && CellOf(h[2]) == Cell(0, 1)
    ensures Rebuild(h, [0, 2]) == [Entry(Cell(1, 0), 0), Entry(Cell(0, 1), 2)]
  {
    var front: seq<TileId> := [0, 2];
    assert DistinctCells(h, front);
    RebuildIsKeyedList(h, front);
  }

  /** `update_tiles` stores tile 3 on top of tiles 0 and 2. */
  lemma RebuildThird(h: seq<Tile>)
    requires |h| == 4
    ensures Rebuild(h, [0, 2, 3]) == Put(Rebuild(h, [0, 2]), CellOf(h[3]), 3)
  {
    var l: seq<TileId> := [0, 2, 3];
    assert l[..2] == [0, 2];
  }

  lemma OverwriteTileTwo()
    ensures Put([Entry(Cell(1, 0), 0), Entry(Cell(0, 1), 2)], Cell(0, 1), 3) == Drift
  {
    var p := [Entry(Cell(1, 0), 0), Entry(Cell(0, 1), 2)];
    assert p[1] in p;
    assert UniqueKeys(p);
  }

  // After pass 10, as written.

  /** The dictionary after pass 10 as written: tile 3 has taken over the
      entry of cell (0, 1) from tile 2. */
  const Drift: Dict := [Entry(Cell(1, 0), 0), Entry(Cell(0, 1), 3)]

  /** The board after pass 10 and `k` further passes of the loop as
      written: tile 2 stays where it was skipped, in no entry, and tile 3
      has slid `k` steps towards the free cell (0, 0). */
  function Drifting(v: int, w: int, k: nat): Board {
    Board(Drift, [Tile(v * 2, 1, 0, 0, 200), Tile(v, 1, 1, 20, 200), Tile(w, 0, 1, 20, 0),
                  Tile(w, 0, 1, 200 - MoveLev * k, 0)])
  }

  /** The board the move as written ends on: `2v` at (1, 0) and tile 3,
      still a `w`, at (0, 0). Tile 2 is in no entry. */
  function Lost(v: int, w: int): Board {
    Board([Entry(Cell(1, 0), 0), Entry(Cell(0, 0), 3)],
          [Tile(v * 2, 1, 0, 0, 200), Tile(v, 1, 1, 20, 200), Tile(w, 0, 1, 20, 0), Tile(w, 0, 0, 0, 0)])
  }

  lemma DriftValues()
    ensures Values(Drift) == [0, 3]
  {
  }

  lemma DriftWellFormed(v: int, w: int, k: nat)
    ensures WellFormed(Drifting(v, w, k))
  {
    DriftValues();
    var ids: seq<TileId> := [0, 3];
    assert NoDup(ids);
    assert UniqueKeys(Drift);
    assert Consistent(Drift, Drifting(v, w, k).heap);
  }

  lemma DriftSorted(v: int, w: int, k: nat)
    ensures WellFormed(Drifting(v, w, k))
    ensures SortedTiles(Left, Drifting(v, w, k)) == [0, 3]
  {
    DriftWellFormed(v, w, k);
    InColumnOrder(Drifting(v, w, k));
    DriftValues();
  }

  /** What the loop sees of the dictionary after pass 10 as written. */
  predicate LooksUpLikeDrift(d: Dict) {
    Get(d, Cell(0, 0)).None? && forall e :: e in d ==> e.id < 4
  }

  lemma DriftLookups()
    ensures LooksUpLikeDrift(Drift)
  {
    assert Cell(0, 0) !in Keys(Drift);
    forall e | e in Drift ensures e.id < 4 {
      var i :| 0 <= i < 2 && Drift[i] == e;
    }
  }

  /** Tile 3 steps from stage `k` to stage `k + 1`, still registered at (0, 1). */
  lemma DriftAdvance(v: int, w: int, k: nat)
    requires k < 9
    ensures Drifting(v, w, k).heap[3 := Step(Left, Drifting(v, w, k).heap[3])] == Drifting(v, w, k + 1).heap
  {
    StepLeft(Drifting(v, w, k).heap[3], 1);
  }

  /** The visit of tile 3 in passes 11 to 19: the cell ahead, (0, 0), is
      free, so it slides. */
  lemma DriftSlide(mode: Mode, d: Dict, v: int, w: int, k: nat)
    requires LooksUpLikeDrift(d) && k < 9
    ensures Refs(d, PassState(Drifting(v, w, k).heap, [0, 3], {0}, false))
    ensures PassFrom(mode, Left, d, PassState(Drifting(v, w, k).heap, [0, 3], {0}, false), 1).0
         == PassState(Drifting(v, w, k + 1).heap, [0, 3], {0}, true)
  {
    var s := PassState(Drifting(v, w, k).heap, [0, 3], {0}, false);
    DriftAdvance(v, w, k);
    SlideStep(mode, Left, d, s, 1);
    PassFromEnd(mode, Left, d, PassState(Drifting(v, w, k + 1).heap, [0, 3], {0}, true), 2);
  }

  lemma DriftLoop(mode: Mode, d: Dict, v: int, w: int, k: nat)
    requires LooksUpLikeDrift(d) && k < 9
    ensures Refs(d, PassState(Drifting(v, w, k).heap, [0, 3], {0}, false))
    ensures PassFrom(mode, Left, d, PassState(Drifting(v, w, k).heap, [0, 3], {0}, false), 0).0
         == PassState(Drifting(v, w, k + 1).heap, [0, 3], {0}, true)
  {
    var s := PassState(Drifting(v, w, k).heap, [0, 3], {0}, false);
    BoundaryStep(mode, Left, d, s, 0);
    DriftSlide(mode, d, v, w, k);
  }

  /** Passes 11 to 19 as written: tile 0 stays on the boundary and tile 3
      slides one step towards column 0. */
  lemma DriftPass(mode: Mode, v: int, w: int, k: nat)
    requires k < 9
    ensures WellFormed(Drifting(v, w, k))
    ensures var p := Pass(mode, Left, Drifting(v, w, k), {0});
      p.board == Drifting(v, w, k + 1) && p.blocks == {0} && p.updated
  {
    DriftSorted(v, w, k);
    DriftLookups();
    DriftLoop(mode, Drift, v, w, k);
    PassIs(mode, Left, Drifting(v, w, k), {0}, [0, 3], PassState(Drifting(v, w, k + 1).heap, [0, 3], {0}, true));
    DriftWellFormed(v, w, k + 1);
    RebuildRoundTrip(Drifting(v, w, k + 1));
    DriftValues();
  }

  /** Tile 3's last step lands it at (0, 0). */
  lemma DriftArrives(v: int, w: int)
    ensures Drifting(v, w, 9).heap[3 := Step(Left, Drifting(v, w, 9).heap[3])] == Lost(v, w).heap
  {
    StepLeft(Drifting(v, w, 9).heap[3], 0);
  }

  lemma DriftLastSlide(mode: Mode, d: Dict, v: int, w: int)
    requires LooksUpLikeDrift(d)
    ensures Refs(d, PassState(Drifting(v, w, 9).heap, [0, 3], {0}, false))
    ensures PassFrom(mode, Left, d, PassState(Drifting(v, w, 9).heap, [0, 3], {0}, false), 1).0
         == PassState(Lost(v, w).heap, [0, 3], {0}, true)
  {
    var s := PassState(Drifting(v, w, 9).heap, [0, 3], {0}, false);
    DriftArrives(v, w);
    SlideStep(mode, Left, d, s, 1);
    PassFromEnd(mode, Left, d, PassState(Lost(v, w).heap, [0, 3], {0}, true), 2);
  }

  lemma DriftLastLoop(mode: Mode, d: Dict, v: int, w: int)
    requires LooksUpLikeDrift(d)
    ensures Refs(d, PassState(Drifting(v, w, 9).heap, [0, 3], {0}, false))
    ensures PassFrom(mode, Left, d, PassState(Drifting(v, w, 9).heap, [0, 3], {0}, false), 0).0
         == PassState(Lost(v, w).heap, [0, 3], {0}, true)
  {
    var s := PassState(Drifting(v, w, 9).heap, [0, 3], {0}, false);
    BoundaryStep(mode, Left, d, s, 0);
    DriftLastSlide(mode, d, v, w);
  }

  lemma LostWellFormed(v: int, w: int)
    ensures WellFormed(Lost(v, w))
  {
    var b := Lost(v, w);
    assert Values(b.dict) == [0, 3];
    assert UniqueKeys(b.dict);
    assert Consistent(b.dict, b.heap);
  }

  lemma RebuildLost(v: int, w: int)
    ensures WellFormed(Lost(v, w))
    ensures Rebuild(Lost(v, w).heap, [0, 3]) == Lost(v, w).dict
  {
    LostWellFormed(v, w);
    var h := Lost(v, w).heap;
    var ids: seq<TileId> := [0, 3];
    assert DistinctCells(h, ids);
    RebuildIsKeyedList(h, ids);
  }

  /** Pass 20 as written: tile 3 reaches column 0. */
  lemma DriftLastPass(mode: Mode, v: int, w: int)
    ensures WellFormed(Drifting(v, w, 9))
    ensures var p := Pass(mode, Left, Drifting(v, w, 9), {0});
      p.board == Lost(v, w) && p.blocks == {0} && p.updated
  {
    DriftSorted(v, w, 9);
    DriftLookups();
    DriftLastLoop(mode, Drift, v, w);
    PassIs(mode, Left, Drifting(v, w, 9), {0}, [0, 3], PassState(Lost(v, w).heap, [0, 3], {0}, true));
    RebuildLost(v, w);
  }

  /** Pass 21 as written changes nothing: both tiles are on the boundary. */
  lemma LostQuietPass(mode: Mode, v: int, w: int)
    ensures WellFormed(Lost(v, w))
    ensures var p := Pass(mode, Left, Lost(v, w), {0});
      p.board == Lost(v, w) && p.blocks == {0} && !p.updated
  {
    var b := Lost(v, w);
    LostWellFormed(v, w);
    InColumnOrder(b);
    assert Values(b.dict) == [0, 3];
    var s := PassState(b.heap, [0, 3], {0}, false);
    assert Refs(b.dict, s);
    BoundaryStep(mode, Left, b.dict, s, 0);
    BoundaryStep(mode, Left, b.dict, s, 1);
    PassFromEnd(mode, Left, b.dict, s, 2);
    PassIs(mode, Left, b, {0}, [0, 3], s);
    RebuildLost(v, w);
  }

  // Pass 10 and after, corrected.

  /** The dictionary once tile 2 is registered in column 0 and tile 3 has
      taken over cell (0, 1). */
  const AfterMerge: Dict := [Entry(Cell(1, 0), 0), Entry(Cell(0, 0), 2), Entry(Cell(0, 1), 3)]

  /** The board after pass 10 and `k` further passes of the corrected
      loop: tile 2 reached column 0 and tile 3 has slid `k` steps towards
      it. */
  function Closing(v: int, w: int, k: nat): Board {
    Board(AfterMerge, [Tile(v * 2, 1, 0, 0, 200), Tile(v, 1, 1, 20, 200), Tile(w, 0, 0, 0, 0),
                       Tile(w, 0, 1, 200 - MoveLev * k, 0)])
  }

  /** Pass 10 after the merge, corrected: the loop stays at position 1
      and visits tile 2, which slides into the free cell (0, 0). */
  lemma TenthSlideCorrected(d: Dict, v: int, w: int)
    requires LooksUpLikeExample(d)
    ensures Refs(d, PassState(MergedHeap(v, w), [0, 2, 3], {0}, true))
    ensures PassFrom(Corrected, Left, d, PassState(MergedHeap(v, w), [0, 2, 3], {0}, true), 1).0
         == PassFrom(Corrected, Left, d, PassState(MergedHeap(v, w)[2 := Tile(w, 0, 0, 0, 0)], [0, 2, 3], {0}, true), 2).0
  {
    var s := PassState(MergedHeap(v, w), [0, 2, 3], {0}, true);
    StepLeft(s.heap[2], 0);
    SlideStep(Corrected, Left, d, s, 1);
  }

  /** Then tile 3 approaches tile 2 through the stale cell (0, 1). */
  lemma TenthApproachCorrected(d: Dict, v: int, w: int)
    requires LooksUpLikeExample(d)
    ensures Refs(d, PassState(MergedHeap(v, w)[2 := Tile(w, 0, 0, 0, 0)], [0, 2, 3], {0}, true))
    ensures PassFrom(Corrected, Left, d, PassState(MergedHeap(v, w)[2 := Tile(w, 0, 0, 0, 0)], [0, 2, 3], {0}, true), 2).0
         == PassState(Closing(v, w, 0).heap, [0, 2, 3], {0}, true)
  {
    var s := PassState(MergedHeap(v, w)[2 := Tile(w, 0, 0, 0, 0)], [0, 2, 3], {0}, true);
    StepLeft(s.heap[3], 1);
    ApproachStep(Corrected, Left, d, s, 2, 2);
    assert s.heap[3 := Step(Left, s.heap[3])] == Closing(v, w, 0).heap;
    PassFromEnd(Corrected, Left, d, PassState(Closing(v, w, 0).heap, [0, 2, 3], {0}, true), 3);
  }

  lemma TenthLoopCorrected(d: Dict, v: int, w: int)
    requires LooksUpLikeExample(d)
    ensures Refs(d, PassState(Sliding(v, w, 9).heap, [0, 1, 2, 3], {}, false))
    ensures PassFrom(Corrected, Left, d, PassState(Sliding(v, w, 9).heap, [0, 1, 2, 3], {}, false), 0).0
         == PassState(Closing(v, w, 0).heap, [0, 2, 3], {0}, true)
  {
    TenthMerge(Corrected, d, v, w);
    TenthSlideCorrected(d, v, w);
    TenthApproachCorrected(d, v, w);
  }

  lemma AfterMergeValues()
    ensures Values(AfterMerge) == [0, 2, 3]
  {
  }

  lemma ClosingWellFormed(v: int, w: int, k: nat)
    requires k < 10
    ensures WellFormed(Closing(v, w, k))
  {
    AfterMergeValues();
    var ids: seq<TileId> := [0, 2, 3];
    assert NoDup(ids);
    assert UniqueKeys(AfterMerge);
    assert Consistent(AfterMerge, Closing(v, w, k).heap);
  }

  /** Pass 10, corrected: tile 1 merges into tile 0, tile 2 slides into
      column 0 and tile 3 follows it into column 1. */
  lemma TenthPassCorrected(v: int, w: int)
    ensures WellFormed(Sliding(v, w, 9))
    ensures var p := Pass(Corrected, Left, Sliding(v, w, 9), {});
      p.board == Closing(v, w, 0) && p.blocks == {0} && p.updated
  {
    SlidingSorted(v, w, 9);
    ExampleLookups();
    TenthLoopCorrected(Example, v, w);
    PassIs(Corrected, Left, Sliding(v, w, 9), {}, [0, 1, 2, 3], PassState(Closing(v, w, 0).heap, [0, 2, 3], {0}, true));
    ClosingWellFormed(v, w, 0);
    RebuildRoundTrip(Closing(v, w, 0));
    AfterMergeValues();
  }

  /** What the loop sees of the dictionary after the merge. */
  predicate LooksUpLikeAfterMerge(d: Dict) {
    Get(d, Cell(0, 0)) == Some(2) && forall e :: e in d ==> e.id < 4
  }

  lemma AfterMergeLookups()
    ensures LooksUpLikeAfterMerge(AfterMerge)
  {
    GetFindsEntry(AfterMerge, Cell(0, 0), 2);
    forall e | e in AfterMerge ensures e.id < 4 {
      var i :| 0 <= i < 3 && AfterMerge[i] == e;
    }
  }

  /** The loop of passes 11 to 19: tiles 0 and 2 sit on the boundary and
      tile 3 steps towards tile 2. */
  lemma ClosingLoop(mode: Mode, d: Dict, v: int, w: int, k: nat)
    requires LooksUpLikeAfterMerge(d) && k < 9
    ensures Refs(d, PassState(Closing(v, w, k).heap, [0, 2, 3], {0}, false))
    ensures PassFrom(mode, Left, d, PassState(Closing(v, w, k).heap, [0, 2, 3], {0}, false), 0).0
         == PassState(Closing(v, w, k + 1).heap, [0, 2, 3], {0}, true)
  {
    var s := PassState(Closing(v, w, k).heap, [0, 2, 3], {0}, false);
    BoundaryStep(mode, Left, d, s, 0);
    BoundaryStep(mode, Left, d, s, 1);
    ClosingApproach(mode, d, v, w, k);
  }

  /** The visit of tile 3 in passes 11 to 19. */
  lemma ClosingApproach(mode: Mode, d: Dict, v: int, w: int, k: nat)
    requires LooksUpLikeAfterMerge(d) && k < 9
    ensures Refs(d, PassState(Closing(v, w, k).heap, [0, 2, 3], {0}, false))
    ensures PassFrom(mode, Left, d, PassState(Closing(v, w, k).heap, [0, 2, 3], {0}, false), 2).0
         == PassState(Closing(v, w, k + 1).heap, [0, 2, 3], {0}, true)
  {
    var s := PassState(Closing(v, w, k).heap, [0, 2, 3], {0}, false);
    ClosingAdvance(v, w, k);
    ApproachStep(mode, Left, d, s, 2, 2);
    PassFromEnd(mode, Left, d, PassState(Closing(v, w, k + 1).heap, [0, 2, 3], {0}, true), 3);
  }

  /** Tile 3 steps from stage `k` to stage `k + 1`. */
  lemma ClosingAdvance(v: int, w: int, k: nat)
    requires k < 9
    ensures Closing(v, w, k).heap[3 := Step(Left, Closing(v, w, k).heap[3])] == Closing(v, w, k + 1).heap
  {
    StepLeft(Closing(v, w, k).heap[3], 1);
  }

  lemma ClosingSorted(v: int, w: int, k: nat)
    requires k < 10
    ensures WellFormed(Closing(v, w, k))
    ensures SortedTiles(Left, Closing(v, w, k)) == [0, 2, 3]
  {
    ClosingWellFormed(v, w, k);
    InColumnOrder(Closing(v, w, k));
    AfterMergeValues();
  }

  lemma ClosingPass(mode: Mode, v: int, w: int, k: nat)
    requires k < 9
    ensures WellFormed(Closing(v, w, k))
    ensures var p := Pass(mode, Left, Closing(v, w, k), {0});
      p.board == Closing(v, w, k + 1) && p.blocks == {0} && p.updated
  {
    ClosingSorted(v, w, k);
    AfterMergeLookups();
    ClosingLoop(mode, AfterMerge, v, w, k);
    PassIs(mode, Left, Closing(v, w, k), {0}, [0, 2, 3], PassState(Closing(v, w, k + 1).heap, [0, 2, 3], {0}, true));
    ClosingWellFormed(v, w, k + 1);
    RebuildRoundTrip(Closing(v, w, k + 1));
    AfterMergeValues();
  }

  /** The board at the end of the corrected move: tile 0 doubled to `2v`
      at (1, 0) and tile 2 doubled to `2w` at (0, 0). */
  function Finished(v: int, w: int): Board {
    Board([Entry(Cell(1, 0), 0), Entry(Cell(0, 0), 2)],
          [Tile(v * 2, 1, 0, 0, 200), Tile(v, 1, 1, 20, 200), Tile(w * 2, 0, 0, 0, 0), Tile(w, 0, 1, 20, 0)])
  }

  lemma FinishedWellFormed(v: int, w: int)
    ensures WellFormed(Finished(v, w))
  {
    var b := Finished(v, w);
    assert Values(b.dict) == [0, 2];
    assert UniqueKeys(b.dict);
    assert Consistent(b.dict, b.heap);
  }

  lemma RebuildFinished(v: int, w: int)
    ensures WellFormed(Finished(v, w))
    ensures Rebuild(Finished(v, w).heap, [0, 2]) == Finished(v, w).dict
  {
    FinishedWellFormed(v, w);
    var h := Finished(v, w).heap;
    var ids: seq<TileId> := [0, 2];
    assert DistinctCells(h, ids);
    RebuildIsKeyedList(h, ids);
  }

  /** The merge of pass 20: tile 3 merges into tile 2. */
  lemma ClosingMergeStep(mode: Mode, d: Dict, v: int, w: int)
    requires LooksUpLikeAfterMerge(d)
    ensures Refs(d, PassState(Closing(v, w, 9).heap, [0, 2, 3], {0}, false))
    ensures PassFrom(mode, Left, d, PassState(Closing(v, w, 9).heap, [0, 2, 3], {0}, false), 2).0
         == PassFrom(mode, Left, d, PassState(Finished(v, w).heap, [0, 2], {0, 2}, true), if mode == Corrected then 2 else 3).0
  {
    var s := PassState(Closing(v, w, 9).heap, [0, 2, 3], {0}, false);
    MergeStep(mode, Left, d, s, 2, 2);
    ClosingMergeState(v, w);
  }

  lemma ClosingMergeState(v: int, w: int)
    ensures MergeInto(Left, PassState(Closing(v, w, 9).heap, [0, 2, 3], {0}, false), 2, 2)
         == PassState(Finished(v, w).heap, [0, 2], {0, 2}, true)
  {
    var s := PassState(Closing(v, w, 9).heap, [0, 2, 3], {0}, false);
    SetPosInPlace(s.heap[3]);
    var l: seq<TileId> := [0, 2, 3];
    assert l[..2] + l[3..] == [0, 2];
    assert MergeInto(Left, s, 2, 2).heap == Finished(v, w).heap;
  }

  lemma ClosingLastLoop(mode: Mode, d: Dict, v: int, w: int)
    requires LooksUpLikeAfterMerge(d)
    ensures Refs(d, PassState(Closing(v, w, 9).heap, [0, 2, 3], {0}, false))
    ensures PassFrom(mode, Left, d, PassState(Closing(v, w, 9).heap, [0, 2, 3], {0}, false), 0).0
         == PassState(Finished(v, w).heap, [0, 2], {0, 2}, true)
  {
    var s := PassState(Closing(v, w, 9).heap, [0, 2, 3], {0}, false);
    BoundaryStep(mode, Left, d, s, 0);
    BoundaryStep(mode, Left, d, s, 1);
    ClosingMergeStep(mode, d, v, w);
    PassFromEnd(mode, Left, d, PassState(Finished(v, w).heap, [0, 2], {0, 2}, true), if mode == Corrected then 2 else 3);
  }

  /** Pass 20: tile 3 merges into tile 2. */
  lemma ClosingLastPass(mode: Mode, v: int, w: int)
    ensures WellFormed(Closing(v, w, 9))
    ensures var p := Pass(mode, Left, Closing(v, w, 9), {0});
      p.board == Finished(v, w) && p.blocks == {0, 2} && p.updated
  {
    ClosingSorted(v, w, 9);
    AfterMergeLookups();
    ClosingLastLoop(mode, AfterMerge, v, w);
    PassIs(mode, Left, Closing(v, w, 9), {0}, [0, 2, 3], PassState(Finished(v, w).heap, [0, 2], {0, 2}, true));
    RebuildFinished(v, w);
  }

  /** Pass 21 changes nothing: both tiles are on the boundary. */
  lemma QuietPass(mode: Mode, v: int, w: int)
    ensures WellFormed(Finished(v, w))
    ensures var p := Pass(mode, Left, Finished(v, w), {0, 2});
      p.board == Finished(v, w) && p.blocks == {0, 2} && !p.updated
  {
    var b := Finished(v, w);
    FinishedWellFormed(v, w);
    InColumnOrder(b);
    assert Values(b.dict) == [0, 2];
    var s := PassState(b.heap, [0, 2], {0, 2}, false);
    assert Refs(b.dict, s);
    BoundaryStep(mode, Left, b.dict, s, 0);
    BoundaryStep(mode, Left, b.dict, s, 1);
    PassFromEnd(mode, Left, b.dict, s, 2);
    PassIs(mode, Left, b, {0, 2}, [0, 2], s);
    RebuildFinished(v, w);
  }

  // The whole move. Fuel and stage arguments are passed as variables tied
  // together by `requires`, so that each turn's conclusion meets the next
  // turn's premise term for term.

  /** The board and blocks a settled move ends with, without its trace. */
  function Final(r: Option<Settled>): Option<(Board, set<TileId>)> {
    match r
    case None => None
    case Some(s) => Some((s.board, s.blocks))
  }

  /** Where a move to the left from `b` lands, given `fuel` more passes. */
  function Lands(mode: Mode, b: Board, blocks: set<TileId>, fuel: nat): Option<(Board, set<TileId>)>
    requires WellFormed(b)
  {
    Final(Settle(mode, Left, b, blocks, fuel))
  }

  /** One turn of the `while updated` loop, seen through `Final`. */
  lemma SettleTurn(mode: Mode, b: Board, blocks: set<TileId>, next: Board, nextBlocks: set<TileId>, fuel: nat)
    requires WellFormed(b) && WellFormed(next)
    requires Pass(mode, Left, b, blocks).board == next && Pass(mode, Left, b, blocks).blocks == nextBlocks
    ensures Lands(mode, b, blocks, fuel)
         == if !Pass(mode, Left, b, blocks).updated then Some((next, nextBlocks))
            else if fuel == 0 then None
            else Lands(mode, next, nextBlocks, fuel - 1)
  {
  }

  /** A pass that changes something, with fuel left: the loop goes on from
      the pass's board with one pass less. */
  lemma Turn(mode: Mode, b: Board, blocks: set<TileId>, next: Board, nextBlocks: set<TileId>, fuel: nat, rest: nat)
    requires WellFormed(b) && WellFormed(next)
    requires Pass(mode, Left, b, blocks).updated
    requires Pass(mode, Left, b, blocks).board == next && Pass(mode, Left, b, blocks).blocks == nextBlocks
    requires fuel == rest + 1
    ensures Lands(mode, b, blocks, fuel) == Lands(mode, next, nextBlocks, rest)
  {
    SettleTurn(mode, b, blocks, next, nextBlocks, rest + 1);
  }

  /** A pass that changes something, with no fuel left: the loop gives up. */
  lemma RunsOut(mode: Mode, b: Board, blocks: set<TileId>)
    requires WellFormed(b) && Pass(mode, Left, b, blocks).updated
    ensures Lands(mode, b, blocks, 0) == None
  {
    var p := Pass(mode, Left, b, blocks);
    SettleTurn(mode, b, blocks, p.board, p.blocks, 0);
  }

  /** Pass 21 changes nothing, so the move settles there. */
  lemma SettleFinished(mode: Mode, v: int, w: int, fuel: nat)
    ensures WellFormed(Finished(v, w))
    ensures Lands(mode, Finished(v, w), {0, 2}, fuel) == Some((Finished(v, w), {0, 2}))
  {
    QuietPass(mode, v, w);
    SettleTurn(mode, Finished(v, w), {0, 2}, Finished(v, w), {0, 2}, fuel);
  }

  /** Passes 1 to 9 as turns of the loop, in either mode. */
  lemma SlidingTurn(mode: Mode, v: int, w: int, m: nat, m1: nat, fuel: nat, rest: nat)
    requires m < 9 && m1 == m + 1 && fuel == rest + 1
    ensures WellFormed(Sliding(v, w, m)) && WellFormed(Sliding(v, w, m1))
    ensures Lands(mode, Sliding(v, w, m), {}, fuel) == Lands(mode, Sliding(v, w, m1), {}, rest)
  {
    SlidingPass(mode, v, w, m);
    SlidingWellFormed(v, w, m1);
    Turn(mode, Sliding(v, w, m), {}, Sliding(v, w, m1), {}, fuel, rest);
  }

  /** Passes 1 to 9 each change something, so without fuel the loop
      gives up on any of them. */
  lemma SlidingRunsOut(mode: Mode, v: int, w: int, m: nat)
    requires m < 9
    ensures WellFormed(Sliding(v, w, m))
    ensures Lands(mode, Sliding(v, w, m), {}, 0) == None
  {
    SlidingPass(mode, v, w, m);
    RunsOut(mode, Sliding(v, w, m), {});
  }

  /** Pass 10 changes something in either mode, so without fuel the loop
      gives up on it. */
  lemma TenthRunsOut(mode: Mode, v: int, w: int, m: nat)
    requires m == 9
    ensures WellFormed(Sliding(v, w, m))
    ensures Lands(mode, Sliding(v, w, m), {}, 0) == None
  {
    if mode == AsWritten {
      TenthPassAsWritten(v, w);
    } else {
      TenthPassCorrected(v, w);
    }
    RunsOut(mode, Sliding(v, w, m), {});
  }

  /** Pass 10 of the corrected loop as a turn. */
  lemma TenthTurnCorrected(v: int, w: int, m: nat, fuel: nat, rest: nat)
    requires m == 9 && fuel == rest + 1
    ensures WellFormed(Sliding(v, w, m)) && WellFormed(Closing(v, w, 0))
    ensures Lands(Corrected, Sliding(v, w, m), {}, fuel) == Lands(Corrected, Closing(v, w, 0), {0}, rest)
  {
    TenthPassCorrected(v, w);
    ClosingWellFormed(v, w, 0);
    Turn(Corrected, Sliding(v, w, m), {}, Closing(v, w, 0), {0}, fuel, rest);
  }

  /** Passes 11 to 19 as turns, in either mode. */
  lemma ClosingTurn(mode: Mode, v: int, w: int, k: nat, k1: nat, fuel: nat, rest: nat)
    requires k < 9 && k1 == k + 1 && fuel == rest + 1
    ensures WellFormed(Closing(v, w, k)) && WellFormed(Closing(v, w, k1))
    ensures Lands(mode, Closing(v, w, k), {0}, fuel) == Lands(mode, Closing(v, w, k1), {0}, rest)
  {
    ClosingPass(mode, v, w, k);
    ClosingWellFormed(v, w, k1);
    Turn(mode, Closing(v, w, k), {0}, Closing(v, w, k1), {0}, fuel, rest);
  }

  /** Pass 20 as a turn: the second merge. */
  lemma LastTurn(mode: Mode, v: int, w: int, k: nat, fuel: nat, rest: nat)
    requires k == 9 && fuel == rest + 1
    ensures WellFormed(Closing(v, w, k)) && WellFormed(Finished(v, w))
    ensures Lands(mode, Closing(v, w, k), {0}, fuel) == Lands(mode, Finished(v, w), {0, 2}, rest)
  {
    ClosingLastPass(mode, v, w);
    FinishedWellFormed(v, w);
    Turn(mode, Closing(v, w, k), {0}, Finished(v, w), {0, 2}, fuel, rest);
  }

  /** Passes 11 to 19 each change something, so without fuel the loop
      gives up on any of them. */
  lemma ClosingRunsOut(mode: Mode, v: int, w: int, k: nat)
    requires k < 9
    ensures WellFormed(Closing(v, w, k))
    ensures Lands(mode, Closing(v, w, k), {0}, 0) == None
  {
    ClosingPass(mode, v, w, k);
    RunsOut(mode, Closing(v, w, k), {0});
  }

  /** Pass 20 changes something, so without fuel the loop gives up on it. */
  lemma LastRunsOut(mode: Mode, v: int, w: int, k: nat)
    requires k == 9
    ensures WellFormed(Closing(v, w, k))
    ensures Lands(mode, Closing(v, w, k), {0}, 0) == None
  {
    ClosingLastPass(mode, v, w);
    RunsOut(mode, Closing(v, w, k), {0});
  }

  /** From stage `k` of the closing run, the loop needs `10 - k` more turns
      and one quiet pass, and then lands on the finished board. */
  lemma {:induction false} ClosingMove(mode: Mode, v: int, w: int, k: nat, fuel: nat)
    requires k <= 9
    ensures WellFormed(Closing(v, w, k))
    ensures Lands(mode, Closing(v, w, k), {0}, fuel)
         == if fuel < 10 - k then None else Some((Finished(v, w), {0, 2}))
    decreases 9 - k
  {
    if fuel == 0 && k < 9 {
      ClosingRunsOut(mode, v, w, k);
    } else if fuel == 0 {
      LastRunsOut(mode, v, w, k);
    } else if k == 9 {
      var rest := fuel - 1;
      LastTurn(mode, v, w, k, fuel, rest);
      SettleFinished(mode, v, w, rest);
    } else {
      var k1, rest := k + 1, fuel - 1;
      ClosingTurn(mode, v, w, k, k1, fuel, rest);
      ClosingMove(mode, v, w, k1, rest);
    }
  }

  /** Two tiles on the finished board and two merged away account for the
      four tiles of every board of the sliding run. */
  lemma FinishedAccountsForTiles(v: int, w: int, m: nat)
    requires m <= 9
    ensures |Finished(v, w).dict| + |{0, 2}| == |Sliding(v, w, m).dict|
  {
    assert {0, 2} == {0} + {2};
  }

  /** The corrected loop, from the example board or any of its first nine
      passes: given fuel for the 21 passes from the start, the move ends
      with `2v` at (1, 0) and `2w` at (0, 0), tiles 0 and 2 blocked, and
      every one of the four tiles either on the board or merged away. */
  lemma {:induction false} CorrectedMove(v: int, w: int, m: nat, fuel: nat)
    requires m <= 9
    ensures WellFormed(Sliding(v, w, m))
    ensures Lands(Corrected, Sliding(v, w, m), {}, fuel)
         == if fuel < 20 - m then None else Some((Finished(v, w), {0, 2}))
    ensures |Finished(v, w).dict| + |{0, 2}| == |Sliding(v, w, m).dict|
    decreases 9 - m
  {
    FinishedAccountsForTiles(v, w, m);
    if fuel == 0 && m < 9 {
      SlidingRunsOut(Corrected, v, w, m);
    } else if fuel == 0 {
      TenthRunsOut(Corrected, v, w, m);
    } else if m == 9 {
      var rest := fuel - 1;
      TenthTurnCorrected(v, w, m, fuel, rest);
      ClosingMove(Corrected, v, w, 0, rest);
    } else {
      var m1, rest := m + 1, fuel - 1;
      SlidingTurn(Corrected, v, w, m, m1, fuel, rest);
      CorrectedMove(v, w, m1, rest);
    }
  }

  /** Pass 10 as written changes the board and leaves fewer tiles plus
      blocks than the four tiles it started from. */
  lemma TenthPassLosesTile(v: int, w: int)
    ensures WellFormed(Sliding(v, w, 9))
    ensures var p := Pass(AsWritten, Left, Sliding(v, w, 9), {});
      p.updated && |p.board.dict| + |p.blocks| < |Sliding(v, w, 9).dict|
  {
    TenthPassAsWritten(v, w);
    var p := Pass(AsWritten, Left, Sliding(v, w, 9), {});
    assert |p.board.dict| + |p.blocks| < 3 + |{0}|;
  }

  /** Pass 10 of the loop as written, as a turn. */
  lemma TenthTurnAsWritten(v: int, w: int, m: nat, fuel: nat, rest: nat)
    requires m == 9 && fuel == rest + 1
    ensures WellFormed(Sliding(v, w, m)) && WellFormed(Drifting(v, w, 0))
    ensures Lands(AsWritten, Sliding(v, w, m), {}, fuel) == Lands(AsWritten, Drifting(v, w, 0), {0}, rest)
  {
    TenthPassAsWritten(v, w);
    Turn(AsWritten, Sliding(v, w, m), {}, Drifting(v, w, 0), {0}, fuel, rest);
  }

  /** Passes 11 to 19 as written, as turns. */
  lemma DriftTurn(mode: Mode, v: int, w: int, k: nat, k1: nat, fuel: nat, rest: nat)
    requires k < 9 && k1 == k + 1 && fuel == rest + 1
    ensures WellFormed(Drifting(v, w, k)) && WellFormed(Drifting(v, w, k1))
    ensures Lands(mode, Drifting(v, w, k), {0}, fuel) == Lands(mode, Drifting(v, w, k1), {0}, rest)
  {
    DriftPass(mode, v, w, k);
    DriftWellFormed(v, w, k1);
    Turn(mode, Drifting(v, w, k), {0}, Drifting(v, w, k1), {0}, fuel, rest);
  }

  /** Pass 20 as written, as a turn: tile 3 arrives in column 0. */
  lemma DriftLastTurn(mode: Mode, v: int, w: int, k: nat, fuel: nat, rest: nat)
    requires k == 9 && fuel == rest + 1
    ensures WellFormed(Drifting(v, w, k)) && WellFormed(Lost(v, w))
    ensures Lands(mode, Drifting(v, w, k), {0}, fuel) == Lands(mode, Lost(v, w), {0}, rest)
  {
    DriftLastPass(mode, v, w);
    LostWellFormed(v, w);
    Turn(mode, Drifting(v, w, k), {0}, Lost(v, w), {0}, fuel, rest);
  }

  lemma DriftRunsOut(mode: Mode, v: int, w: int, k: nat)
    requires k < 9
    ensures WellFormed(Drifting(v, w, k))
    ensures Lands(mode, Drifting(v, w, k), {0}, 0) == None
  {
    DriftPass(mode, v, w, k);
    RunsOut(mode, Drifting(v, w, k), {0});
  }

  lemma DriftLastRunsOut(mode: Mode, v: int, w: int, k: nat)
    requires k == 9
    ensures WellFormed(Drifting(v, w, k))
    ensures Lands(mode, Drifting(v, w, k), {0}, 0) == None
  {
    DriftLastPass(mode, v, w);
    RunsOut(mode, Drifting(v, w, k), {0});
  }

  /** Pass 21 as written changes nothing, so the move settles there. */
  lemma SettleLost(mode: Mode, v: int, w: int, fuel: nat)
    ensures WellFormed(Lost(v, w))
    ensures Lands(mode, Lost(v, w), {0}, fuel) == Some((Lost(v, w), {0}))
  {
    LostQuietPass(mode, v, w);
    SettleTurn(mode, Lost(v, w), {0}, Lost(v, w), {0}, fuel);
  }

  /** From stage `k` after pass 10 as written, the loop needs `10 - k`
      more turns and one quiet pass, and then lands on the board that has
      lost tile 2. */
  lemma {:induction false} DriftMove(mode: Mode, v: int, w: int, k: nat, fuel: nat)
    requires k <= 9
    ensures WellFormed(Drifting(v, w, k))
    ensures Lands(mode, Drifting(v, w, k), {0}, fuel)
         == if fuel < 10 - k then None else Some((Lost(v, w), {0}))
    decreases 9 - k
  {
    if fuel == 0 && k < 9 {
      DriftRunsOut(mode, v, w, k);
    } else if fuel == 0 {
      DriftLastRunsOut(mode, v, w, k);
    } else if k == 9 {
      var rest := fuel - 1;
      DriftLastTurn(mode, v, w, k, fuel, rest);
      SettleLost(mode, v, w, rest);
    } else {
      var k1, rest := k + 1, fuel - 1;
      DriftTurn(mode, v, w, k, k1, fuel, rest);
      DriftMove(mode, v, w, k1, rest);
    }
  }

  /** The board as written holds two tiles and one was merged away, one
      fewer than the four tiles of the example; tile 2 is neither on the
      board nor a tile merged into. */
  lemma LostMissesTile(v: int, w: int, m: nat)
    ensures |Lost(v, w).dict| + |{0}| + 1 == |Sliding(v, w, m).dict|
    ensures 2 !in Values(Lost(v, w).dict) && 2 !in {0}
  {
    assert Values(Lost(v, w).dict) == [0, 3];
  }

  /** The loop as written, from the example board or any of its first nine
      passes: given fuel for the 21 passes from the start, the move ends
      with `2v` at (1, 0) and a single `w` at (0, 0). Tile 2 is neither on
      the board nor merged away: one tile has vanished. */
  lemma {:induction false} AsWrittenMove(v: int, w: int, m: nat, fuel: nat)
    requires m <= 9
    ensures WellFormed(Sliding(v, w, m))
    ensures Lands(AsWritten, Sliding(v, w, m), {}, fuel)
         == if fuel < 20 - m then None else Some((Lost(v, w), {0}))
    ensures |Lost(v, w).dict| + |{0}| < |Sliding(v, w, m).dict| && 2 !in Values(Lost(v, w).dict)
    decreases 9 - m
  {
    LostMissesTile(v, w, m);
    if fuel == 0 && m < 9 {
      SlidingRunsOut(AsWritten, v, w, m);
    } else if fuel == 0 {
      TenthRunsOut(AsWritten, v, w, m);
    } else if m == 9 {
      var rest := fuel - 1;
      TenthTurnAsWritten(v, w, m, fuel, rest);
      DriftMove(AsWritten, v, w, 0, rest);
    } else {
      var m1, rest := m + 1, fuel - 1;
      SlidingTurn(AsWritten, v, w, m, m1, fuel, rest);
      AsWrittenMove(v, w, m1, rest);
    }
  }
}

=== FILE: sorting.dfy ===
/** Python's `sorted(tiles.values(), key=sort_fun, reverse=...)`: a stable
    sort of tile ids by the lane of their tile, ascending or descending; with
    `reverse` equal keys still keep their original relative order. */
module Sorting {

  import opened Geometry
  import opened TileMap
  import opened Directions
  import opened Boards

  /** `sort_fun` applied to a tile id. */
  function Key(dir: Direction, heap: seq<Tile>, id: TileId): int
    requires id < |heap|
  {
    SortKey(dir, heap[id])
  }

  /** `a` may precede `b` in the sorted output. */
  predicate InOrder(a: int, b: int, descending: bool) {
    if descending then a >= b else a <= b
  }

  predicate SortedBy(s: seq<TileId>, dir: Direction, heap: seq<Tile>, descending: bool)
    requires IdsIn(s, heap)
  {
    forall i, j :: 0 <= i < j < |s| ==> InOrder(Key(dir, heap, s[i]), Key(dir, heap, s[j]), descending)
  }

  /** The elements of `s` whose key is `k`, in order. */
  function WithKey(s: seq<TileId>, dir: Direction, heap: seq<Tile>, k: int): seq<TileId>
    requires IdsIn(s, heap)
  {
    if |s| == 0 then []
    else (if Key(dir, heap, s[0]) == k then [s[0]] else []) + WithKey(s[1..], dir, heap, k)
  }

  lemma WithKeyCons(a: TileId, s: seq<TileId>, dir: Direction, heap: seq<Tile>, k: int)
    requires a < |heap| && IdsIn(s, heap)
    ensures WithKey([a] + s, dir, heap, k) == (if Key(dir, heap, a) == k then [a] else []) + WithKey(s, dir, heap, k)
  {
    assert ([a] + s)[1..] == s;
  }

  /** Inserts `x` before the first element it may precede. */
  function Insert(x: TileId, s: seq<TileId>, dir: Direction, heap: seq<Tile>, descending: bool): (r: seq<TileId>)
    requires x < |heap| && IdsIn(s, heap)
    ensures multiset(r) == multiset(s) + multiset{x}
    ensures IdsIn(r, heap)
  {
    if |s| == 0 then [x]
    else if InOrder(Key(dir, heap, x), Key(dir, heap, s[0]), descending) then [x] + s
    else
      assert s == [s[0]] + s[1..];
      [s[0]] + Insert(x, s[1..], dir, heap, descending)
  }

  /** When `x` goes behind the head of a sorted sequence, the head may
      precede everything the rest becomes. */
  lemma HeadPrecedesInsert(x: TileId, s: seq<TileId>, dir: Direction, heap: seq<Tile>, descending: bool)
    requires x < |heap| && IdsIn(s, heap) && SortedBy(s, dir, heap, descending) && |s| > 0
    requires !InOrder(Key(dir, heap, x), Key(dir, heap, s[0]), descending)
    ensures forall y :: y in Insert(x, s[1..], dir, heap, descending) ==> InOrder(Key(dir, heap, s[0]), Key(dir, heap, y), descending)
  {
    var rest := Insert(x, s[1..], dir, heap, descending);
    forall y | y in rest ensures InOrder(Key(dir, heap, s[0]), Key(dir, heap, y), descending) {
      assert y in multiset(s[1..]) + multiset{x};
      if y != x {
        var k :| 1 <= k < |s| && s[k] == y;
      }
    }
  }

  /** Inserting into a sorted sequence keeps it sorted. */
  lemma {:induction false} InsertKeepsSorted(x: TileId, s: seq<TileId>, dir: Direction, heap: seq<Tile>, descending: bool)
    requires x < |heap| && IdsIn(s, heap) && SortedBy(s, dir, heap, descending)
    ensures SortedBy(Insert(x, s, dir, heap, descending), dir, heap, descending)
  {
    if |s| > 0 && !InOrder(Key(dir, heap, x), Key(dir, heap, s[0]), descending) {
      assert IdsIn(s[1..], heap);
      var rest := Insert(x, s[1..], dir, heap, descending);
      InsertKeepsSorted(x, s[1..], dir, heap, descending);
      HeadPrecedesInsert(x, s, dir, heap, descending);
      ConsSorted(s[0], rest, dir, heap, descending);
      assert Insert(x, s, dir, heap, descending) == [s[0]] + rest;
    }
  }

  /** A head that may precede every element of a sorted sequence keeps it sorted. */
  lemma ConsSorted(h: TileId, rest: seq<TileId>, dir: Direction, heap: seq<Tile>, descending: bool)
    requires h < |heap| && IdsIn(rest, heap) && SortedBy(rest, dir, heap, descending)
    requires forall y :: y in rest ==> InOrder(Key(dir, heap, h), Key(dir, heap, y), descending)
    ensures SortedBy([h] + rest, dir, heap, descending)
  {
    var r := [h] + rest;
    forall a, b | 0 <= a < b < |r| ensures InOrder(Key(dir, heap, r[a]), Key(dir, heap, r[b]), descending) {
      assert r[b] == rest[b - 1];
      if a > 0 {
        assert r[a] == rest[a - 1];
      } else {
        assert rest[b - 1] in rest;
      }
    }
  }

  /** Inserting places `x` ahead of every element with the same key. */
  lemma {:induction false} InsertWithKey(x: TileId, s: seq<TileId>, dir: Direction, heap: seq<Tile>, descending: bool, k: int)
    requires x < |heap| && IdsIn(s, heap)
    ensures WithKey(Insert(x, s, dir, heap, descending), dir, heap, k)
         == (if Key(dir, heap, x) == k then [x] else []) + WithKey(s, dir, heap, k)
  {
    if |s| == 0 {
      WithKeyCons(x, s, dir, heap, k);
    } else if InOrder(Key(dir, heap, x), Key(dir, heap, s[0]), descending) {
      WithKeyCons(x, s, dir, heap, k);
    } else {
      var rest := Insert(x, s[1..], dir, heap, descending);
      assert Insert(x, s, dir, heap, descending) == [s[0]] + rest;
      InsertWithKey(x, s[1..], dir, heap, descending, k);
      WithKeyCons(s[0], rest, dir, heap, k);
      WithKeyCons(s[0], s[1..], dir, heap, k);
      assert s == [s[0]] + s[1..];
      assert Key(dir, heap, s[0]) != Key(dir, heap, x);
      if Key(dir, heap, x) == k {
        assert WithKey(s, dir, heap, k) == WithKey(s[1..], dir, heap, k);
        assert WithKey([s[0]] + rest, dir, heap, k) == WithKey(rest, dir, heap, k);
      } else {
        assert WithKey(rest, dir, heap, k) == WithKey(s[1..], dir, heap, k);
      }
    }
  }

  /** Insertion sort: a permutation of `s`, ordered by key. */
  function SortBy(s: seq<TileId>, dir: Direction, heap: seq<Tile>, descending: bool): (r: seq<TileId>)
    requires IdsIn(s, heap)
    ensures multiset(r) == multiset(s)
    ensures |r| == |s| && IdsIn(r, heap)
    ensures SortedBy(r, dir, heap, descending)
  {
    if |s| == 0 then []
    else
      var r := Insert(s[0], SortBy(s[1..], dir, heap, descending), dir, heap, descending);
      InsertKeepsSorted(s[0], SortBy(s[1..], dir, heap, descending), dir, heap, descending);
      assert s == [s[0]] + s[1..];
      assert multiset(s) == multiset{s[0]} + multiset(s[1..]);
      r
  }

  /** The sort is stable: for every key, the elements carrying it appear in
      the output in the order they had in the input. */
  lemma {:induction false} SortByIsStable(s: seq<TileId>, dir: Direction, heap: seq<Tile>, descending: bool, k: int)
    requires IdsIn(s, heap)
    ensures WithKey(SortBy(s, dir, heap, descending), dir, heap, k) == WithKey(s, dir, heap, k)
  {
    if |s| > 0 {
      SortByIsStable(s[1..], dir, heap, descending, k);
      InsertWithKey(s[0], SortBy(s[1..], dir, heap, descending), dir, heap, descending, k);
      WithKeyCons(s[0], s[1..], dir, heap, k);
      assert s == [s[0]] + s[1..];
    }
  }

  /** The tail of a sorted sequence is sorted, and its head may precede
      the tail's first element. */
  lemma SortedTail(s: seq<TileId>, dir: Direction, heap: seq<Tile>, descending: bool)
    requires IdsIn(s, heap) && SortedBy(s, dir, heap, descending) && |s| > 0
    ensures SortedBy(s[1..], dir, heap, descending)
    ensures |s| > 1 ==> InOrder(Key(dir, heap, s[0]), Key(dir, heap, s[1..][0]), descending)
  {
    var t := s[1..];
    forall i, j | 0 <= i < j < |t| ensures InOrder(Key(dir, heap, t[i]), Key(dir, heap, t[j]), descending) {
      assert t[i] == s[i + 1] && t[j] == s[j + 1];
    }
    if |s| > 1 {
      assert t[0] == s[1];
    }
  }

  /** An element that may precede the head of `s` is inserted in front. */
  lemma InsertAtHead(x: TileId, s: seq<TileId>, dir: Direction, heap: seq<Tile>, descending: bool)
    requires x < |heap| && IdsIn(s, heap)
    requires |s| == 0 || InOrder(Key(dir, heap, x), Key(dir, heap, s[0]), descending)
    ensures Insert(x, s, dir, heap, descending) == [x] + s
  {
  }

  /** Sorting a sequence that is already in order changes nothing. */
  lemma {:induction false} SortBySorted(s: seq<TileId>, dir: Direction, heap: seq<Tile>, descending: bool)
    requires IdsIn(s, heap) && SortedBy(s, dir, heap, descending)
    ensures SortBy(s, dir, heap, descending) == s
  {
    if |s| > 0 {
      var t := s[1..];
      assert IdsIn(t, heap);
      SortedTail(s, dir, heap, descending);
      SortBySorted(t, dir, heap, descending);
      InsertAtHead(s[0], t, dir, heap, descending);
      assert s == [s[0]] + t;
    }
  }

}

=== FILE: tilemap.dfy ===
/** The board dictionary `tiles`: a Python dict from cell key to tile object,
    modelled as its entries in insertion order. Assigning to a key already
    present replaces the tile in place; a new key is appended. The order
    matters because the next pass sorts `tiles.values()` stably. */
module TileMap {

  import opened Wrappers
  import opened Geometry

  /** Identity of a tile object: its index in the heap of tiles. */
  type TileId = nat

  datatype Entry = Entry(key: Cell, id: TileId)

  type Dict = seq<Entry>

  predicate UniqueKeys(d: Dict) {
    forall i, j :: 0 <= i < j < |d| ==> d[i].key != d[j].key
  }

  function Keys(d: Dict): set<Cell> {
    set e | e in d :: e.key
  }

  /** `tiles.values()`, in insertion order. */
  function Values(d: Dict): (ids: seq<TileId>)
    ensures |ids| == |d|
    ensures forall i :: 0 <= i < |d| ==> ids[i] == d[i].id
  {
    seq(|d|, i requires 0 <= i < |d| => d[i].id)
  }

  /** Position of the entry for `k`, or -1 when there is none. */
  function IndexOf(d: Dict, k: Cell): (r: int)
    ensures -1 <= r < |d|
    ensures r == -1 <==> forall i :: 0 <= i < |d| ==> d[i].key != k
    ensures r >= 0 ==> d[r].key == k && forall i :: 0 <= i < r ==> d[i].key != k
  {
    if |d| == 0 then -1
    else if d[0].key == k then 0
    else
      var r := IndexOf(d[1..], k);
      if r < 0 then -1 else r + 1
  }

  /** `tiles.get(key)`. */
  function Get(d: Dict, k: Cell): (r: Option<TileId>)
    ensures r.None? <==> k !in Keys(d)
    ensures r.Some? ==> Entry(k, r.value) in d
  {
    var i := IndexOf(d, k);
    if i < 0 then None else Some(d[i].id)
  }

  /** `tiles[key] = tile`. */
  function Put(d: Dict, k: Cell, id: TileId): (r: Dict)
    ensures Get(r, k) == Some(id)
    ensures Keys(r) == Keys(d) + {k}
    ensures |r| == if k in Keys(d) then |d| else |d| + 1
    ensures UniqueKeys(d) ==> UniqueKeys(r)
    ensures forall k' :: k' != k ==> Get(r, k') == Get(d, k')
    ensures forall e :: e in r ==> e in d || e == Entry(k, id)
    ensures k !in Keys(d) ==> Values(r) == Values(d) + [id]
    ensures k in Keys(d) && UniqueKeys(d) ==>
      |r| == |d| && forall i :: 0 <= i < |d| ==> r[i] == (if d[i].key == k then Entry(k, id) else d[i])
  {
    var i := IndexOf(d, k);
    if i < 0 then
      PutNewKey(d, k, id);
      d + [Entry(k, id)]
    else
      PutKnownKey(d, i, k, id);
      d[i := Entry(k, id)]
  }

  /** A key not yet present is appended at the end. */
  lemma PutNewKey(d: Dict, k: Cell, id: TileId)
    requires IndexOf(d, k) < 0
    ensures var r := d + [Entry(k, id)];
      && IndexOf(r, k) == |d|
      && Keys(r) == Keys(d) + {k} && k !in Keys(d)
      && (UniqueKeys(d) ==> UniqueKeys(r))
      && (forall k' :: k' != k ==> IndexOf(r, k') == IndexOf(d, k'))
      && Values(r) == Values(d) + [id]
  {
    var r := d + [Entry(k, id)];
    assert r[..|d|] == d;
    assert Keys(r) == Keys(d) + {k};
  }

  /** A key already present keeps its place; only its tile changes. */
  lemma PutKnownKey(d: Dict, i: int, k: Cell, id: TileId)
    requires i == IndexOf(d, k) && i >= 0
    ensures var r := d[i := Entry(k, id)];
      && r[i] == Entry(k, id)
      && Keys(r) == Keys(d) && k in Keys(d)
      && (UniqueKeys(d) ==> UniqueKeys(r))
      && (forall k' :: IndexOf(r, k') == IndexOf(d, k'))
      && (UniqueKeys(d) ==> forall j :: 0 <= j < |d| ==> r[j] == (if d[j].key == k then Entry(k, id) else d[j]))
  {
    var r := d[i := Entry(k, id)];
    forall k' ensures IndexOf(r, k') == IndexOf(d, k') {
      IndexOfUnaffected(d, i, Entry(k, id), k');
    }
    assert Keys(r) == Keys(d) by {
      forall c | c in Keys(r) ensures c in Keys(d) {
        var e :| e in r && e.key == c;
        var j :| 0 <= j < |r| && r[j] == e;
        if j == i { assert d[i].key == c; } else { assert d[j] == e; }
      }
      forall c | c in Keys(d) ensures c in Keys(r) {
        var e :| e in d && e.key == c;
        var j :| 0 <= j < |d| && d[j] == e;
        if j == i { assert r[i].key == c; } else { assert r[j] == e; }
      }
    }
  }

  /** Overwriting an entry under its own key moves no key. */
  lemma {:induction false} IndexOfUnaffected(d: Dict, i: int, e: Entry, k: Cell)
    requires 0 <= i < |d| && d[i].key == e.key
    ensures IndexOf(d[i := e], k) == IndexOf(d, k)
  {
    var r := d[i := e];
    forall j | 0 <= j < |d| ensures (r[j].key == k) == (d[j].key == k) {
    }
    if IndexOf(d, k) == -1 {
      assert IndexOf(r, k) == -1;
    } else {
      assert IndexOf(r, k) == IndexOf(d, k);
    }
  }

  /** Storing a tile that is not yet in the dictionary lists no tile twice. */
  lemma PutKeepsNoDup(d: Dict, k: Cell, id: TileId)
    requires UniqueKeys(d) && id !in Values(d)
    requires forall i, j :: 0 <= i < j < |d| ==> d[i].id != d[j].id
    ensures var r := Put(d, k, id); forall i, j :: 0 <= i < j < |r| ==> r[i].id != r[j].id
  {
    if k in Keys(d) {
      OverwriteKeepsNoDup(d, k, id);
    } else {
      AppendKeepsNoDup(d, k, id);
    }
  }

  lemma OverwriteKeepsNoDup(d: Dict, k: Cell, id: TileId)
    requires UniqueKeys(d) && id !in Values(d) && k in Keys(d)
    requires forall i, j :: 0 <= i < j < |d| ==> d[i].id != d[j].id
    ensures var r := Put(d, k, id); forall i, j :: 0 <= i < j < |r| ==> r[i].id != r[j].id
  {
    var r := Put(d, k, id);
    forall i, j | 0 <= i < j < |r| ensures r[i].id != r[j].id {
      assert Values(d)[i] == d[i].id && Values(d)[j] == d[j].id;
      assert d[i].key != d[j].key;
    }
  }

  lemma AppendKeepsNoDup(d: Dict, k: Cell, id: TileId)
    requires id !in Values(d) && k !in Keys(d)
    requires forall i, j :: 0 <= i < j < |d| ==> d[i].id != d[j].id
    ensures var r := Put(d, k, id); forall i, j :: 0 <= i < j < |r| ==> r[i].id != r[j].id
  {
    var r := Put(d, k, id);
    forall i, j | 0 <= i < j < |r| ensures r[i].id != r[j].id {
      assert Values(r)[i] == r[i].id && Values(r)[j] == r[j].id;
    }
  }

  /** With unique keys, the entry stored for a key is what `Get` finds. */
  lemma GetFindsEntry(d: Dict, k: Cell, id: TileId)
    requires UniqueKeys(d) && Entry(k, id) in d
    ensures Get(d, k) == Some(id)
  {
    var i :| 0 <= i < |d| && d[i] == Entry(k, id);
    var j :| 0 <= j < |d| && d[j] == Entry(k, Get(d, k).value);
    assert i == j;
  }

}

=== FILE: wrappers.dfy ===
/** The optional value used for dictionary lookups and for computations that
    run out of fuel or random draws. */
module Wrappers {

  datatype Option<+T> = None | Some(value: T)

}
